=== FILE: README.md ===
# Viringo harvester core, modelled in Dafny

Viringo is an OAI-PMH server whose records come from one of two backends, each
behind the same service interface:

- **The FRDR adapter** reads the Federated Research Data Repository's PostgreSQL
  catalogue. Every harvested record gets one canonical URL from an ordered chain of
  rules, the resolver. The record row is merged with its lookup tables: authors,
  subjects, tags, rights, descriptions and geospatial points. From that the adapter
  builds a metadata object and a synthesised DataCite kernel-4 XML document. It
  also lists records page by page with an SQL query and lists the repositories as
  sets.
- **The DataCite adapter** reads the DataCite REST API. It turns one JSON:API DOI
  entry into the same kind of metadata object. It builds the query string of the
  `/dois` listing request and reads the cursor of the next page from the response.
  It lists clients and providers as sets, sorted by id.

The model keeps the structure of the two source files. The modules are:

- `Base`: option, result and set-entry types.
- `Text`: the Python string operations the code uses.
- `FirstOccurrence`: the order-preserving de-duplication loop.
- `Patterns`: the three regular expressions of the resolver.
- `Resolver`: the rule chain.
- `FrdrLookups`: `rows_to_dict` and the geospatial scan.
- `FrdrRecords`: `assemble_record`.
- `Xml`: the element tree.
- `FrdrXml`: the synthesised XML.
- `FrdrMetadata`: the FRDR `build_metadata`.
- `FrdrListing`: the SQL query, the page loop and the sets.
- `Temporal`: date-times and their ISO form.
- `DataciteRecord`: the DataCite `build_metadata` and `strip_uri_prefix`.
- `DataciteListing`: the request and the response of the listing.
- `DataciteSets`: the DataCite `get_sets`.

Everything the code delegates to the outside is a parameter of the model. This
covers the database, the HTTP call, the date parser, base64 decoding, `float()`,
the link parser and the clock:

- `database(sql)` is the rows a query returns.
- `lookupsOf(record_id)` is the lookup tables of one record.
- `api(payload)` is the API's answer to a request.
- `parseDate(s)` gives the local year and the UTC time.
- `decode` is the base64 decoding.
- `toFloat` is `float()`, with `None` where `float()` raises.
- `cursorOf(link)` is the `page[cursor]` value of a link.
- `now` is the current time.

Python exceptions that the code lets escape are modelled as `Err` values, and the
error kind is kept.

Where the code and its design description disagree, the model follows the code:

- The pattern rule of the resolver fires whenever `item_url_pattern` is non-empty, even without `%id%` in it. The pattern is then returned unchanged.
- The DOI rule strips trailing `\` and `.` characters. It then rewrites every `doi:`/`DOI:` tag inside the match, not only the leading one.
- The geospatial scan keeps the features parsed before the first bad coordinate. Later rows are skipped, and a polygon is still emitted from the points gathered so far.
- `strip_uri_prefix` raises `ValueError` when `https://doi.org/` occurs a second time in the identifier.
- The XML `identifier` fills `%id%` with the raw local identifier. The resolver fills it with the OAI local id, so the two agree only for non-OAI identifiers.
- The FRDR `created` and `updated` times both come from `pub_date`. `publication_year` is the year of the parsed date, while the XML's `publicationyear` is the first four characters of `pub_date`.
- DataCite `isActive` is read from the top level of the entry, not from its attributes.
- The DataCite `get_sets` is described as a union of clients and providers. The code's `not in` test compares an id string with a list of tuples, so it never filters, and an id that is both a client and a provider is listed twice (see Findings).

## Model

| member | source | states |
|---|---|---|
| Resolver.ConstructLocalUrl | viringo/services/frdr.py:215-253 | An identifier containing "http" in any case is returned as it is. Otherwise a non-empty item URL pattern gets every `%id%` replaced. The result is absent exactly when no rule applies: no URL-like identifier, no pattern, no DOI match, no source URL and no URL match. |
| Resolver.HttpIdentifierPassesThrough | viringo/services/frdr.py:216-218 | An identifier containing "http" resolves to itself, whatever the pattern and source URL. |
| Resolver.PatternIgnoresSourceUrl | viringo/services/frdr.py:220-233 | Once a pattern is set, the source URL has no influence on the resolved URL. |
| Resolver.PatternWithoutPlaceholder | viringo/services/frdr.py:220-233 | A pattern without `%id%` is returned unchanged as the record's URL. |
| Resolver.OaiIdentifierFillsPattern | viringo/services/frdr.py:220-233 | For `oai:domain:local` the placeholder is filled with the local part, with underscores turned back into colons. |
| Resolver.FillFirstPlaceholder | viringo/services/frdr.py:232-233 | Replacing `%id%` fills the first placeholder and continues with the rest of the pattern. |
| Resolver.OaiPatternId | viringo/services/frdr.py:222-231 | The id substituted for `oai:domain:local` is the local part with `_` mapped to `:`. |
| Resolver.DoiIdentifierResolves | viringo/services/frdr.py:235-240 | A `doi:`/`DOI:` identifier, without a pattern, resolves to `https://doi.org/` followed by the DOI with trailing `\` and `.` stripped. |
| Resolver.DoiSearchWhole | viringo/services/frdr.py:235-237 | The DOI pattern matches a whole tag + optional space + non-space identifier. |
| Resolver.DoiRewriteStripped | viringo/services/frdr.py:238-240 | Rewriting the stripped match replaces the tag by the resolver prefix. |
| Resolver.DoiExample | viringo/services/frdr.py:235-240 | `doi: 10.1/xyz.` resolves to `https://doi.org/10.1/xyz`. |
| Resolver.SourceUrlIsFallback | viringo/services/frdr.py:242-244 | Without a URL-like identifier, a pattern or a DOI, a non-empty source URL is the answer. |
| Resolver.UrlInIdentifierIsFtp | viringo/services/frdr.py:246-253 | When the last rule finds a URL in an identifier that contains no "http", that URL is an `ftp://` one. |
| Resolver.RStripCharsAfter | viringo/services/frdr.py:238 | Stripping trailing characters never reaches past a character outside the stripped set. |
| Patterns.OaiLocalIdOfComposite | viringo/services/frdr.py:222-225 | The OAI pattern captures the part after the last colon of `oai:domain:local`. |
| Patterns.OaiLocalId | viringo/services/frdr.py:222-225 | A captured local id is non-empty and leaves room for `oai:`, a domain character and a colon before it. |
| Patterns.DoiSearch | viringo/services/frdr.py:236 | A DOI match holds at least the tag and one character. |
| Patterns.DoiMatchAt | viringo/services/frdr.py:236 | A match at a position starts there with `doi:` or `DOI:` and holds at least one more character. |
| Patterns.RewriteDoiTags | viringo/services/frdr.py:239 | The rewrite never shortens the text; a leading tag becomes `https://doi.org/`, and text not starting with a tag keeps its first character. |
| Patterns.DoiUrl | viringo/services/frdr.py:238-239 | Stripping trailing dots and backslashes never reaches the tag's colon, so a DOI match always resolves to a `https://doi.org/` URL. |
| Patterns.UrlSearch | viringo/services/frdr.py:247-250 | A URL match starts with `ftp://`, `http://` or `https://` and has a host after the scheme. |
| Patterns.UrlMatchAt | viringo/services/frdr.py:247-248 | A match at a position is a prefix of the text from there, begins with an accepted scheme and has a host. |
| Patterns.OaiLocalIdIsSuffix | viringo/services/frdr.py:222-225 | A captured OAI local id is a non-empty proper suffix of the identifier that follows a colon and has no colon before its last character. |
| Patterns.RewriteNoTags | viringo/services/frdr.py:238-240 | Text without a `doi:`/`DOI:` tag is left unchanged by the tag rewrite. |
| Patterns.UrlSearchWithoutHttp | viringo/services/frdr.py:246-253 | Without "http" in the text, the URL pattern can only match an `ftp://` URL. |
| Patterns.SchemeLength | viringo/services/frdr.py:247 | The URL scheme alternatives are `ftp://`, `http://` and `https://`, with lengths 6, 7 and 8. |
| FrdrLookups.RowsToDict | viringo/services/frdr.py:256-265 | No cursor gives the empty list; otherwise there is one value per truthy row. |
| FrdrLookups.Flatten | viringo/services/frdr.py:259-264 | One value per truthy row; when every row is truthy, it is the first cell of each row in order. |
| FrdrLookups.FlattenAppend | viringo/services/frdr.py:259-264 | Flattening distributes over concatenation of row lists. |
| FrdrLookups.FlattenFromRows | viringo/services/frdr.py:259-264 | Every flattened value is the cell of some truthy row. |
| FrdrLookups.FlattenSkipsFalsy | viringo/services/frdr.py:260 | Falsy rows contribute nothing. |
| FrdrLookups.ParseRow | viringo/services/frdr.py:291-293 | A coordinate row parses exactly when both lat and lon convert, and then to those two values. |
| FrdrLookups.ParsedPrefix | viringo/services/frdr.py:288-295 | The rows before the first conversion failure all parse, and the row at that position does not. |
| FrdrLookups.Geospatial | viringo/services/frdr.py:283-298 | At most one feature per parsed row; only the last feature may be the polygon, and it then has at least one point. |
| FrdrLookups.GeospatialShape | viringo/services/frdr.py:288-298 | The features are the scan's point features, then, exactly when a corner was gathered, one `Polygon` feature holding every corner. |
| FrdrLookups.GeospatialGathers | viringo/services/frdr.py:283-298 | The features are the point features of the non-polygon rows before the first unparsable row, then one polygon of the corners of the polygon rows before it, when there is any. |
| FrdrLookups.GeospatialStopsAtFailure | viringo/services/frdr.py:288-298 | A row that does not convert hides the rows after it, but the point features and the polygon gathered before it are still emitted. |
| FrdrLookups.ScanGathers | viringo/services/frdr.py:288-295 | The scan gathers exactly the point features of the non-polygon rows and the corners of the polygon rows, in row order, up to the first unparsable row. |
| FrdrLookups.ScanCount | viringo/services/frdr.py:288-295 | Every parsed row becomes either a feature or a polygon point. |
| FrdrLookups.Scan | viringo/services/frdr.py:288-295 | Every feature has a non-polygon geometry type and a coordinate pair. |
| FrdrLookups.ScanStopsAtFailure | viringo/services/frdr.py:294-295 | A row whose coordinates do not convert ends the scan: nothing after it is read. |
| FrdrLookups.ScanOne | viringo/services/frdr.py:290-293 | A parsable `Polygon` row becomes a corner of the polygon; any other type becomes a point feature of that type. |
| FrdrLookups.ScanCons | viringo/services/frdr.py:289-293 | A parsable row is handled first and the rest of the rows after it, features and polygon corners each keeping row order. |
| FrdrLookups.ScanAppend | viringo/services/frdr.py:289-293 | Scanning parsed rows then more rows is the concatenation of the two scans. |
| FrdrRecords.AssembleRecord | viringo/services/frdr.py:268-338 | The record is dropped exactly when it does not resolve, is deleted or has an empty title. A kept record carries its row, its resolved source URL and the geospatial features of its geodata rows, and no more entries than its lookup tables. |
| FrdrRecords.Resolve | viringo/services/frdr.py:269 | A record with an item URL pattern or a source URL always resolves. |
| FrdrRecords.GuardPrecedesLookups | viringo/services/frdr.py:269-277 | Whether a record is kept does not depend on its lookup tables. |
| FrdrRecords.UrlIdentifierIsSource | viringo/services/frdr.py:269-277 | A live, titled record whose identifier is a URL is kept, with that URL as its source. |
| FrdrXml.IdentifierText | viringo/services/frdr.py:73-79 | The identifier is the source URL, unless that is empty and a pattern with `%id%` and a non-empty local id are present; then it is the pattern with every `%id%` replaced by the local id. |
| FrdrXml.NonEmpty | viringo/services/frdr.py:143-144 | Exactly the non-empty entries are kept, and the result is empty exactly when every entry is empty; order and repeats are stated by the three lemmas below. |
| FrdrXml.NonEmptyOne | viringo/services/frdr.py:144 | One entry is kept exactly when it is not the empty string. |
| FrdrXml.NonEmptyAppend | viringo/services/frdr.py:143-144 | The filter goes entry by entry: filtering `a + b` gives the filtered `a` followed by the filtered `b`, so order is kept. |
| FrdrXml.NonEmptyKeepsAll | viringo/services/frdr.py:143-144 | Entries that are all non-empty come back unchanged: same order, duplicates included. |
| FrdrXml.RightsChildren | viringo/services/frdr.py:143-149 | Child `i` of `rightsList` is the rights element of the `i`-th non-empty rights or access entry. |
| FrdrXml.RightsPart | viringo/services/frdr.py:142-152 | `rightsList` is present exactly when some entry is non-empty, and then holds exactly the rights children. |
| FrdrXml.DescriptionChildren | viringo/services/frdr.py:156-160 | Child `i` of `descriptions` is an `Abstract` description whose text is the `i`-th non-empty English or French description. |
| FrdrXml.DescriptionsPart | viringo/services/frdr.py:155-163 | `descriptions` is present exactly when some description is non-empty, and then holds exactly the description children. |
| FrdrXml.RightsElement | viringo/services/frdr.py:145-149 | A rights entry with "http" is split at its first "http": the text is the stripped part before it and the one `rightsURI` attribute is the stripped part from it on. An entry without "http" keeps its text unchanged and has no attribute. |
| FrdrXml.RightsUriIsUrl | viringo/services/frdr.py:148 | The `rightsURI` starts with "http". |
| FrdrXml.RightsSplitRoundTrip | viringo/services/frdr.py:147-149 | `statement + spaces + url` is split back into the statement text and the URL attribute. |
| FrdrXml.FirstHttpAfterGap | viringo/services/frdr.py:148-149 | The split point is the first "http", which lies after the statement and the gap. |
| FrdrXml.FixedChildren | viringo/services/frdr.py:73-132 | The ten elements every document has, in source order. |
| FrdrXml.ConstructDataciteXml | viringo/services/frdr.py:66-166 | A `resource` root with the kernel-4 namespace attributes, at least the ten fixed children, the identifier first and the subjects sixth. |
| FrdrXml.ResourceChildOrder | viringo/services/frdr.py:66-163 | The first ten children are the fixed ones. The series, rights list and descriptions follow, each present only when it has content. |
| FrdrXml.SubjectsAreMerged | viringo/services/frdr.py:101-108 | The subjects element lists every subject and tag once, and nothing else. |
| FrdrXml.IdentifierAgreesWithResolver | viringo/services/frdr.py:73-79 | For a non-empty, non-OAI identifier without "http", with no source URL and a pattern containing `%id%`, the XML identifier equals the resolver's URL. |
| FrdrXml.OaiIdentifierInXml | viringo/services/frdr.py:73-79 | For an OAI identifier the XML fills the placeholder with the whole identifier while the resolver uses the local part. |
| FrdrMetadata.BuildMetadata | viringo/services/frdr.py:168-212 | Identifier, title, created = updated = the UTC time of `pub_date`, year of the parsed date, descriptions, rights, fixed resource type and active flag, and the resolved URL as the only identifier. |
| FrdrMetadata.AssembledIdentifierIsSource | viringo/services/frdr.py:210 | For an assembled record the identifier list is exactly its source URL. |
| FrdrMetadata.SubjectsAreMergedTerms | viringo/services/frdr.py:185-190 | Subjects hold no duplicate, and a term is among them exactly when it is a subject or an English or French tag. |
| FrdrMetadata.SubjectsMatchXml | viringo/services/frdr.py:101-108 | The metadata subjects are the texts of the XML subjects, in order. |
| FrdrMetadata.SubjectsStable | viringo/services/frdr.py:187-190 | Merging the merged subjects again changes nothing. |
| FirstOccurrence.Dedup | viringo/services/frdr.py:187-190 | No duplicates, every input term present, nothing else, in first-occurrence order. |
| FirstOccurrence.DedupDistinct | viringo/services/frdr.py:187-190 | A list without duplicates is its own merge. |
| FirstOccurrence.DedupIdempotent | viringo/services/frdr.py:187-190 | Merging twice is merging once. |
| FrdrListing.SetClause | viringo/services/frdr.py:358-359 | No filter exactly for no set or `openaire_data`; otherwise the homepage URL filter for that set. |
| FrdrListing.FromClause | viringo/services/frdr.py:360-361 | A lower bound is added exactly when `from` is given, as the inclusive comparison ` AND recs.pub_date>='<from>'`. |
| FrdrListing.UntilClause | viringo/services/frdr.py:362-363 | An upper bound is added exactly when `until` is given, as the exclusive comparison ` AND recs.pub_date<'<until>'`. |
| FrdrListing.OffsetClause | viringo/services/frdr.py:364-365 | An offset is added exactly when a cursor is given. |
| FrdrListing.RecordsSqlShape | viringo/services/frdr.py:357-365 | The query starts with the fixed select, equals it exactly when no filter applies, and ends with the offset when a cursor is given. |
| FrdrListing.RecordsSql | viringo/services/frdr.py:357-365 | The query text always starts with the fixed select. |
| FrdrListing.OpenAireIsUnfiltered | viringo/services/frdr.py:358 | The `openaire_data` set selects what no set selects. |
| FrdrListing.SetFiltersByHomepage | viringo/services/frdr.py:358-359 | Any other set adds its homepage URL filter right after the select. |
| FrdrListing.RowResult | viringo/services/frdr.py:372-376 | A kept row yields one metadata value carrying its record id; an excluded row yields nothing. |
| FrdrListing.RowResultIdentified | viringo/services/frdr.py:374-376 | Every value the loop produces has the row's resolved URL as its identifier. |
| FrdrListing.CollectAppend | viringo/services/frdr.py:371-376 | The loop's output over two parts of a page is the concatenation of the outputs. |
| FrdrListing.Collect | viringo/services/frdr.py:370-376 | A page whose rows all yield nothing gives an empty result. |
| FrdrListing.CollectOnePerRow | viringo/services/frdr.py:371-376 | When each row yields one value, the output has one value per row, in row order. |
| FrdrListing.PageAllKept | viringo/services/frdr.py:371-376 | A page of kept rows yields one value per row carrying that row's id, in order. |
| FrdrListing.PageSkipsExcluded | viringo/services/frdr.py:374-376 | An excluded row leaves the output as if it had not been fetched. |
| FrdrListing.CollectBounded | viringo/services/frdr.py:370-376 | Never more values than fetched rows. |
| FrdrListing.BuildPage | viringo/services/frdr.py:370-376 | The loop computes the per-row outputs concatenated in row order. |
| FrdrListing.GetMetadataList | viringo/services/frdr.py:341-378 | Runs the filtered query and fetches at most the page size of rows. It returns the results of those rows, the query's row count and the number fetched. |
| FrdrListing.GetSets | viringo/services/frdr.py:394-404 | The repositories in order followed by `openaire_data`/`OpenAIRE`, and the count of that list. |
| FrdrListing.ListedSetsSelect | viringo/services/frdr.py:358-359 | Each listed set, passed back as a set, selects its repository by homepage URL; the appended set selects everything. |
| Temporal.IsoFormatLayout | viringo/services/datacite.py:194-196 | `isoformat()` has 19 characters, or 26 with microseconds, with `-`, `T` and `:` in place. |
| Temporal.IsoFormatFields | viringo/services/datacite.py:194-196 | Each field sits at its fixed offset as its zero-padded digits: year at 0-3, month 5-6, day 8-9, hour 11-12, minute 14-15, second 17-18, and the microseconds after a `.` only when they are non-zero. |
| Temporal.IsoFormatDecodes | viringo/services/datacite.py:194-196 | Every rendered field reads back as the datetime's own value, so the range query encodes both bounds exactly. |
| Temporal.Padded | viringo/services/datacite.py:194-196 | Zero-padded decimal fields are digits, and are exactly the width when the number fits; `PaddedValue` gives their value. |
| Temporal.PaddedValue | viringo/services/datacite.py:194-196 | The padded digits read back as the number itself. |
| Text.NatToStringValue | viringo/services/datacite.py:202 | `str(n)` reads back as `n`, so `page[size]` carries the configured size. |
| Text.ZerosValue | viringo/services/datacite.py:194-196 | Leading zeros do not change a decimal value. |
| DataciteRecord.StripUriPrefix | viringo/services/datacite.py:147-154 | A missing or empty identifier gives "". A prefixed one gives what follows `https://doi.org/`, or raises `ValueError` when the prefix occurs again. Any other identifier is unchanged. |
| DataciteRecord.StripUriPrefixRoundTrip | viringo/services/datacite.py:149-151 | Prefixing a DOI that holds no prefix and stripping it gives the DOI back. |
| DataciteRecord.StripUriPrefixIdempotent | viringo/services/datacite.py:147-154 | Stripping a stripped identifier changes nothing. |
| DataciteRecord.ResolverUrlStrips | viringo/services/datacite.py:150-151 | A resolver URL strips to its DOI. |
| DataciteRecord.FieldValues | viringo/services/datacite.py:82-96 | A null list gives []; otherwise one value per entry, the key's value or "" when the key is missing. |
| DataciteRecord.RightsValues | viringo/services/datacite.py:134-137 | One statement/URI pair per rights entry, in order; each is the entry's `rights` / `rightsUri` value, and absent exactly when its key is missing. |
| DataciteRecord.ResourceTypes | viringo/services/datacite.py:110-114 | The general type first, then the specific type, each present exactly when given; two given types give two entries even when equal. |
| DataciteRecord.Identifiers | viringo/services/datacite.py:118-125 | Fails with `ValueError` exactly when a listed identifier fails to strip; never more entries than given. |
| DataciteRecord.IdentifiersStripped | viringo/services/datacite.py:118-125 | On success there is one entry per listed identifier, in order, each with its type and its identifier stripped of the resolver prefix. |
| DataciteRecord.IdentifiersWithoutPrefix | viringo/services/datacite.py:118-125 | Without prefixed identifiers the result is the listed type/identifier pairs in order. |
| DataciteRecord.IdentifiersSkipUnlisted | viringo/services/datacite.py:121 | An entry with an empty identifier is skipped as if absent. |
| DataciteRecord.Active | viringo/services/datacite.py:143 | Active exactly when there is a non-empty decoded document and `isActive` is absent or truthy. |
| DataciteRecord.BuildMetadata | viringo/services/datacite.py:66-145 | A null identifier list raises `TypeError`. A failing strip raises `ValueError`. A missing client id raises `AttributeError`. On success it keeps the id, upper-cases the client and lists the stripped identifiers. |
| DataciteRecord.NullAttributesBecomeEmpty | viringo/services/datacite.py:82-137 | Null list attributes become [] and null scalar ones "". |
| DataciteRecord.MappedListsKeepOrder | viringo/services/datacite.py:82-88 | Titles and creators are one value per entry, in order, "" for a missing key. |
| DataciteRecord.ActiveRule | viringo/services/datacite.py:141-143 | The record's active flag follows the document and `isActive` rule. |
| DataciteRecord.ResourceTypesOfRecord | viringo/services/datacite.py:110-114 | At most two resource types, none exactly when neither is present. |
| DataciteListing.StartCursor | viringo/services/datacite.py:181-183 | A missing or empty (falsy) cursor becomes "1"; a non-empty one is kept as given. |
| DataciteListing.EffectiveUntil | viringo/services/datacite.py:185-187 | `until` is absent exactly when neither bound is given, and a given `until` is kept. |
| DataciteListing.RangeQuery | viringo/services/datacite.py:192-196 | With both bounds the range query is exactly `updated:[<from>+TO+<until>]` in ISO format; it is empty exactly when a bound is missing. |
| Temporal.IsoFormat | viringo/services/datacite.py:195 | `isoformat()` text contains only digits and the separators `-`, `T`, `:` and `.`. |
| DataciteListing.CombinedQuery | viringo/services/datacite.py:206-213 | The user query and the range are joined with " AND ", either alone otherwise; none when both are empty. |
| DataciteListing.Params | viringo/services/datacite.py:198-213 | Exactly `detail=True`, `provider_id`, `client_id`, `page[size]` as the decimal page size and `page[cursor]`, in that order, then `query` carrying the query value when there is one. |
| DataciteListing.RenderedSkipsNone | viringo/services/datacite.py:217 | Parameters whose value is `None` are left out of the payload. |
| DataciteListing.PayloadSplitsBack | viringo/services/datacite.py:217 | Splitting the payload at `&` gives back the rendered `k=v` pairs. |
| DataciteListing.Rendered | viringo/services/datacite.py:217 | One `k=v` part per parameter whose value is not `None`. |
| DataciteListing.RenderedInOrder | viringo/services/datacite.py:217 | The parts follow the parameters' order: a valued parameter's part sits after the parts of the valued parameters before it. |
| DataciteListing.Payload | viringo/services/datacite.py:217 | The payload is empty exactly when no parameter has a value. |
| DataciteListing.RequestPayload | viringo/services/datacite.py:181-217 | The request payload is never empty, since `detail=True` is always sent. |
| DataciteListing.QueryOnlyRequest | viringo/services/datacite.py:181-217 | A request with only a query starts at cursor "1" and sends no range. |
| DataciteListing.QueryOnlyParts | viringo/services/datacite.py:198-217 | A query-only request renders `detail=True`, `page[size]=<n>`, `page[cursor]=1`, `query=<q>`, in that order. |
| DataciteListing.QueryOnlyPayload | viringo/services/datacite.py:181-217 | A query-only request sends exactly `detail=True&page[size]=<n>&page[cursor]=1&query=<q>`. |
| DataciteListing.UntilAloneIsIgnored | viringo/services/datacite.py:186-196 | An `until` without a `from` adds no range to the request. |
| DataciteListing.FromAloneRunsToNow | viringo/services/datacite.py:186-210 | A `from` alone gives the range from it to the current time. |
| DataciteListing.NoQueryNoQueryParam | viringo/services/datacite.py:206-213 | Without a query or range there is no `query` parameter. |
| DataciteListing.BuildAll | viringo/services/datacite.py:235-239 | On success one record per entry, each built from it. It fails exactly when some entry fails to build. |
| DataciteListing.NextPage | viringo/services/datacite.py:228-233 | Paging ends exactly when there is no next link; otherwise the next cursor is the one taken from the link. |
| DataciteListing.HandleListResponse | viringo/services/datacite.py:221-245 | A zero total means no matches and 4xx/5xx raises. Any other non-200 status returns nothing. A page holds one record per data entry and the next link's cursor. |
| DataciteListing.GetMetadataList | viringo/services/datacite.py:171-245 | The response to the built request is interpreted as above. |
| DataciteListing.PageFollowsData | viringo/services/datacite.py:235-241 | Each record of a page is the record built from the entry at the same position. |
| DataciteListing.PageUnlessBuildFails | viringo/services/datacite.py:221-241 | A 200 with matches gives a page exactly when every entry builds. |
| DataciteListing.LastPageEndsPaging | viringo/services/datacite.py:232-233 | Without a next link the returned cursor ends paging. |
| DataciteSets.Insert | viringo/services/datacite.py:275 | Insertion adds exactly the one entry. |
| DataciteSets.InsertSorted | viringo/services/datacite.py:275 | Inserting into a sorted list keeps it sorted by id. |
| DataciteSets.SortById | viringo/services/datacite.py:274-275 | The sorted list is a permutation of the input, ordered by id. |
| DataciteSets.InsertWithId | viringo/services/datacite.py:275 | Insertion places an entry before all entries with its id. |
| DataciteSets.SortStable | viringo/services/datacite.py:275 | Entries with equal ids keep their relative order, as `list.sort` is stable. |
| DataciteSets.Collected | viringo/services/datacite.py:265-272 | The clients, then the providers, all of them. |
| DataciteSets.GetSets | viringo/services/datacite.py:247-279 | 4xx/5xx raises and a zero total gives none. Otherwise the result is sorted by id and is a permutation of clients plus providers. |
| DataciteSets.SetsCount | viringo/services/datacite.py:265-272 | There is one set per client and per provider. |
| DataciteSets.SetsSameIdOrder | viringo/services/datacite.py:265-275 | Entries sharing an id appear clients first, then providers, each in response order. |
| DataciteSets.SharedIdListedTwice | viringo/services/datacite.py:266-272 | An id that is both a client and a provider appears twice in the result. |
| DataciteSets.SortKeepsDistinct | viringo/services/datacite.py:275 | Sorting does not introduce duplicate ids. |
| DataciteSets.SortKeepsIds | viringo/services/datacite.py:275 | Sorting keeps exactly the ids. |
| DataciteSets.AddUnseen | viringo/services/datacite.py:266-272 | Adding only unseen ids keeps ids distinct and covers exactly the ids of both lists. |
| DataciteSets.GetSetsDistinct | viringo/services/datacite.py:247-279 | The union the code evidently intends: sorted, each id once, exactly the ids of clients and providers. |
| Text.SplitJoin | viringo/services/datacite.py:217 | Joining with a separator that occurs in no part and splitting again gives the parts back. |
| Text.LexLeqTransitive | viringo/services/datacite.py:275 | String order, the sort key's order, is transitive. |
| Text.StripSurrounded | viringo/services/frdr.py:148-149 | `strip()` removes exactly the surrounding whitespace. |
| Text.ReplaceAll | viringo/services/frdr.py:79 | `str.replace`: a match at the front is replaced, and otherwise the first character is kept. |
| Text.ReplaceAllAbsent | viringo/services/frdr.py:232 | Replacing a pattern that does not occur leaves the text unchanged. |
| Text.ReplaceAllFront | viringo/services/frdr.py:230 | A text that starts with the pattern has that occurrence replaced first. |
| Text.ReplaceChar | viringo/services/frdr.py:225 | `replace` of one character: the same length, with exactly the occurrences of the old character changed. |
| Text.ToLower | viringo/services/frdr.py:217 | `lower()` on ASCII letters: the same length, each character lowered. |
| Text.ContainsLowered | viringo/services/frdr.py:217 | Text without capitals found in a string is still found after lower-casing it. |
| Text.RStripChars | viringo/services/frdr.py:238 | `rstrip` removes a suffix made only of the given characters and stops at the first one that is not. |
| Text.JoinFour | viringo/services/datacite.py:217 | Joining four parts puts the separator between neighbours. |

## Left out

- The database connection, the SQL engine and the HTTP client: `psycopg2` and `requests` become function parameters. The query and the request are modelled as the strings that are sent.
- Logging, `config` values (the page size is a parameter), `datetime.now()` (a parameter) and `dateutil` parsing (a parameter giving year and UTC time).
- `get_metadata` of both adapters (frdr.py:381-391, datacite.py:156-169): a single lookup by identifier that reuses `assemble_record`/`build_metadata` as modelled. The FRDR one also fails on a missing row, through `zip` with `None`.
- `ET.tostring`: the FRDR document is kept as an element tree, and the byte serialisation is not modelled.
- `base64.b64decode`, `float()`, `urlparse`/`parse_qs`: parameters. Decoding errors of the first are not modelled.
- Python's `re` engine in general: the three resolver patterns are modelled by hand. `\w` is ASCII word characters, and the replacement string of `re.sub` is taken literally.
- Unicode case mapping: `lower()` and `upper()` map ASCII letters only. Whitespace is the full set Python's `str.isspace()` accepts.
- `KeyError`s for missing JSON keys and SQL `NULL` columns: the model assumes every key the code subscripts is present and every column is a string. Errors from `.get(...)` misuse are modelled only for the client id.
- JSON numbers are integers; pass-through attributes are opaque JSON values.
- The `datacite:creatorAffiliation` lookup is carried into the record, as in the code, which never reads it afterwards. `frdr:description_fr` and `frdr:access` reach only the XML.
- The row-to-dict `zip` of frdr.py:372 is the `Row` datatype itself.
- Resolver.ConstructLocalUrl: states the first two rules and when no rule applies; the DOI, source and URL rules are stated by the lemmas named above rather than in its own contract.
- FrdrXml.ConstructDataciteXml: states the root, the fixed prefix and two children; the full child order is `FrdrXml.ResourceChildOrder`.
- DataciteListing.GetMetadataList: the `NothingReturned` case (a status that is neither 200 nor an error) is stated by `DataciteListing.HandleListResponse`.
- DataciteRecord.BuildMetadata: date and related-identifier entries are taken with their keys present; a missing key would raise `KeyError`, which is not modelled.

## Findings

| source | as written | input that shows it | evidently intended | confidence | as-written member | corrected member |
|---|---|---|---|---|---|---|
| viringo/services/datacite.py:266-272 | `if entry['id'] not in results` tests a string against a list of `(id, name)` tuples, so it is always true and nothing is filtered | a response whose clients and providers both contain an entry with id `abc` lists `abc` twice | each set id listed once: the union of clients and providers | not executed | DataciteSets.SharedIdListedTwice | DataciteSets.GetSetsDistinct |

=== FILE: base.dfy ===
/** Optional values and success/failure results shared by every module of the model. */
module Base {

  /** A value that may be missing: Python's `None` versus a present value. */
  datatype Option<+T> = None | Some(value: T) {

    /** The present value, or `default` when missing (Python's `x if x is not None else default`). */
    function GetOr(default: T): T {
      match this
      case Some(v) => v
      case None => default
    }
  }

  /** The outcome of an operation that may raise: `Ok` carries the value, `Err` the exception. */
  datatype Result<+T, +E> = Ok(value: T) | Err(error: E)

  /** One entry of a set listing: the set's spec (its key) and its display name. */
  datatype SetEntry = SetEntry(spec: string, name: string)

  /** Regrouping a concatenation; stated once so that proofs need not rediscover it. */
  lemma SeqAssoc<T>(x: seq<T>, y: seq<T>, z: seq<T>)
    ensures x + (y + z) == (x + y) + z
  {
  }
}

=== FILE: datacite_listing.dfy ===
/**
 * Listing DOIs from the DataCite REST API (viringo/services/datacite.py:171-245):
 * building the request's query string and interpreting the response. The HTTP
 * call is a parameter: `api(payload)` is the response to the request with that
 * query string.
 */
module DataciteListing {
  import opened Base
  import opened Text
  import opened Temporal
  import opened DataciteRecord

  // ---------------------------------------------------------------------------
  // The request

  /** One request parameter: its name and its value as `%s` renders it, `None` for Python's `None`. */
  datatype Param = Param(key: string, value: Option<string>)

  /** `if not cursor: cursor = 1`: a missing or empty cursor starts at the first page. */
  function StartCursor(cursor: Option<string>): (c: string)
    ensures c != ""
    ensures cursor.None? || cursor.value == "" ==> c == "1"
    ensures cursor.Some? && cursor.value != "" ==> c == cursor.value
  {
    if cursor.None? || cursor.value == "" then "1" else cursor.value
  }

  /** `until` becomes `now` when only `from` is given. */
  function EffectiveUntil(from: Option<DateTime>, until: Option<DateTime>, now: DateTime): (u: Option<DateTime>)
    ensures u.None? <==> from.None? && until.None?
    ensures until.Some? ==> u == until
  {
    if from.Some? && until.None? then Some(now) else until
  }

  predicate ValidTime(t: Option<DateTime>) {
    t.Some? ==> WellFormed(t.value)
  }

  /** `updated:[F+TO+U]` with both ends in ISO form when both are known, `""` otherwise. */
  function RangeQuery(from: Option<DateTime>, until: Option<DateTime>): (q: string)
    requires ValidTime(from) && ValidTime(until)
    ensures q == "" <==> from.None? || until.None?
    ensures from.Some? && until.Some? ==>
      q == "updated:[" + IsoFormat(from.value) + "+TO+" + IsoFormat(until.value) + "]"
  {
    if from.Some? && until.Some? then
      "updated:[" + IsoFormat(from.value) + "+TO+" + IsoFormat(until.value) + "]"
    else ""
  }

  /** The free-text query joined to the range with " AND "; `None` when both are empty. */
  function CombinedQuery(query: Option<string>, range: string): (q: Option<string>)
    ensures q.Some? ==> q.value != ""
    ensures q.None? <==> (query.None? || query.value == "") && range == ""
    ensures range == "" && q.Some? ==> q == query
    ensures range != "" && query.Some? && query.value != "" ==> q == Some(query.value + " AND " + range)
    ensures range != "" && (query.None? || query.value == "") ==> q == Some(range)
  {
    var q := if range != "" then (if query.Some? && query.value != "" then Some(query.value + " AND " + range) else Some(range)) else query;
    if q.Some? && q.value != "" then q else None
  }

  /** The parameters in insertion order; `query` is added last and only when it is not empty. */
  function Params(providerId: Option<string>, clientId: Option<string>, pageSize: nat, cursor: string, query: Option<string>): (ps: seq<Param>)
    ensures |ps| == if query.Some? then 6 else 5
    ensures ps[0] == Param("detail", Some("True"))
    ensures ps[1] == Param("provider_id", providerId) && ps[2] == Param("client_id", clientId)
    ensures ps[3] == Param("page[size]", Some(NatToString(pageSize)))
    ensures ps[4] == Param("page[cursor]", Some(cursor))
    ensures query.Some? ==> ps[5] == Param("query", query)
  {
    [Param("detail", Some("True")),
     Param("provider_id", providerId),
     Param("client_id", clientId),
     Param("page[size]", Some(NatToString(pageSize))),
     Param("page[cursor]", Some(cursor))]
    + (if query.Some? then [Param("query", query)] else [])
  }

  /** How many parameters have a value. */
  function ValueCount(ps: seq<Param>): nat
    decreases |ps|
  {
    if ps == [] then 0 else (if ps[0].value.Some? then 1 else 0) + ValueCount(ps[1..])
  }

  /** `"%s=%s" % (k, v)` for a parameter with a value. */
  function Part(p: Param): string
    requires p.value.Some?
  {
    p.key + "=" + p.value.value
  }

  /** `k=v` for every parameter whose value is not `None`, in order: one part per valued parameter. */
  function Rendered(ps: seq<Param>): (parts: seq<string>)
    ensures |parts| == ValueCount(ps) <= |ps|
    decreases |ps|
  {
    if ps == [] then []
    else if ps[0].value.Some? then [Part(ps[0])] + Rendered(ps[1..])
    else Rendered(ps[1..])
  }

  /**
   * Where each parameter lands: a valued parameter renders at the position given by
   * the number of valued parameters before it, so the parts keep the parameters' order.
   */
  lemma {:induction false} RenderedInOrder(ps: seq<Param>)
    ensures forall i :: 0 <= i < |ps| && ps[i].value.Some? ==>
      ValueCount(ps[..i]) < |Rendered(ps)| && Rendered(ps)[ValueCount(ps[..i])] == Part(ps[i])
    decreases |ps|
  {
    if ps != [] {
      RenderedInOrder(ps[1..]);
      assert ps[..0] == [];
      assert forall i :: 1 <= i <= |ps| ==> ps[..i][0] == ps[0] && ps[..i][1..] == ps[1..][..i - 1];
      assert forall i :: 1 <= i < |ps| ==> ps[i] == ps[1..][i - 1];
    }
  }

  /** `"&".join(...)` of the rendered parameters. */
  function Payload(ps: seq<Param>): (p: string)
    ensures p == "" <==> ValueCount(ps) == 0
  {
    RenderedHead(ps);
    Join(Rendered(ps), '&')
  }

  /** Every rendered part contains `=`, so the first one is never empty. */
  lemma {:induction false} RenderedHead(ps: seq<Param>)
    ensures Rendered(ps) != [] ==> |Rendered(ps)[0]| > 0
    decreases |ps|
  {
    if ps != [] && ps[0].value.Some? {
      assert Rendered(ps)[0] == Part(ps[0]);
    } else if ps != [] {
      RenderedHead(ps[1..]);
    }
  }

  /**
   * The query string `get_metadata_list` sends, from its arguments, the page size
   * and the current time.
   */
  function RequestPayload(
    query: Option<string>, providerId: Option<string>, clientId: Option<string>,
    from: Option<DateTime>, until: Option<DateTime>, cursor: Option<string>,
    pageSize: nat, now: DateTime): (p: string)
    requires ValidTime(from) && ValidTime(until) && WellFormed(now)
    ensures p != ""
  {
    var u := EffectiveUntil(from, until, now);
    var q := CombinedQuery(query, RangeQuery(from, u));
    Payload(Params(providerId, clientId, pageSize, StartCursor(cursor), q))
  }

  /** The parameters of a query-only request render as the four valued ones, in order. */
  lemma QueryOnlyParts(query: string, pageSize: nat)
    ensures Rendered(Params(None, None, pageSize, "1", Some(query)))
      == ["detail=True", "page[size]=" + NatToString(pageSize), "page[cursor]=1", "query=" + query]
  {
    var ps := Params(None, None, pageSize, "1", Some(query));
    var parts := ["detail=True", "page[size]=" + NatToString(pageSize), "page[cursor]=1", "query=" + query];
    assert Rendered(ps[5..]) == parts[3..] by {
      assert ps[5..] == [ps[5]] && ps[5..][1..] == [];
      assert Part(ps[5]) == parts[3] && parts[3..] == [parts[3]];
    }
    assert Rendered(ps[4..]) == parts[2..] by {
      assert ps[4..][0] == ps[4] && ps[4..][1..] == ps[5..];
      assert Part(ps[4]) == parts[2];
      assert parts[2..] == [parts[2]] + parts[3..];
    }
    assert Rendered(ps[3..]) == parts[1..] by {
      assert ps[3..][0] == ps[3] && ps[3..][1..] == ps[4..];
      assert Part(ps[3]) == parts[1];
      assert parts[1..] == [parts[1]] + parts[2..];
    }
    assert Rendered(ps[1..]) == parts[1..] by {
      assert ps[2..][0] == ps[2] && ps[2..][1..] == ps[3..];
      assert ps[1..][0] == ps[1] && ps[1..][1..] == ps[2..];
    }
    assert Part(ps[0]) == parts[0];
    assert parts == [parts[0]] + parts[1..];
  }

  /**
   * A free-text query without ids, dates or cursor: the request asks for the first
   * page and carries the query last; the unset ids are left out.
   */
  lemma QueryOnlyPayload(query: string, pageSize: nat, now: DateTime)
    requires query != "" && WellFormed(now)
    ensures RequestPayload(Some(query), None, None, None, None, None, pageSize, now)
      == "detail=True" + "&" + "page[size]=" + NatToString(pageSize) + "&" + "page[cursor]=1" + "&" + "query=" + query
  {
    var parts := ["detail=True", "page[size]=" + NatToString(pageSize), "page[cursor]=1", "query=" + query];
    var n := NatToString(pageSize);
    assert RequestPayload(Some(query), None, None, None, None, None, pageSize, now) == Join(parts, '&') by {
      QueryOnlyRequest(query, pageSize, now);
      QueryOnlyParts(query, pageSize);
    }
    assert Join(parts, '&') == "detail=True" + "&" + ("page[size]=" + n) + "&" + "page[cursor]=1" + "&" + ("query=" + query) by {
      JoinFour("detail=True", "page[size]=" + n, "page[cursor]=1", "query=" + query, '&');
    }
  }

  lemma QueryOnlyRequest(query: string, pageSize: nat, now: DateTime)
    requires query != "" && WellFormed(now)
    ensures RequestPayload(Some(query), None, None, None, None, None, pageSize, now)
      == Payload(Params(None, None, pageSize, "1", Some(query)))
  {
    assert EffectiveUntil(None, None, now) == None;
    assert RangeQuery(None, None) == "";
    assert CombinedQuery(Some(query), "") == Some(query);
    assert StartCursor(None) == "1";
  }

  /** A parameter whose value is `None` is left out; the others keep their order. */
  lemma {:induction false} RenderedSkipsNone(a: seq<Param>, p: Param, b: seq<Param>)
    requires p.value.None?
    ensures Rendered(a + [p] + b) == Rendered(a + b)
    decreases |a|
  {
    if a == [] {
      assert ([] + [p] + b)[1..] == b;
      assert [] + b == b;
    } else {
      assert (a + [p] + b)[0] == a[0] && (a + b)[0] == a[0];
      assert (a + [p] + b)[1..] == a[1..] + [p] + b;
      assert (a + b)[1..] == a[1..] + b;
      RenderedSkipsNone(a[1..], p, b);
    }
  }

  /**
   * The query string splits back on `&` into the rendered parameters, provided no
   * name or value holds an `&`.
   */
  lemma PayloadSplitsBack(ps: seq<Param>)
    requires Rendered(ps) != []
    requires forall i :: 0 <= i < |ps| ==> '&' !in ps[i].key && (ps[i].value.Some? ==> '&' !in ps[i].value.value)
    ensures Split(Payload(ps), '&') == Rendered(ps)
  {
    RenderedNoSep(ps);
    SplitJoin(Rendered(ps), '&');
  }

  lemma {:induction false} RenderedNoSep(ps: seq<Param>)
    requires forall i :: 0 <= i < |ps| ==> '&' !in ps[i].key && (ps[i].value.Some? ==> '&' !in ps[i].value.value)
    ensures forall i :: 0 <= i < |Rendered(ps)| ==> '&' !in Rendered(ps)[i]
    decreases |ps|
  {
    if ps != [] {
      assert forall i :: 1 <= i < |ps| ==> ps[i] == ps[1..][i - 1];
      RenderedNoSep(ps[1..]);
    }
  }

  /** Without `from`, an `until` on its own adds no range to the request. */
  lemma UntilAloneIsIgnored(
    query: Option<string>, providerId: Option<string>, clientId: Option<string>,
    until: Option<DateTime>, cursor: Option<string>, pageSize: nat, now: DateTime)
    requires ValidTime(until) && WellFormed(now)
    ensures RequestPayload(query, providerId, clientId, None, until, cursor, pageSize, now)
         == RequestPayload(query, providerId, clientId, None, None, cursor, pageSize, now)
  {
  }

  /** With `from` and no `until`, the range runs from `from` to now. */
  lemma FromAloneRunsToNow(query: Option<string>, from: DateTime, now: DateTime)
    requires WellFormed(from) && WellFormed(now)
    ensures var range := "updated:[" + IsoFormat(from) + "+TO+" + IsoFormat(now) + "]";
      CombinedQuery(query, RangeQuery(Some(from), EffectiveUntil(Some(from), None, now)))
        == Some(if query.Some? && query.value != "" then query.value + " AND " + range else range)
  {
  }

  /** Without a query or a range, the request carries exactly the five fixed parameters that are set. */
  lemma NoQueryNoQueryParam(providerId: Option<string>, clientId: Option<string>, pageSize: nat, cursor: string)
    ensures var ps := Params(providerId, clientId, pageSize, cursor, CombinedQuery(None, ""));
      |ps| == 5 && forall i :: 0 <= i < |ps| ==> ps[i].key != "query"
  {
  }

  // ---------------------------------------------------------------------------
  // The response

  /**
   * A response of `GET /dois`: the status code and, for a 200, the body's total,
   * its `links.next` (`None` when absent) and its `data`.
   */
  datatype ListResponse = ListResponse(status: int, total: int, next: Option<string>, data: seq<DoiEntry>)

  /** Where the next page starts: the `page[cursor]` of the next link, or 0 when there is none. */
  datatype Cursor = NextCursor(value: string) | Exhausted

  datatype ListError = HttpError(status: int) | BuildError(error: Error)

  /**
   * What `get_metadata_list` ends with: `(None, None)` for no matches, a page of
   * results with the next cursor, an exception, or `None` for a status that is
   * neither 200 nor an error.
   */
  datatype ListOutcome = NoMatches | Page(results: seq<Metadata>, cursor: Cursor) | Raised(error: ListError) | NothingReturned

  /** `raise_for_status` raises for the client and server error classes only. */
  predicate IsErrorStatus(status: int) {
    400 <= status < 600
  }

  /** `build_metadata` as a function value, so that the loop over the data can be reasoned about once. */
  function Builder(parseDate: string -> ParsedDate, decode: string -> seq<byte>): DoiEntry -> Result<Metadata, Error> {
    entry => BuildMetadata(entry, parseDate, decode)
  }

  /** `[build(entry) for entry in data]`: the first failure propagates. */
  function BuildAll(data: seq<DoiEntry>, build: DoiEntry -> Result<Metadata, Error>): (r: Result<seq<Metadata>, Error>)
    ensures r.Ok? ==> |r.value| == |data|
    ensures r.Ok? ==> forall i :: 0 <= i < |data| ==> build(data[i]) == Ok(r.value[i])
    ensures r.Err? <==> exists i :: 0 <= i < |data| && build(data[i]).Err?
    decreases |data|
  {
    if data == [] then Ok([])
    else
      assert forall i :: 1 <= i < |data| ==> data[i] == data[1..][i - 1];
      match build(data[0])
      case Err(e) => Err(e)
      case Ok(m) =>
        var rest := BuildAll(data[1..], build);
        if rest.Err? then Err(rest.error) else Ok([m] + rest.value)
  }

  /** The cursor of the next page: `page[cursor]` of a non-empty next link, otherwise exhausted. */
  function NextPage(next: Option<string>, cursorOf: string -> string): (c: Cursor)
    ensures c.Exhausted? <==> next.None? || next.value == ""
    ensures next.Some? && next.value != "" ==> c == NextCursor(cursorOf(next.value))
  {
    if next.Some? && next.value != "" then NextCursor(cursorOf(next.value)) else Exhausted
  }

  /**
   * Interpreting the response. `cursorOf` stands for extracting `page[cursor]` from
   * a link's query string.
   */
  function HandleListResponse(resp: ListResponse, cursorOf: string -> string, parseDate: string -> ParsedDate, decode: string -> seq<byte>): (o: ListOutcome)
    ensures resp.status == 200 && resp.total == 0 ==> o == NoMatches
    ensures IsErrorStatus(resp.status) <==> o.Raised? && o.error.HttpError?
    ensures o.NothingReturned? <==> resp.status != 200 && !IsErrorStatus(resp.status)
    ensures o.Page? ==> resp.status == 200 && resp.total != 0 && o.cursor == NextPage(resp.next, cursorOf)
    ensures o.Page? ==> |o.results| == |resp.data|
  {
    if resp.status == 200 then
      if resp.total == 0 then NoMatches
      else
        var cursor := NextPage(resp.next, cursorOf);
        match BuildAll(resp.data, Builder(parseDate, decode))
        case Err(e) => Raised(BuildError(e))
        case Ok(results) => Page(results, cursor)
    else if IsErrorStatus(resp.status) then Raised(HttpError(resp.status))
    else NothingReturned
  }

  /** `get_metadata_list`: send the request built from the arguments and interpret the answer. */
  function GetMetadataList(
    query: Option<string>, providerId: Option<string>, clientId: Option<string>,
    from: Option<DateTime>, until: Option<DateTime>, cursor: Option<string>,
    pageSize: nat, now: DateTime,
    api: string -> ListResponse, cursorOf: string -> string,
    parseDate: string -> ParsedDate, decode: string -> seq<byte>): (o: ListOutcome)
    requires ValidTime(from) && ValidTime(until) && WellFormed(now)
    ensures var resp := api(RequestPayload(query, providerId, clientId, from, until, cursor, pageSize, now));
      && (resp.status == 200 && resp.total == 0 ==> o == NoMatches)
      && (o.Page? ==> |o.results| == |resp.data| && o.cursor == NextPage(resp.next, cursorOf))
      && (IsErrorStatus(resp.status) ==> o == Raised(HttpError(resp.status)))
  {
    HandleListResponse(api(RequestPayload(query, providerId, clientId, from, until, cursor, pageSize, now)), cursorOf, parseDate, decode)
  }

  /** A successful page holds one record per data entry, each built from that entry, in order. */
  lemma PageFollowsData(resp: ListResponse, cursorOf: string -> string, parseDate: string -> ParsedDate, decode: string -> seq<byte>)
    requires HandleListResponse(resp, cursorOf, parseDate, decode).Page?
    ensures var o := HandleListResponse(resp, cursorOf, parseDate, decode);
      |o.results| == |resp.data| &&
      forall i :: 0 <= i < |resp.data| ==> BuildMetadata(resp.data[i], parseDate, decode) == Ok(o.results[i])
  {
    var build := Builder(parseDate, decode);
    var o := HandleListResponse(resp, cursorOf, parseDate, decode);
    forall i | 0 <= i < |resp.data|
      ensures BuildMetadata(resp.data[i], parseDate, decode) == Ok(o.results[i])
    {
      assert build(resp.data[i]) == BuildMetadata(resp.data[i], parseDate, decode);
    }
  }

  /** A 200 with matches yields a page exactly when every entry builds. */
  lemma PageUnlessBuildFails(resp: ListResponse, cursorOf: string -> string, parseDate: string -> ParsedDate, decode: string -> seq<byte>)
    requires resp.status == 200 && resp.total != 0
    ensures HandleListResponse(resp, cursorOf, parseDate, decode).Page? <==>
      forall i :: 0 <= i < |resp.data| ==> BuildMetadata(resp.data[i], parseDate, decode).Ok?
  {
    var build := Builder(parseDate, decode);
    assert forall i :: 0 <= i < |resp.data| ==> build(resp.data[i]) == BuildMetadata(resp.data[i], parseDate, decode);
  }

  /** The last page: without a next link, the cursor handed back is 0 and paging ends. */
  lemma LastPageEndsPaging(resp: ListResponse, cursorOf: string -> string, parseDate: string -> ParsedDate, decode: string -> seq<byte>)
    requires resp.next.None?
    requires HandleListResponse(resp, cursorOf, parseDate, decode).Page?
    ensures HandleListResponse(resp, cursorOf, parseDate, decode).cursor == Exhausted
  {
  }
}

=== FILE: datacite_record.dfy ===
/**
 * The DataCite adapter's `Metadata` value, `build_metadata` and `strip_uri_prefix`
 * (viringo/services/datacite.py:13-154). A DOI entry of the REST API's JSON
 * response is given already decoded; the adapter's reads of it become fields.
 */
module DataciteRecord {
  import opened Base
  import opened Text
  import opened Temporal
  import opened Patterns

  /** A decoded JSON value, for the attributes the adapter passes through untouched. */
  datatype Json = JNull | JBool(b: bool) | JNum(n: int) | JStr(s: string) | JList(items: seq<Json>) | JObject(fields: map<string, Json>)

  /** Python's truth value of a decoded JSON value. */
  predicate Truthy(j: Json) {
    match j
    case JNull => false
    case JBool(b) => b
    case JNum(n) => n != 0
    case JStr(s) => s != ""
    case JList(items) => items != []
    case JObject(fields) => fields != map[]
  }

  /** `value or default`. */
  function OrDefault(value: Json, default: Json): Json {
    if Truthy(value) then value else default
  }

  newtype byte = x: int | 0 <= x < 256

  /** A JSON object whose values are strings, such as one entry of `titles`. */
  type Fields = map<string, string>

  /** An entry of `dates`, `relatedIdentifiers` or `identifiers` after renaming: its type and its value. */
  datatype Typed = Typed(kind: string, value: string)

  /** An entry of `identifiers` as received: the identifier may be null. */
  datatype IdentifierEntry = IdentifierEntry(identifierType: string, identifier: Option<string>)

  /** An entry of `rights`: `rights` and `rightsUri` are each optional. */
  datatype Rights = Rights(statement: Option<string>, uri: Option<string>)

  /** The `types` object: both keys are optional. */
  datatype Types = Types(resourceTypeGeneral: Option<string>, resourceType: Option<string>)

  /**
   * The `attributes` of a DOI entry. A list attribute is `None` when it is null;
   * a pass-through attribute is `JNull` when it is null or missing.
   */
  datatype Attributes = Attributes(
    created: string,
    updated: string,
    xml: Option<string>,
    titles: Option<seq<Fields>>,
    creators: Option<seq<Fields>>,
    subjects: Option<seq<Fields>>,
    descriptions: Option<seq<Fields>>,
    publisher: Json,
    publicationYear: Json,
    dates: Option<seq<Typed>>,
    contributors: Json,
    fundingReferences: Json,
    sizes: Json,
    geoLocations: Json,
    types: Types,
    formats: Json,
    identifiers: Option<seq<IdentifierEntry>>,
    language: Json,
    relatedIdentifiers: Option<seq<Typed>>,
    rightsList: Option<seq<Fields>>)

  /**
   * A DOI entry: its `id`, its `isActive` flag (`None` when the key is absent),
   * its attributes and the `id` of its client relationship (`None` when null).
   */
  datatype DoiEntry = DoiEntry(id: Option<string>, isActive: Option<Json>, attributes: Attributes, clientId: Option<string>)

  /** The exceptions `build_metadata` can raise on a well-shaped entry. */
  datatype Error = TypeError | ValueError | AttributeError

  /** The harvester's view of one DOI. */
  datatype Metadata = Metadata(
    identifier: Option<string>,
    createdDatetime: DateTime,
    updatedDatetime: DateTime,
    xml: Option<seq<byte>>,
    titles: seq<string>,
    creators: seq<string>,
    subjects: seq<string>,
    descriptions: seq<string>,
    publisher: Json,
    publicationYear: Json,
    dates: seq<Typed>,
    contributors: Json,
    resourceTypes: seq<string>,
    fundingReferences: Json,
    geoLocations: Json,
    formats: Json,
    identifiers: seq<Typed>,
    language: Json,
    relations: seq<Typed>,
    rights: seq<Rights>,
    sizes: Json,
    client: string,
    active: bool)

  // ---------------------------------------------------------------------------
  // Stripping the resolver prefix

  /**
   * `strip_uri_prefix`: a missing or empty identifier becomes `""`; one starting
   * with the resolver prefix is split on that prefix and must fall into exactly two
   * parts, so a second occurrence after the first raises `ValueError`; any other
   * identifier is kept.
   */
  function StripUriPrefix(identifier: Option<string>): (r: Result<string, Error>)
    ensures identifier.None? || identifier == Some("") ==> r == Ok("")
    ensures r.Err? <==> identifier.Some? && IsPrefix(DoiResolver, identifier.value)
                        && Contains(identifier.value[|DoiResolver|..], DoiResolver)
    ensures r.Err? ==> r.error == ValueError
    ensures r.Ok? && identifier.Some? && IsPrefix(DoiResolver, identifier.value) ==> identifier.value == DoiResolver + r.value
    ensures identifier.Some? && !IsPrefix(DoiResolver, identifier.value) ==> r == Ok(identifier.value)
  {
    match identifier
    case None => Ok("")
    case Some(s) =>
      if s == "" then Ok("")
      else if IsPrefix(DoiResolver, s) then
        var rest := s[|DoiResolver|..];
        if Contains(rest, DoiResolver) then Err(ValueError) else Ok(rest)
      else Ok(s)
  }

  /** Putting the prefix in front of an identifier that does not hold it, then stripping, gives the identifier back. */
  lemma StripUriPrefixRoundTrip(suffix: string)
    requires !Contains(suffix, DoiResolver)
    ensures StripUriPrefix(Some(DoiResolver + suffix)) == Ok(suffix)
  {
    assert (DoiResolver + suffix)[|DoiResolver|..] == suffix;
  }

  lemma PrefixContained(s: string, t: string)
    requires IsPrefix(t, s)
    ensures Contains(s, t)
  {
    assert OccursAt(s, t, 0);
    OccursAtContains(s, t, 0);
  }

  /** Stripping what has been stripped changes nothing. */
  lemma StripUriPrefixIdempotent(s: string)
    requires StripUriPrefix(Some(s)).Ok?
    ensures var r := StripUriPrefix(Some(s)).value; StripUriPrefix(Some(r)) == Ok(r)
  {
    if IsPrefix(DoiResolver, s) {
      var rest := s[|DoiResolver|..];
      if IsPrefix(DoiResolver, rest) {
        PrefixContained(rest, DoiResolver);
      }
    }
  }

  /**
   * A DOI URL that the repository adapter's resolver builds strips back to the DOI:
   * the two adapters use the same resolver prefix.
   */
  lemma ResolverUrlStrips(doi: string)
    requires !Contains(doi, DoiResolver)
    ensures StripUriPrefix(Some(DoiResolver + doi)) == Ok(doi)
    ensures IsPrefix(DoiResolver, DoiResolver + doi)
  {
    StripUriPrefixRoundTrip(doi);
  }

  // ---------------------------------------------------------------------------
  // The parts of build_metadata

  /** `[entry.get(key, '') for entry in entries] if entries is not None else []`. */
  function FieldValues(entries: Option<seq<Fields>>, key: string): (r: seq<string>)
    ensures entries.None? ==> r == []
    ensures entries.Some? ==> |r| == |entries.value|
    ensures entries.Some? ==> forall i :: 0 <= i < |r| ==>
      r[i] == if key in entries.value[i] then entries.value[i][key] else ""
  {
    match entries
    case None => []
    case Some(es) => seq(|es|, i requires 0 <= i < |es| => if key in es[i] then es[i][key] else "")
  }

  /** `[{'statement': r.get('rights'), 'uri': r.get('rightsUri')} ...] if rights_list is not None else []`. */
  function RightsValues(entries: Option<seq<Fields>>): (r: seq<Rights>)
    ensures entries.None? ==> r == []
    ensures entries.Some? ==> |r| == |entries.value|
    ensures entries.Some? ==> forall i :: 0 <= i < |r| ==>
      (r[i].statement.Some? <==> "rights" in entries.value[i]) && (r[i].uri.Some? <==> "rightsUri" in entries.value[i])
    ensures entries.Some? ==> forall i :: 0 <= i < |r| ==>
      (r[i].statement.Some? ==> r[i].statement.value == entries.value[i]["rights"]) &&
      (r[i].uri.Some? ==> r[i].uri.value == entries.value[i]["rightsUri"])
  {
    match entries
    case None => []
    case Some(es) =>
      seq(|es|, i requires 0 <= i < |es| =>
        Rights(if "rights" in es[i] then Some(es[i]["rights"]) else None,
               if "rightsUri" in es[i] then Some(es[i]["rightsUri"]) else None))
  }

  /** The general type, then the specific type, each only when present. */
  function ResourceTypes(types: Types): (r: seq<string>)
    ensures |r| <= 2
    ensures |r| == (if types.resourceTypeGeneral.Some? then 1 else 0) + (if types.resourceType.Some? then 1 else 0)
    ensures forall s :: s in r <==> types.resourceTypeGeneral == Some(s) || types.resourceType == Some(s)
    ensures types.resourceTypeGeneral.Some? ==> r[0] == types.resourceTypeGeneral.value
    ensures types.resourceType.Some? ==> r[|r| - 1] == types.resourceType.value
  {
    (if types.resourceTypeGeneral.Some? then [types.resourceTypeGeneral.value] else [])
      + (if types.resourceType.Some? then [types.resourceType.value] else [])
  }

  /** An identifier entry `build_metadata` keeps: its identifier is truthy. */
  predicate Listed(e: IdentifierEntry) {
    e.identifier.Some? && e.identifier.value != ""
  }

  /**
   * The loop over `identifiers`: every listed entry, in order, as its type and its
   * stripped identifier; the first stripping failure propagates.
   */
  function Identifiers(entries: seq<IdentifierEntry>): (r: Result<seq<Typed>, Error>)
    ensures r.Err? <==> exists i :: 0 <= i < |entries| && Listed(entries[i]) && StripUriPrefix(entries[i].identifier).Err?
    ensures r.Err? ==> r.error == ValueError
    ensures r.Ok? ==> |r.value| <= |entries|
    decreases |entries|
  {
    if entries == [] then Ok([])
    else
      var rest := Identifiers(entries[1..]);
      assert forall i :: 1 <= i < |entries| ==> entries[i] == entries[1..][i - 1];
      if !Listed(entries[0]) then rest
      else
        match StripUriPrefix(entries[0].identifier)
        case Err(e) => Err(e)
        case Ok(v) => if rest.Err? then rest else Ok([Typed(entries[0].identifierType, v)] + rest.value)
  }

  /** The listed entries with their identifiers as received, in order. */
  function ListedPairs(entries: seq<IdentifierEntry>): seq<Typed>
    decreases |entries|
  {
    if entries == [] then []
    else if Listed(entries[0]) then [Typed(entries[0].identifierType, entries[0].identifier.value)] + ListedPairs(entries[1..])
    else ListedPairs(entries[1..])
  }

  /** Without the resolver prefix anywhere, the loop keeps exactly the listed entries unchanged, in order. */
  lemma {:induction false} IdentifiersWithoutPrefix(entries: seq<IdentifierEntry>)
    requires forall i :: 0 <= i < |entries| && entries[i].identifier.Some? ==> !IsPrefix(DoiResolver, entries[i].identifier.value)
    ensures Identifiers(entries) == Ok(ListedPairs(entries))
    decreases |entries|
  {
    if entries != [] {
      assert forall i :: 1 <= i < |entries| ==> entries[i] == entries[1..][i - 1];
      IdentifiersWithoutPrefix(entries[1..]);
    }
  }

  /**
   * What the loop stores when no entry fails: one pair per listed entry, in order,
   * carrying the entry's type and its identifier after `strip_uri_prefix`.
   */
  lemma {:induction false} IdentifiersStripped(entries: seq<IdentifierEntry>)
    requires Identifiers(entries).Ok?
    ensures var r := Identifiers(entries).value;
      var pairs := ListedPairs(entries);
      && |r| == |pairs|
      && forall i :: 0 <= i < |r| ==>
           && StripUriPrefix(Some(pairs[i].value)).Ok?
           && r[i] == Typed(pairs[i].kind, StripUriPrefix(Some(pairs[i].value)).value)
    decreases |entries|
  {
    if entries != [] {
      assert forall i :: 1 <= i < |entries| ==> entries[i] == entries[1..][i - 1];
      IdentifiersStripped(entries[1..]);
    }
  }

  /** Only listed entries appear: an entry with a null or empty identifier never does. */
  lemma {:induction false} IdentifiersSkipUnlisted(entries: seq<IdentifierEntry>, k: nat)
    requires k < |entries| && !Listed(entries[k])
    ensures Identifiers(entries) == Identifiers(entries[..k] + entries[k + 1..])
    decreases k
  {
    if k > 0 {
      var rest := entries[1..];
      IdentifiersSkipUnlisted(rest, k - 1);
      var shorter := entries[..k] + entries[k + 1..];
      assert shorter[0] == entries[0];
      assert shorter[1..] == rest[..k - 1] + rest[k..];
      assert forall i :: 1 <= i < |shorter| ==> shorter[i] == shorter[1..][i - 1];
    } else {
      assert entries[..k] + entries[k + 1..] == entries[1..];
    }
  }

  /** `data.get('isActive', True)`, taken for its truth value. */
  predicate ActiveFlag(isActive: Option<Json>) {
    Truthy(isActive.GetOr(JBool(true)))
  }

  /**
   * The `active` rule: there is a decoded document and it is not empty, and the
   * entry does not carry a false `isActive`.
   */
  function Active(xml: Option<seq<byte>>, isActive: Option<Json>): (a: bool)
    ensures a <==> xml.Some? && |xml.value| > 0 && (isActive.None? || Truthy(isActive.value))
  {
    if xml.Some? && xml.value != [] && ActiveFlag(isActive) then true else false
  }

  /**
   * `build_metadata(data)`. `parseDate` stands for `dateutil.parser.parse` and the
   * conversion to naive UTC; `decode` for `base64.b64decode`.
   */
  function BuildMetadata(data: DoiEntry, parseDate: string -> ParsedDate, decode: string -> seq<byte>): (r: Result<Metadata, Error>)
    ensures data.attributes.identifiers.None? ==> r == Err(TypeError)
    ensures data.attributes.identifiers.Some? && Identifiers(data.attributes.identifiers.value).Err? ==> r == Err(ValueError)
    ensures r.Err? <==> data.attributes.identifiers.None? || Identifiers(data.attributes.identifiers.value).Err? || data.clientId.None?
    ensures r.Ok? ==> r.value.identifier == data.id && r.value.client == ToUpper(data.clientId.value)
    ensures r.Ok? ==> r.value.identifiers == Identifiers(data.attributes.identifiers.value).value
  {
    var a := data.attributes;
    match a.identifiers
    case None => Err(TypeError)
    case Some(entries) =>
      match Identifiers(entries)
      case Err(e) => Err(e)
      case Ok(identifiers) =>
        match data.clientId
        case None => Err(AttributeError)
        case Some(clientId) =>
          var xml := if a.xml.Some? then Some(decode(a.xml.value)) else None;
          Ok(Metadata(
            data.id,
            parseDate(a.created).utc,
            parseDate(a.updated).utc,
            xml,
            FieldValues(a.titles, "title"),
            FieldValues(a.creators, "name"),
            FieldValues(a.subjects, "subject"),
            FieldValues(a.descriptions, "description"),
            OrDefault(a.publisher, JStr("")),
            OrDefault(a.publicationYear, JStr("")),
            a.dates.GetOr([]),
            OrDefault(a.contributors, JList([])),
            ResourceTypes(a.types),
            OrDefault(a.fundingReferences, JList([])),
            OrDefault(a.geoLocations, JList([])),
            OrDefault(a.formats, JList([])),
            identifiers,
            OrDefault(a.language, JStr("")),
            a.relatedIdentifiers.GetOr([]),
            RightsValues(a.rightsList),
            OrDefault(a.sizes, JList([])),
            ToUpper(clientId),
            Active(xml, data.isActive)))
  }

  /**
   * Null list attributes become empty lists, and null pass-through attributes become
   * the empty list, or the empty string for `publisher`, `publicationYear` and `language`.
   */
  lemma NullAttributesBecomeEmpty(data: DoiEntry, parseDate: string -> ParsedDate, decode: string -> seq<byte>)
    requires BuildMetadata(data, parseDate, decode).Ok?
    requires var a := data.attributes;
      && a.titles.None? && a.creators.None? && a.subjects.None? && a.descriptions.None?
      && a.dates.None? && a.relatedIdentifiers.None? && a.rightsList.None?
      && a.contributors == JNull && a.fundingReferences == JNull && a.sizes == JNull
      && a.geoLocations == JNull && a.formats == JNull
      && a.publisher == JNull && a.publicationYear == JNull && a.language == JNull
    ensures var m := BuildMetadata(data, parseDate, decode).value;
      && m.titles == [] && m.creators == [] && m.subjects == [] && m.descriptions == []
      && m.dates == [] && m.relations == [] && m.rights == []
      && m.contributors == JList([]) && m.fundingReferences == JList([]) && m.sizes == JList([])
      && m.geoLocations == JList([]) && m.formats == JList([])
      && m.publisher == JStr("") && m.publicationYear == JStr("") && m.language == JStr("")
  {
  }

  /** Each mapped list has one value per entry, in order, and a missing key gives `""`. */
  lemma MappedListsKeepOrder(data: DoiEntry, parseDate: string -> ParsedDate, decode: string -> seq<byte>)
    requires BuildMetadata(data, parseDate, decode).Ok?
    ensures var m := BuildMetadata(data, parseDate, decode).value;
      var titles := data.attributes.titles;
      var creators := data.attributes.creators;
      && (titles.Some? ==> (|m.titles| == |titles.value| &&
            forall i :: 0 <= i < |m.titles| ==> m.titles[i] == if "title" in titles.value[i] then titles.value[i]["title"] else ""))
      && (creators.Some? ==> (|m.creators| == |creators.value| &&
            forall i :: 0 <= i < |m.creators| ==> m.creators[i] == if "name" in creators.value[i] then creators.value[i]["name"] else ""))
  {
  }

  /**
   * The record is active exactly when it has a non-empty decoded document and
   * `isActive` is absent or truthy.
   */
  lemma ActiveRule(data: DoiEntry, parseDate: string -> ParsedDate, decode: string -> seq<byte>)
    requires BuildMetadata(data, parseDate, decode).Ok?
    ensures BuildMetadata(data, parseDate, decode).value.active <==>
      && data.attributes.xml.Some? && |decode(data.attributes.xml.value)| > 0
      && (data.isActive.None? || Truthy(data.isActive.value))
  {
  }

  /** At most the two resource types, none exactly when neither is present. */
  lemma ResourceTypesOfRecord(data: DoiEntry, parseDate: string -> ParsedDate, decode: string -> seq<byte>)
    requires BuildMetadata(data, parseDate, decode).Ok?
    ensures var rt := BuildMetadata(data, parseDate, decode).value.resourceTypes;
      var types := data.attributes.types;
      |rt| <= 2 && (rt == [] <==> types.resourceTypeGeneral.None? && types.resourceType.None?)
  {
    var types := data.attributes.types;
    if types.resourceTypeGeneral.Some? {
      assert types.resourceTypeGeneral.value in ResourceTypes(types);
    } else if types.resourceType.Some? {
      assert types.resourceType.value in ResourceTypes(types);
    }
  }
}

=== FILE: datacite_sets.dfy ===
/**
 * `get_sets` of the DataCite adapter (viringo/services/datacite.py:247-277): the
 * clients and their providers as sets, ordered by id.
 */
module DataciteSets {
  import opened Base
  import opened Text

  /** A response of `GET /clients`: status, total, the clients (`data`) and the providers (`included`). */
  datatype SetsResponse = SetsResponse(status: int, total: int, clients: seq<SetEntry>, providers: seq<SetEntry>)

  // ---------------------------------------------------------------------------
  // Ordering by id, stably

  predicate SortedById(s: seq<SetEntry>) {
    forall i, j :: 0 <= i < j < |s| ==> LexLeq(s[i].spec, s[j].spec)
  }

  lemma {:induction false} LexLeqReflexive(a: string)
    ensures LexLeq(a, a)
    decreases |a|
  {
    if a != [] {
      LexLeqReflexive(a[1..]);
    }
  }

  /** `x` placed before the first entry whose id is not below its own. */
  function Insert(x: SetEntry, s: seq<SetEntry>): (r: seq<SetEntry>)
    ensures multiset(r) == multiset(s) + multiset{x}
    decreases |s|
  {
    if s == [] || LexLeq(x.spec, s[0].spec) then [x] + s
    else
      assert s == [s[0]] + s[1..];
      [s[0]] + Insert(x, s[1..])
  }

  lemma {:induction false} InsertSorted(x: SetEntry, s: seq<SetEntry>)
    requires SortedById(s)
    ensures SortedById(Insert(x, s))
    decreases |s|
  {
    if s == [] {
    } else if LexLeq(x.spec, s[0].spec) {
      forall j | 0 < j < |s| ensures LexLeq(x.spec, s[j].spec) {
        LexLeqTransitive(x.spec, s[0].spec, s[j].spec);
      }
    } else {
      LexLeqTotal(x.spec, s[0].spec);
      InsertSorted(x, s[1..]);
      var r := Insert(x, s[1..]);
      forall k | 0 <= k < |r| ensures LexLeq(s[0].spec, r[k].spec) {
        assert r[k] in multiset(r);
        if r[k] != x {
          assert r[k] in multiset(s[1..]);
          var j :| 0 <= j < |s[1..]| && s[1..][j] == r[k];
          assert s[j + 1] == r[k];
        }
      }
    }
  }

  /** `sorted(s, key=itemgetter(0))`: insertion sort, which keeps entries with equal ids in their order. */
  function SortById(s: seq<SetEntry>): (r: seq<SetEntry>)
    ensures multiset(r) == multiset(s)
    ensures SortedById(r)
    decreases |s|
  {
    if s == [] then []
    else
      var rest := SortById(s[1..]);
      InsertSorted(s[0], rest);
      assert s == [s[0]] + s[1..];
      Insert(s[0], rest)
  }

  /** The entries with a given id, in order. */
  function WithId(s: seq<SetEntry>, id: string): seq<SetEntry>
    decreases |s|
  {
    if s == [] then [] else (if s[0].spec == id then [s[0]] else []) + WithId(s[1..], id)
  }

  lemma {:induction false} InsertWithId(x: SetEntry, s: seq<SetEntry>, id: string)
    ensures WithId(Insert(x, s), id) == (if x.spec == id then [x] else []) + WithId(s, id)
    decreases |s|
  {
    var own := if x.spec == id then [x] else [];
    if s == [] || LexLeq(x.spec, s[0].spec) {
      assert Insert(x, s) == [x] + s;
      assert ([x] + s)[1..] == s;
    } else {
      var head := if s[0].spec == id then [s[0]] else [];
      var r := Insert(x, s);
      assert r == [s[0]] + Insert(x, s[1..]);
      assert r[1..] == Insert(x, s[1..]);
      InsertWithId(x, s[1..], id);
      LexLeqReflexive(x.spec);
      assert s[0].spec != x.spec;
      assert x.spec == id ==> head == [];
      calc {
        WithId(r, id);
        head + WithId(Insert(x, s[1..]), id);
        head + (own + WithId(s[1..], id));
        { SeqAssoc(head, own, WithId(s[1..], id)); }
        (head + own) + WithId(s[1..], id);
        { assert head + own == own + head; }
        (own + head) + WithId(s[1..], id);
        { SeqAssoc(own, head, WithId(s[1..], id)); }
        own + WithId(s, id);
      }
    }
  }

  /** Sorting keeps the entries that share an id in their original order: the sort is stable. */
  lemma {:induction false} SortStable(s: seq<SetEntry>, id: string)
    ensures WithId(SortById(s), id) == WithId(s, id)
    decreases |s|
  {
    if s != [] {
      SortStable(s[1..], id);
      InsertWithId(s[0], SortById(s[1..]), id);
    }
  }

  // ---------------------------------------------------------------------------
  // Collecting the sets

  /**
   * The two collecting loops as written: `entry['id'] not in results` compares an
   * id with a list of (id, name) pairs, which never holds, so every client and then
   * every provider is appended.
   */
  function Collected(clients: seq<SetEntry>, providers: seq<SetEntry>): (r: seq<SetEntry>)
    ensures |r| == |clients| + |providers|
    ensures r[..|clients|] == clients && r[|clients|..] == providers
  {
    clients + providers
  }

  /**
   * `get_sets`: `None` (here `Ok(None)`) when there are no clients, the error
   * status for a failed request, the collected sets ordered by id otherwise.
   */
  function GetSets(resp: SetsResponse): (r: Result<Option<seq<SetEntry>>, int>)
    ensures r.Err? <==> 400 <= resp.status < 600
    ensures r.Err? ==> r.error == resp.status
    ensures resp.status == 200 && resp.total == 0 ==> r == Ok(None)
    ensures r.Ok? && r.value.Some? ==> resp.status == 200 && SortedById(r.value.value)
    ensures r.Ok? && r.value.Some? ==> multiset(r.value.value) == multiset(resp.clients) + multiset(resp.providers)
  {
    if resp.status == 200 then
      if resp.total == 0 then Ok(None) else Ok(Some(SortById(Collected(resp.clients, resp.providers))))
    else if 400 <= resp.status < 600 then Err(resp.status)
    else Ok(None)
  }

  /** Every client and every provider is listed, so the count is the sum of the two. */
  lemma SetsCount(resp: SetsResponse)
    requires resp.status == 200 && resp.total != 0
    ensures GetSets(resp).Ok? && GetSets(resp).value.Some?
    ensures |GetSets(resp).value.value| == |resp.clients| + |resp.providers|
  {
    var r := GetSets(resp).value.value;
    assert |multiset(r)| == |r|;
  }

  /** Among entries sharing an id, clients come first and keep their order, then providers. */
  lemma SetsSameIdOrder(resp: SetsResponse, id: string)
    requires resp.status == 200 && resp.total != 0
    ensures WithId(GetSets(resp).value.value, id) == WithId(resp.clients, id) + WithId(resp.providers, id)
  {
    SortStable(resp.clients + resp.providers, id);
    WithIdAppend(resp.clients, resp.providers, id);
  }

  lemma {:induction false} WithIdAppend(a: seq<SetEntry>, b: seq<SetEntry>, id: string)
    ensures WithId(a + b, id) == WithId(a, id) + WithId(b, id)
    decreases |a|
  {
    if a != [] {
      assert (a + b)[1..] == a[1..] + b;
      WithIdAppend(a[1..], b, id);
    } else {
      assert a + b == b;
    }
  }

  // ---------------------------------------------------------------------------
  // Ids listed once

  /** No two entries share an id. */
  predicate DistinctIds(s: seq<SetEntry>) {
    forall i, j :: 0 <= i < j < |s| ==> s[i].spec != s[j].spec
  }

  /** Some entry has the id. */
  predicate HasId(s: seq<SetEntry>, id: string) {
    exists k :: 0 <= k < |s| && s[k].spec == id
  }

  lemma {:induction false} WithIdEmpty(s: seq<SetEntry>, id: string)
    requires !HasId(s, id)
    ensures WithId(s, id) == []
    decreases |s|
  {
    if s != [] {
      assert forall k :: 0 <= k < |s[1..]| ==> s[1..][k] == s[k + 1];
      WithIdEmpty(s[1..], id);
    }
  }

  lemma {:induction false} WithIdHas(s: seq<SetEntry>, k: nat)
    requires k < |s|
    ensures |WithId(s, s[k].spec)| >= 1
    decreases k
  {
    if k > 0 {
      WithIdHas(s[1..], k - 1);
    }
  }

  lemma {:induction false} WithIdPair(s: seq<SetEntry>, i: nat, j: nat)
    requires i < j < |s| && s[i].spec == s[j].spec
    ensures |WithId(s, s[i].spec)| >= 2
    decreases i
  {
    if i == 0 {
      WithIdHas(s[1..], j - 1);
    } else {
      WithIdPair(s[1..], i - 1, j - 1);
    }
  }

  lemma {:induction false} DistinctWithIdAtMostOne(s: seq<SetEntry>, id: string)
    requires DistinctIds(s)
    ensures |WithId(s, id)| <= 1
    decreases |s|
  {
    if s != [] {
      assert DistinctIds(s[1..]) by {
        forall i, j | 0 <= i < j < |s[1..]| ensures s[1..][i].spec != s[1..][j].spec {
          assert s[1..][i] == s[i + 1] && s[1..][j] == s[j + 1];
        }
      }
      if s[0].spec == id {
        forall k | 0 <= k < |s[1..]| ensures s[1..][k].spec != id {
          assert s[1..][k] == s[k + 1];
        }
        WithIdEmpty(s[1..], id);
      } else {
        DistinctWithIdAtMostOne(s[1..], id);
      }
    }
  }

  /** Sorting keeps ids distinct, since it keeps the entries of every id. */
  lemma SortKeepsDistinct(s: seq<SetEntry>)
    requires DistinctIds(s)
    ensures DistinctIds(SortById(s))
  {
    var r := SortById(s);
    forall i, j | 0 <= i < j < |r| ensures r[i].spec != r[j].spec {
      if r[i].spec == r[j].spec {
        WithIdPair(r, i, j);
        SortStable(s, r[i].spec);
        DistinctWithIdAtMostOne(s, r[i].spec);
      }
    }
  }

  /**
   * The collecting loops with the membership test on ids, as the listing of sets
   * intends: an entry whose id is already listed is skipped.
   */
  function AddUnseen(acc: seq<SetEntry>, xs: seq<SetEntry>): (r: seq<SetEntry>)
    requires DistinctIds(acc)
    ensures DistinctIds(r)
    ensures forall id :: HasId(r, id) <==> HasId(acc, id) || HasId(xs, id)
    ensures forall k :: 0 <= k < |r| ==> r[k] in acc || r[k] in xs
    decreases |xs|
  {
    if xs == [] then acc
    else
      assert forall k :: 0 <= k < |xs[1..]| ==> xs[1..][k] == xs[k + 1];
      if HasId(acc, xs[0].spec) then AddUnseen(acc, xs[1..])
      else
        var acc' := acc + [xs[0]];
        assert HasId(acc', xs[0].spec) by { assert acc'[|acc|] == xs[0]; }
        assert forall id :: HasId(acc, id) ==> HasId(acc', id) by {
          forall id | HasId(acc, id) ensures HasId(acc', id) {
            var k :| 0 <= k < |acc| && acc[k].spec == id;
            assert acc'[k] == acc[k];
          }
        }
        AddUnseen(acc', xs[1..])
  }

  /** `get_sets` with each id listed once: the first entry with an id is kept. */
  function GetSetsDistinct(resp: SetsResponse): (r: Result<Option<seq<SetEntry>>, int>)
    ensures r.Err? <==> 400 <= resp.status < 600
    ensures resp.status == 200 && resp.total == 0 ==> r == Ok(None)
    ensures r.Ok? && r.value.Some? ==> SortedById(r.value.value) && DistinctIds(r.value.value)
    ensures r.Ok? && r.value.Some? ==> forall id :: HasId(r.value.value, id) <==> HasId(resp.clients + resp.providers, id)
  {
    if resp.status == 200 then
      if resp.total == 0 then Ok(None)
      else
        var unique := AddUnseen([], resp.clients + resp.providers);
        var sorted := SortById(unique);
        SortKeepsDistinct(unique);
        SortKeepsIds(unique);
        Ok(Some(sorted))
    else if 400 <= resp.status < 600 then Err(resp.status)
    else Ok(None)
  }

  lemma SortKeepsIds(s: seq<SetEntry>)
    ensures forall id :: HasId(SortById(s), id) <==> HasId(s, id)
  {
    var r := SortById(s);
    forall id ensures HasId(r, id) <==> HasId(s, id) {
      if HasId(r, id) {
        var k :| 0 <= k < |r| && r[k].spec == id;
        assert r[k] in multiset(s);
      }
      if HasId(s, id) {
        var k :| 0 <= k < |s| && s[k].spec == id;
        assert s[k] in multiset(r);
      }
    }
  }

  /** As written, a client and a provider with the same id are both listed. */
  lemma SharedIdListedTwice(resp: SetsResponse, c: nat, p: nat)
    requires resp.status == 200 && resp.total != 0
    requires c < |resp.clients| && p < |resp.providers| && resp.clients[c].spec == resp.providers[p].spec
    ensures !DistinctIds(GetSets(resp).value.value)
  {
    var id := resp.clients[c].spec;
    var r := GetSets(resp).value.value;
    SetsSameIdOrder(resp, id);
    WithIdHas(resp.clients, c);
    WithIdHas(resp.providers, p);
    if DistinctIds(r) {
      DistinctWithIdAtMostOne(r, id);
    }
  }
}

=== FILE: dedup.dfy ===
/**
 * First-occurrence, order-preserving de-duplication: the `if x not in seen:
 * seen.append(x)` loop the repository adapter uses to merge subjects and tags.
 */
module FirstOccurrence {

  predicate NoDuplicates<T(==)>(xs: seq<T>) {
    forall i, j :: 0 <= i < j < |xs| ==> xs[i] != xs[j]
  }

  /** `xs.index(x)`: the position of the first occurrence of `x`. */
  function FirstIndex<T(==)>(xs: seq<T>, x: T): (k: nat)
    requires x in xs
    ensures k < |xs| && xs[k] == x && x !in xs[..k]
  {
    if xs[0] == x then 0
    else
      var k := FirstIndex(xs[1..], x);
      assert xs[..k + 1] == [xs[0]] + xs[1..][..k];
      k + 1
  }

  lemma FirstIndexUnique<T>(xs: seq<T>, x: T, k: nat)
    requires k < |xs| && xs[k] == x && x !in xs[..k]
    ensures FirstIndex(xs, x) == k
  {
    var f := FirstIndex(xs, x);
    assert f >= k by {
      assert forall i :: 0 <= i < k ==> xs[..k][i] == xs[i];
    }
    assert f <= k by {
      assert forall i :: 0 <= i < f ==> xs[..f][i] == xs[i];
    }
  }

  lemma FirstIndexAppend<T>(a: seq<T>, b: seq<T>, x: T)
    requires x in a + b
    ensures x in a ==> FirstIndex(a + b, x) == FirstIndex(a, x)
    ensures x !in a ==> x in b && FirstIndex(a + b, x) == |a| + FirstIndex(b, x)
  {
    if x in a {
      var k := FirstIndex(a, x);
      assert (a + b)[..k] == a[..k];
      FirstIndexUnique(a + b, x, k);
    } else {
      assert x in b by {
        var i :| 0 <= i < |a + b| && (a + b)[i] == x;
        if i < |a| { assert a[i] == x; } else { assert b[i - |a|] == x; }
      }
      var k := FirstIndex(b, x);
      assert (a + b)[..|a| + k] == a + b[..k];
      FirstIndexUnique(a + b, x, |a| + k);
    }
  }

  /** The loop body run over `xs`, starting from the already collected `acc`. */
  function AppendNew<T(==)>(acc: seq<T>, xs: seq<T>): seq<T>
    decreases |xs|
  {
    if xs == [] then acc
    else AppendNew(if xs[0] in acc then acc else acc + [xs[0]], xs[1..])
  }

  /**
   * Skipping an element already collected shifts the first index of every later
   * element by one and leaves the collected ones alone, so it keeps their order.
   */
  lemma SkipShift<T>(acc: seq<T>, xs: seq<T>, e: T)
    requires xs != [] && xs[0] in acc
    requires e in acc + xs[1..]
    ensures e in acc + xs
    ensures e in acc ==> FirstIndex(acc + xs, e) == FirstIndex(acc + xs[1..], e) < |acc|
    ensures e !in acc ==> FirstIndex(acc + xs, e) == FirstIndex(acc + xs[1..], e) + 1
    ensures e !in acc ==> |acc| <= FirstIndex(acc + xs[1..], e)
  {
    var rest := xs[1..];
    FirstIndexAppend(acc, rest, e);
    if e in acc {
      FirstIndexAppend(acc, xs, e);
    } else {
      assert e in xs;
      FirstIndexAppend(acc, xs, e);
      assert FirstIndex(xs, e) == 1 + FirstIndex(rest, e);
    }
  }

  lemma {:induction false} AppendNewBasics<T>(acc: seq<T>, xs: seq<T>)
    requires NoDuplicates(acc)
    ensures NoDuplicates(AppendNew(acc, xs))
    ensures |acc| <= |AppendNew(acc, xs)| && AppendNew(acc, xs)[..|acc|] == acc
    ensures forall x :: x in AppendNew(acc, xs) <==> x in acc || x in xs
    decreases |xs|
  {
    if xs != [] {
      var rest := xs[1..];
      assert xs == [xs[0]] + rest;
      if xs[0] in acc {
        AppendNewBasics(acc, rest);
      } else {
        var acc' := acc + [xs[0]];
        AppendNewBasics(acc', rest);
        assert AppendNew(acc', rest)[..|acc|] == acc'[..|acc|];
      }
    }
  }

  /** Every element of `r` occurs in `ref`, and `r` lists them in the order of their first occurrence there. */
  predicate InFirstOccurrenceOrder<T(==)>(r: seq<T>, ref: seq<T>) {
    && (forall i :: 0 <= i < |r| ==> r[i] in ref)
    && (forall i, j :: 0 <= i < j < |r| ==> FirstIndex(ref, r[i]) < FirstIndex(ref, r[j]))
  }

  lemma NoDuplicatesSnoc<T>(acc: seq<T>, x: T)
    requires NoDuplicates(acc) && x !in acc
    ensures NoDuplicates(acc + [x])
  {
  }

  lemma OrderOfDistinct<T>(acc: seq<T>)
    requires NoDuplicates(acc)
    ensures InFirstOccurrenceOrder(acc, acc)
  {
    forall i | 0 <= i < |acc| ensures FirstIndex(acc, acc[i]) == i {
      FirstIndexUnique(acc, acc[i], i);
    }
  }

  lemma OrderAfterSkip<T>(acc: seq<T>, xs: seq<T>, r: seq<T>)
    requires xs != [] && xs[0] in acc
    requires InFirstOccurrenceOrder(r, acc + xs[1..])
    ensures InFirstOccurrenceOrder(r, acc + xs)
  {
    forall i | 0 <= i < |r| ensures r[i] in acc + xs {
      SkipShift(acc, xs, r[i]);
    }
    forall i, j | 0 <= i < j < |r|
      ensures FirstIndex(acc + xs, r[i]) < FirstIndex(acc + xs, r[j])
    {
      SkipShift(acc, xs, r[i]);
      SkipShift(acc, xs, r[j]);
    }
  }

  lemma {:induction false} AppendNewOrder<T>(acc: seq<T>, xs: seq<T>)
    requires NoDuplicates(acc)
    ensures InFirstOccurrenceOrder(AppendNew(acc, xs), acc + xs)
    decreases |xs|
  {
    if xs == [] {
      assert acc + xs == acc;
      OrderOfDistinct(acc);
    } else if xs[0] in acc {
      AppendNewOrder(acc, xs[1..]);
      OrderAfterSkip(acc, xs, AppendNew(acc, xs[1..]));
    } else {
      var acc' := acc + [xs[0]];
      NoDuplicatesSnoc(acc, xs[0]);
      AppendNewOrder(acc', xs[1..]);
      assert acc' + xs[1..] == acc + xs;
      assert AppendNew(acc, xs) == AppendNew(acc', xs[1..]);
    }
  }

  /**
   * The merged list: no term twice, exactly the terms of `xs`, and in the order of
   * their first occurrence in `xs`.
   */
  function Dedup<T(==)>(xs: seq<T>): (r: seq<T>)
    ensures NoDuplicates(r)
    ensures forall i :: 0 <= i < |xs| ==> xs[i] in r
    ensures forall i :: 0 <= i < |r| ==> r[i] in xs
    ensures forall i, j :: 0 <= i < j < |r| ==> FirstIndex(xs, r[i]) < FirstIndex(xs, r[j])
  {
    AppendNewBasics([], xs);
    AppendNewOrder([], xs);
    assert [] + xs == xs;
    assert InFirstOccurrenceOrder(AppendNew([], xs), xs);
    AppendNew([], xs)
  }

  lemma {:induction false} AppendNewDistinct<T>(acc: seq<T>, xs: seq<T>)
    requires NoDuplicates(acc + xs)
    ensures AppendNew(acc, xs) == acc + xs
    decreases |xs|
  {
    if xs != [] {
      assert (acc + xs)[|acc|] == xs[0];
      forall i | 0 <= i < |acc| ensures acc[i] != xs[0] {
        assert (acc + xs)[i] == acc[i];
      }
      assert acc + [xs[0]] + xs[1..] == acc + xs;
      AppendNewDistinct(acc + [xs[0]], xs[1..]);
    }
  }

  /** A list without duplicates is its own merge. */
  lemma DedupDistinct<T>(xs: seq<T>)
    requires NoDuplicates(xs)
    ensures Dedup(xs) == xs
  {
    assert [] + xs == xs;
    AppendNewDistinct([], xs);
  }

  /** Merging twice is merging once. */
  lemma DedupIdempotent<T>(xs: seq<T>)
    ensures Dedup(Dedup(xs)) == Dedup(xs)
  {
    DedupDistinct(Dedup(xs));
  }
}

=== FILE: frdr_listing.dfy ===
/**
 * Listing records and sets from the repository database
 * (viringo/services/frdr.py:341-378, 394-404). The database is a parameter:
 * `database(sql)` is the sequence of rows the query returns.
 */
module FrdrListing {
  import opened Base
  import opened Text
  import opened Temporal
  import opened FrdrLookups
  import opened FrdrRecords
  import opened FrdrMetadata

  /** The fixed part of the records query; every filter is appended to it. */
  const RecordsSelect: string := "SELECT recs.record_id, recs.title, recs.pub_date, recs.contact, recs.series, recs.source_url, recs.deleted, recs.local_identifier, recs.modified_timestamp, repos.repository_url, repos.repository_name, repos.repository_thumbnail, repos.item_url_pattern, repos.last_crawl_timestamp, repos.homepage_url FROM records recs, repositories repos WHERE recs.repository_id = repos.repository_id"

  /** The reserved set that stands for every repository at once. */
  const OpenAireSet: string := "openaire_data"
  const OpenAireName: string := "OpenAIRE"

  /** The repository filter: present for any set except the reserved one. */
  function SetClause(setSpec: Option<string>): (c: string)
    ensures c == [] <==> setSpec.None? || setSpec.value == OpenAireSet
    ensures setSpec.Some? && setSpec.value != OpenAireSet ==> c == " AND (repos.homepage_url='" + setSpec.value + "')"
  {
    if setSpec.Some? && setSpec.value != OpenAireSet then " AND (repos.homepage_url='" + setSpec.value + "')" else ""
  }

  /** The lower bound on the publication date: inclusive. */
  function FromClause(from: Option<string>): (c: string)
    ensures c == [] <==> from.None?
    ensures from.Some? ==> c == " AND recs.pub_date>='" + from.value + "'"
  {
    if from.Some? then " AND recs.pub_date>='" + from.value + "'" else ""
  }

  /** The upper bound on the publication date: exclusive. */
  function UntilClause(until: Option<string>): (c: string)
    ensures c == [] <==> until.None?
    ensures until.Some? ==> c == " AND recs.pub_date<'" + until.value + "'"
  {
    if until.Some? then " AND recs.pub_date<'" + until.value + "'" else ""
  }

  function OffsetClause(cursor: Option<string>): (c: string)
    ensures c == [] <==> cursor.None?
  {
    if cursor.Some? then " OFFSET " + cursor.value else ""
  }

  /**
   * The query text built on the fixed select `base`: the set, lower-bound,
   * upper-bound and offset clauses follow in that order, each only when its
   * argument is given. The source always passes `RecordsSelect` as `base`.
   */
  function RecordsSql(base: string, setSpec: Option<string>, from: Option<string>, until: Option<string>, cursor: Option<string>): (sql: string)
    ensures IsPrefix(base, sql)
  {
    base + (SetClause(setSpec) + FromClause(from) + UntilClause(until) + OffsetClause(cursor))
  }

  /**
   * The query starts with the fixed select, is nothing more exactly when no filter
   * applies, and ends with the offset when a cursor is given.
   */
  lemma RecordsSqlShape(base: string, setSpec: Option<string>, from: Option<string>, until: Option<string>, cursor: Option<string>)
    ensures var sql := RecordsSql(base, setSpec, from, until, cursor);
      && IsPrefix(base, sql)
      && (sql == base <==> (setSpec.None? || setSpec.value == OpenAireSet) && from.None? && until.None? && cursor.None?)
      && (cursor.Some? ==> IsSuffix(" OFFSET " + cursor.value, sql))
  {
    var sql := RecordsSql(base, setSpec, from, until, cursor);
    var filters := SetClause(setSpec) + FromClause(from) + UntilClause(until);
    SeqAssoc(base, filters, OffsetClause(cursor));
    assert sql[..|base|] == base;
  }

  /** Asking for the reserved set is the same query as asking for no set. */
  lemma OpenAireIsUnfiltered(base: string, from: Option<string>, until: Option<string>, cursor: Option<string>)
    ensures RecordsSql(base, Some(OpenAireSet), from, until, cursor) == RecordsSql(base, None, from, until, cursor)
  {
  }

  /** Any other set spec is matched against the repositories' homepage URL right after the fixed select. */
  lemma SetFiltersByHomepage(base: string, spec: string, from: Option<string>, until: Option<string>, cursor: Option<string>)
    requires spec != OpenAireSet
    ensures OccursAt(RecordsSql(base, Some(spec), from, until, cursor), " AND (repos.homepage_url='" + spec + "')", |base|)
  {
    var c := " AND (repos.homepage_url='" + spec + "')";
    var rest := FromClause(from) + UntilClause(until) + OffsetClause(cursor);
    var sql := RecordsSql(base, Some(spec), from, until, cursor);
    assert sql == base + (c + rest) by {
      SeqAssoc(c, FromClause(from), UntilClause(until));
      SeqAssoc(c, FromClause(from) + UntilClause(until), OffsetClause(cursor));
      SeqAssoc(base, c + FromClause(from) + UntilClause(until), OffsetClause(cursor));
      SeqAssoc(FromClause(from), UntilClause(until), OffsetClause(cursor));
    }
    assert sql[|base|..|base| + |c|] == c;
  }

  /** Whether a row survives `assemble_record`. */
  predicate Kept(row: Row, lookupsOf: int -> Lookups, toFloat: string -> Option<real>) {
    AssembleRecord(row, lookupsOf(row.recordId), toFloat).Some?
  }

  /**
   * One pass of the loop body: the row's metadata if `assemble_record` keeps it,
   * nothing otherwise. `lookupsOf` gives the lookup tables' rows for a record id.
   */
  function RowResult(row: Row, lookupsOf: int -> Lookups, toFloat: string -> Option<real>, parseDate: string -> ParsedDate): (ms: seq<Metadata>)
    ensures Kept(row, lookupsOf, toFloat) ==> |ms| == 1 && ms[0].identifier == row.recordId
    ensures !Kept(row, lookupsOf, toFloat) ==> ms == []
  {
    match AssembleRecord(row, lookupsOf(row.recordId), toFloat)
    case Some(rec) => [BuildMetadata(rec, parseDate)]
    case None => []
  }

  /** Every value the loop body produces is identified by the row's resolved URL. */
  lemma RowResultIdentified(row: Row, lookupsOf: int -> Lookups, toFloat: string -> Option<real>, parseDate: string -> ParsedDate)
    ensures var ms := RowResult(row, lookupsOf, toFloat, parseDate);
      forall i :: 0 <= i < |ms| ==> Resolve(row).Some? && ms[i].identifiers == [Resolve(row)]
  {
  }

  /** The loop body as a function value, so that the loop itself can be reasoned about once. */
  function Step(lookupsOf: int -> Lookups, toFloat: string -> Option<real>, parseDate: string -> ParsedDate): Row -> seq<Metadata> {
    row => RowResult(row, lookupsOf, toFloat, parseDate)
  }

  /** The loop of `get_metadata_list`: what `step` yields for each fetched row, in row order. */
  function Collect(page: seq<Row>, step: Row -> seq<Metadata>): (ms: seq<Metadata>)
    ensures (forall i :: 0 <= i < |page| ==> step(page[i]) == []) ==> ms == []
  {
    if page == [] then []
    else
      assert forall i :: 0 <= i < |page| - 1 ==> page[..|page| - 1][i] == page[i];
      Collect(page[..|page| - 1], step) + step(page[|page| - 1])
  }

  /** The loop's results over two runs of rows are the results over each run, concatenated. */
  lemma {:induction false} CollectAppend(a: seq<Row>, b: seq<Row>, step: Row -> seq<Metadata>)
    ensures Collect(a + b, step) == Collect(a, step) + Collect(b, step)
    decreases |b|
  {
    if b == [] {
      assert a + b == a;
    } else {
      var b' := b[..|b| - 1];
      assert (a + b)[..|a + b| - 1] == a + b';
      CollectAppend(a, b', step);
      assert (a + b)[|a + b| - 1] == b[|b| - 1];
      SeqAssoc(Collect(a, step), Collect(b', step), step(b[|b| - 1]));
    }
  }

  /** When every row yields exactly one value carrying its id, the results line up with the rows. */
  lemma {:induction false} CollectOnePerRow(page: seq<Row>, step: Row -> seq<Metadata>)
    requires forall i :: 0 <= i < |page| ==> |step(page[i])| == 1 && step(page[i])[0].identifier == page[i].recordId
    ensures |Collect(page, step)| == |page|
    ensures forall i :: 0 <= i < |page| ==> Collect(page, step)[i].identifier == page[i].recordId
  {
    if page != [] {
      var prefix := page[..|page| - 1];
      assert forall i :: 0 <= i < |prefix| ==> prefix[i] == page[i];
      CollectOnePerRow(prefix, step);
    }
  }

  /** A row that yields nothing can be dropped from anywhere in the page. */
  lemma CollectSkip(a: seq<Row>, row: Row, b: seq<Row>, step: Row -> seq<Metadata>)
    requires step(row) == []
    ensures Collect(a + [row] + b, step) == Collect(a + b, step)
  {
    CollectAppend(a + [row], b, step);
    CollectAppend(a, [row], step);
    CollectAppend(a, b, step);
    assert [row][..0] == [];
  }

  /** When every fetched row is kept, there is one value per row, carrying that row's id, in row order. */
  lemma PageAllKept(page: seq<Row>, lookupsOf: int -> Lookups, toFloat: string -> Option<real>, parseDate: string -> ParsedDate)
    requires forall i :: 0 <= i < |page| ==> Kept(page[i], lookupsOf, toFloat)
    ensures var ms := Collect(page, Step(lookupsOf, toFloat, parseDate));
      |ms| == |page| && forall i :: 0 <= i < |page| ==> ms[i].identifier == page[i].recordId
  {
    var step := Step(lookupsOf, toFloat, parseDate);
    forall i | 0 <= i < |page|
      ensures |step(page[i])| == 1 && step(page[i])[0].identifier == page[i].recordId
    {
      assert step(page[i]) == RowResult(page[i], lookupsOf, toFloat, parseDate);
    }
    CollectOnePerRow(page, step);
  }

  /** A row `assemble_record` excludes leaves the results as if it had not been fetched. */
  lemma PageSkipsExcluded(a: seq<Row>, row: Row, b: seq<Row>, lookupsOf: int -> Lookups, toFloat: string -> Option<real>, parseDate: string -> ParsedDate)
    requires !Kept(row, lookupsOf, toFloat)
    ensures Collect(a + [row] + b, Step(lookupsOf, toFloat, parseDate)) == Collect(a + b, Step(lookupsOf, toFloat, parseDate))
  {
    var step := Step(lookupsOf, toFloat, parseDate);
    assert step(row) == RowResult(row, lookupsOf, toFloat, parseDate);
    CollectSkip(a, row, b, step);
  }

  /** The loop over the fetched rows: the metadata of every kept row, in row order. */
  method BuildPage(page: seq<Row>, lookupsOf: int -> Lookups, toFloat: string -> Option<real>, parseDate: string -> ParsedDate)
    returns (results: seq<Metadata>)
    ensures results == Collect(page, Step(lookupsOf, toFloat, parseDate))
  {
    var step := Step(lookupsOf, toFloat, parseDate);
    results := [];
    var i := 0;
    while i < |page|
      invariant 0 <= i <= |page|
      invariant results == Collect(page[..i], step)
    {
      results := results + step(page[i]);
      assert page[..i + 1][..i] == page[..i];
      i := i + 1;
    }
    assert page[..i] == page;
  }

  /**
   * `get_metadata_list`: run the composed query, fetch at most `resultSetSize` rows,
   * and build the metadata of every kept row. Returns the results, the query's row
   * count and the number of rows fetched.
   */
  method GetMetadataList(
    database: string -> seq<Row>, resultSetSize: nat,
    setSpec: Option<string>, from: Option<string>, until: Option<string>, cursor: Option<string>,
    lookupsOf: int -> Lookups, toFloat: string -> Option<real>, parseDate: string -> ParsedDate)
    returns (results: seq<Metadata>, rowcount: nat, fetched: nat)
    ensures var rows := database(RecordsSql(RecordsSelect, setSpec, from, until, cursor));
      && rowcount == |rows|
      && fetched == (if |rows| < resultSetSize then |rows| else resultSetSize)
      && results == Collect(rows[..fetched], Step(lookupsOf, toFloat, parseDate))
  {
    var rows := database(RecordsSql(RecordsSelect, setSpec, from, until, cursor));
    fetched := if |rows| < resultSetSize then |rows| else resultSetSize;
    results := BuildPage(rows[..fetched], lookupsOf, toFloat, parseDate);
    rowcount := |rows|;
  }

  /** At most one value per fetched row, so never more than the page size. */
  lemma {:induction false} CollectBounded(page: seq<Row>, lookupsOf: int -> Lookups, toFloat: string -> Option<real>, parseDate: string -> ParsedDate)
    ensures |Collect(page, Step(lookupsOf, toFloat, parseDate))| <= |page|
  {
    if page != [] {
      var step := Step(lookupsOf, toFloat, parseDate);
      CollectBounded(page[..|page| - 1], lookupsOf, toFloat, parseDate);
      assert step(page[|page| - 1]) == RowResult(page[|page| - 1], lookupsOf, toFloat, parseDate);
    }
  }

  /**
   * `get_sets`: every repository as (homepage URL, name), then the reserved set,
   * and the number of entries.
   */
  function GetSets(repositories: seq<SetEntry>): (r: (seq<SetEntry>, nat))
    ensures r.1 == |r.0| == |repositories| + 1
    ensures r.0[..|repositories|] == repositories
    ensures r.0[|repositories|] == SetEntry(OpenAireSet, OpenAireName)
  {
    var sets := repositories + [SetEntry(OpenAireSet, OpenAireName)];
    (sets, |sets|)
  }

  /**
   * Every listed set selects what it names: a repository's set filters on its
   * homepage URL, and the reserved set is the unfiltered query.
   */
  lemma ListedSetsSelect(base: string, repositories: seq<SetEntry>, k: nat, from: Option<string>, until: Option<string>, cursor: Option<string>)
    requires forall i :: 0 <= i < |repositories| ==> repositories[i].spec != OpenAireSet
    requires k < GetSets(repositories).1
    ensures var spec := GetSets(repositories).0[k].spec;
      if k < |repositories| then
        spec == repositories[k].spec &&
        OccursAt(RecordsSql(base, Some(spec), from, until, cursor), " AND (repos.homepage_url='" + spec + "')", |base|)
      else
        RecordsSql(base, Some(spec), from, until, cursor) == RecordsSql(base, None, from, until, cursor)
  {
    var sets := GetSets(repositories).0;
    if k < |repositories| {
      assert sets[k] == sets[..|repositories|][k];
      SetFiltersByHomepage(base, sets[k].spec, from, until, cursor);
    } else {
      OpenAireIsUnfiltered(base, from, until, cursor);
    }
  }
}

=== FILE: frdr_lookups.dfy ===
/**
 * The per-record lookups of the repository adapter once the database has answered:
 * flattening one-column result rows (`rows_to_dict`, viringo/services/frdr.py:256-265)
 * and grouping coordinate rows into map features (viringo/services/frdr.py:283-298).
 */
module FrdrLookups {
  import opened Base

  // ---------------------------------------------------------------------------
  // rows_to_dict

  /** A result row: a list of column values, or a bare value. */
  datatype DbRow = ListRow(cells: seq<string>) | ScalarRow(value: string)

  /** `if r:` on a row: a list is truthy when non-empty, a string when non-empty. */
  predicate IsTruthy(r: DbRow) {
    match r
    case ListRow(cells) => cells != []
    case ScalarRow(v) => v != ""
  }

  /** What a truthy row contributes: its first column, or the bare value itself. */
  function Cell(r: DbRow): string
    requires IsTruthy(r)
  {
    match r
    case ListRow(cells) => cells[0]
    case ScalarRow(v) => v
  }

  /** The number of truthy rows. */
  function TruthyCount(rows: seq<DbRow>): (n: nat)
    ensures n <= |rows|
  {
    if rows == [] then 0 else (if IsTruthy(rows[0]) then 1 else 0) + TruthyCount(rows[1..])
  }

  /** The loop of `rows_to_dict` over the rows: one value per truthy row, in order. */
  function Flatten(rows: seq<DbRow>): (r: seq<string>)
    ensures |r| == TruthyCount(rows)
    ensures (forall j :: 0 <= j < |rows| ==> IsTruthy(rows[j])) ==>
      forall i :: 0 <= i < |r| ==> r[i] == Cell(rows[i])
  {
    if rows == [] then []
    else
      var rest := Flatten(rows[1..]);
      assert forall j :: 1 <= j < |rows| ==> rows[1..][j - 1] == rows[j];
      if IsTruthy(rows[0]) then [Cell(rows[0])] + rest else rest
  }

  /** `rows_to_dict(cursor)`: nothing for a missing cursor, else the flattened rows. */
  function RowsToDict(cursor: Option<seq<DbRow>>): (r: seq<string>)
    ensures cursor.None? ==> r == []
    ensures cursor.Some? ==> |r| == TruthyCount(cursor.value) <= |cursor.value|
  {
    match cursor
    case None => []
    case Some(rows) => Flatten(rows)
  }

  /** Flattening works row by row: the rows of two batches flatten to the two flattenings joined. */
  lemma {:induction false} FlattenAppend(a: seq<DbRow>, b: seq<DbRow>)
    ensures Flatten(a + b) == Flatten(a) + Flatten(b)
    decreases |a|
  {
    if a == [] {
      assert a + b == b;
    } else {
      assert (a + b)[1..] == a[1..] + b;
      FlattenAppend(a[1..], b);
    }
  }

  /** Every flattened value is the first cell of some truthy row. */
  lemma {:induction false} FlattenFromRows(rows: seq<DbRow>, i: nat)
    requires i < |Flatten(rows)|
    ensures exists j :: 0 <= j < |rows| && IsTruthy(rows[j]) && Flatten(rows)[i] == Cell(rows[j])
    decreases |rows|
  {
    assert rows != [];
    if IsTruthy(rows[0]) && i == 0 {
      assert Flatten(rows)[0] == Cell(rows[0]);
    } else {
      var i' := if IsTruthy(rows[0]) then i - 1 else i;
      assert Flatten(rows)[i] == Flatten(rows[1..])[i'];
      FlattenFromRows(rows[1..], i');
      var j :| 0 <= j < |rows[1..]| && IsTruthy(rows[1..][j]) && Flatten(rows[1..])[i'] == Cell(rows[1..][j]);
      assert rows[1..][j] == rows[j + 1];
    }
  }

  /** Falsy rows (empty lists, empty strings) leave no trace. */
  lemma {:induction false} FlattenSkipsFalsy(rows: seq<DbRow>)
    requires forall j :: 0 <= j < |rows| ==> !IsTruthy(rows[j])
    ensures Flatten(rows) == []
    decreases |rows|
  {
    if rows != [] {
      assert forall j :: 0 <= j < |rows[1..]| ==> rows[1..][j] == rows[j + 1];
      FlattenSkipsFalsy(rows[1..]);
    }
  }

  // ---------------------------------------------------------------------------
  // Geospatial grouping

  /** A `(coordinate_type, lat, lon)` row of the geospatial table, as the database returns it. */
  datatype GeoRow = GeoRow(coordinateType: string, lat: string, lon: string)

  datatype Point = Point(lat: real, lon: real)

  /** `[lat, lon]` for a single point, or the list of such pairs for a polygon. */
  datatype Coordinates = Pair(point: Point) | Ring(points: seq<Point>)

  /** A `{"frdr:geospatial_type": "Feature", "frdr:geospatial_geometry": ...}` entry. */
  datatype Feature = Feature(geometryType: string, coordinates: Coordinates)

  const PolygonType: string := "Polygon"

  /** Both coordinates through `float()`, latitude first; `None` when either raises. */
  function ParseRow(row: GeoRow, toFloat: string -> Option<real>): (p: Option<Point>)
    ensures p.Some? <==> toFloat(row.lat).Some? && toFloat(row.lon).Some?
    ensures p.Some? ==> p.value == Point(toFloat(row.lat).value, toFloat(row.lon).value)
  {
    match toFloat(row.lat)
    case None => None
    case Some(a) =>
      match toFloat(row.lon)
      case None => None
      case Some(b) => Some(Point(a, b))
  }

  /** The point features appended so far, and the polygon corners gathered so far. */
  datatype Grouping = Grouping(features: seq<Feature>, polygon: seq<Point>)

  /** How many rows the loop handles before the first row whose coordinates do not parse. */
  function ParsedPrefix(rows: seq<GeoRow>, toFloat: string -> Option<real>): (k: nat)
    ensures k <= |rows|
    ensures forall j :: 0 <= j < k ==> ParseRow(rows[j], toFloat).Some?
    ensures k < |rows| ==> ParseRow(rows[k], toFloat).None?
  {
    if rows == [] || ParseRow(rows[0], toFloat).None? then 0
    else
      var k := ParsedPrefix(rows[1..], toFloat);
      assert forall j :: 1 <= j < |rows| ==> rows[1..][j - 1] == rows[j];
      1 + k
  }

  /**
   * The `try` block over the rows: a row of type `Polygon` adds a corner, any other
   * row a point feature of its own type; the first row that does not parse ends the
   * loop and keeps what was gathered before it.
   */
  function Scan(rows: seq<GeoRow>, toFloat: string -> Option<real>): (g: Grouping)
    ensures forall i :: 0 <= i < |g.features| ==>
      g.features[i].geometryType != PolygonType && g.features[i].coordinates.Pair?
  {
    if rows == [] then Grouping([], [])
    else
      match ParseRow(rows[0], toFloat)
      case None => Grouping([], [])
      case Some(p) =>
        var rest := Scan(rows[1..], toFloat);
        if rows[0].coordinateType == PolygonType then Grouping(rest.features, [p] + rest.polygon)
        else Grouping([Feature(rows[0].coordinateType, Pair(p))] + rest.features, rest.polygon)
  }

  /**
   * `record["frdr:geospatial"]`: the point features, then one polygon feature holding
   * every corner, when there is at least one.
   */
  function Geospatial(rows: seq<GeoRow>, toFloat: string -> Option<real>): (fs: seq<Feature>)
    ensures |fs| <= ParsedPrefix(rows, toFloat) <= |rows|
    ensures forall i :: 0 <= i < |fs| - 1 ==> fs[i].geometryType != PolygonType
    ensures forall i :: 0 <= i < |fs| ==> (fs[i].geometryType == PolygonType <==> fs[i].coordinates.Ring?)
    ensures forall i :: 0 <= i < |fs| && fs[i].coordinates.Ring? ==> i == |fs| - 1 && fs[i].coordinates.points != []
  {
    var g := Scan(rows, toFloat);
    ScanCount(rows, toFloat);
    if g.polygon != [] then g.features + [Feature(PolygonType, Ring(g.polygon))] else g.features
  }

  /**
   * The record's features are the point features in row order, then, exactly when a
   * corner was gathered, one polygon feature holding every corner.
   */
  lemma GeospatialShape(rows: seq<GeoRow>, toFloat: string -> Option<real>)
    ensures var g := Scan(rows, toFloat); var fs := Geospatial(rows, toFloat);
      && |g.features| <= |fs|
      && fs[..|g.features|] == g.features
      && (g.polygon != [] <==> |fs| == |g.features| + 1)
      && (g.polygon != [] ==> fs[|fs| - 1] == Feature(PolygonType, Ring(g.polygon)))
  {
    var g := Scan(rows, toFloat);
    if g.polygon != [] {
      assert (g.features + [Feature(PolygonType, Ring(g.polygon))])[..|g.features|] == g.features;
    }
  }

  /**
   * A row that does not parse ends the loop, but the features gathered before it,
   * the polygon included, are still emitted.
   */
  lemma GeospatialStopsAtFailure(a: seq<GeoRow>, bad: GeoRow, b: seq<GeoRow>, toFloat: string -> Option<real>)
    requires ParseRow(bad, toFloat).None?
    ensures Geospatial(a + [bad] + b, toFloat) == Geospatial(a, toFloat)
  {
    ScanStopsAtFailure(a, bad, b, toFloat);
  }

  /** The parsed points of the `Polygon` rows, in row order: an independent statement of the corners. */
  function Corners(rows: seq<GeoRow>, toFloat: string -> Option<real>): seq<Point>
    decreases |rows|
  {
    if rows == [] then []
    else
      (if rows[0].coordinateType == PolygonType && ParseRow(rows[0], toFloat).Some?
       then [ParseRow(rows[0], toFloat).value] else [])
      + Corners(rows[1..], toFloat)
  }

  /** The point features of the other rows, in row order. */
  function PointFeatures(rows: seq<GeoRow>, toFloat: string -> Option<real>): seq<Feature>
    decreases |rows|
  {
    if rows == [] then []
    else
      (if rows[0].coordinateType != PolygonType && ParseRow(rows[0], toFloat).Some?
       then [Feature(rows[0].coordinateType, Pair(ParseRow(rows[0], toFloat).value))] else [])
      + PointFeatures(rows[1..], toFloat)
  }

  /**
   * The loop gathers, from the rows before the first one that does not parse, exactly
   * the point features of the non-polygon rows and the corners of the polygon rows.
   */
  lemma {:induction false} ScanGathers(rows: seq<GeoRow>, toFloat: string -> Option<real>)
    ensures var k := ParsedPrefix(rows, toFloat);
      && Scan(rows, toFloat).features == PointFeatures(rows[..k], toFloat)
      && Scan(rows, toFloat).polygon == Corners(rows[..k], toFloat)
    decreases |rows|
  {
    if rows != [] && ParseRow(rows[0], toFloat).Some? {
      ScanGathers(rows[1..], toFloat);
      var k := ParsedPrefix(rows[1..], toFloat);
      var pre := rows[..1 + k];
      assert pre[0] == rows[0] && pre[1..] == rows[1..][..k];
    } else {
      assert rows[..0] == [];
    }
  }

  /**
   * `record["frdr:geospatial"]` in full: the point features of the rows before the
   * first unparsable one, then one polygon of their corners when there is any.
   */
  lemma GeospatialGathers(rows: seq<GeoRow>, toFloat: string -> Option<real>)
    ensures var pre := rows[..ParsedPrefix(rows, toFloat)];
      Geospatial(rows, toFloat) ==
        PointFeatures(pre, toFloat)
        + (if Corners(pre, toFloat) != [] then [Feature(PolygonType, Ring(Corners(pre, toFloat)))] else [])
  {
    ScanGathers(rows, toFloat);
  }

  /** Every row before the first unparsable one becomes exactly one feature or one corner. */
  lemma {:induction false} ScanCount(rows: seq<GeoRow>, toFloat: string -> Option<real>)
    ensures |Scan(rows, toFloat).features| + |Scan(rows, toFloat).polygon| == ParsedPrefix(rows, toFloat)
    decreases |rows|
  {
    if rows != [] && ParseRow(rows[0], toFloat).Some? {
      ScanCount(rows[1..], toFloat);
    }
  }

  /** A row that does not parse hides every row after it. */
  lemma {:induction false} ScanStopsAtFailure(a: seq<GeoRow>, bad: GeoRow, b: seq<GeoRow>, toFloat: string -> Option<real>)
    requires ParseRow(bad, toFloat).None?
    ensures Scan(a + [bad] + b, toFloat) == Scan(a, toFloat)
    decreases |a|
  {
    if a == [] {
      assert (a + [bad] + b)[0] == bad;
    } else {
      assert (a + [bad] + b)[0] == a[0];
      assert (a + [bad] + b)[1..] == a[1..] + [bad] + b;
      ScanStopsAtFailure(a[1..], bad, b, toFloat);
    }
  }

  /**
   * Rows that all parse group independently: the features and corners of two batches
   * are those of each batch, joined in order.
   */
  lemma {:induction false} ScanAppend(a: seq<GeoRow>, b: seq<GeoRow>, toFloat: string -> Option<real>)
    requires forall j :: 0 <= j < |a| ==> ParseRow(a[j], toFloat).Some?
    ensures Scan(a + b, toFloat).features == Scan(a, toFloat).features + Scan(b, toFloat).features
    ensures Scan(a + b, toFloat).polygon == Scan(a, toFloat).polygon + Scan(b, toFloat).polygon
    decreases |a|
  {
    if a == [] {
      assert a + b == b;
      assert Scan(a, toFloat) == Grouping([], []);
    } else {
      var h, t := a[0], a[1..];
      assert forall j :: 0 <= j < |t| ==> t[j] == a[j + 1];
      ScanAppend(t, b, toFloat);
      assert a == [h] + t;
      assert a + b == [h] + (t + b);
      ScanAppendStep(h, t, b, toFloat);
    }
  }

  lemma ScanAppendStep(h: GeoRow, t: seq<GeoRow>, b: seq<GeoRow>, toFloat: string -> Option<real>)
    requires ParseRow(h, toFloat).Some?
    requires Scan(t + b, toFloat).features == Scan(t, toFloat).features + Scan(b, toFloat).features
    requires Scan(t + b, toFloat).polygon == Scan(t, toFloat).polygon + Scan(b, toFloat).polygon
    ensures Scan([h] + (t + b), toFloat).features == Scan([h] + t, toFloat).features + Scan(b, toFloat).features
    ensures Scan([h] + (t + b), toFloat).polygon == Scan([h] + t, toFloat).polygon + Scan(b, toFloat).polygon
  {
    ScanCons(h, t + b, toFloat);
    ScanCons(h, t, toFloat);
    var p := ParseRow(h, toFloat).value;
    var gt, gb := Scan(t, toFloat), Scan(b, toFloat);
    if h.coordinateType == PolygonType {
      SeqAssoc([p], gt.polygon, gb.polygon);
    } else {
      SeqAssoc([Feature(h.coordinateType, Pair(p))], gt.features, gb.features);
    }
  }

  /** The loop body for one parsable row in front of the others. */
  lemma ScanCons(row: GeoRow, rest: seq<GeoRow>, toFloat: string -> Option<real>)
    requires ParseRow(row, toFloat).Some?
    ensures var p := ParseRow(row, toFloat).value;
      var g := Scan(rest, toFloat);
      Scan([row] + rest, toFloat) ==
        if row.coordinateType == PolygonType then Grouping(g.features, [p] + g.polygon)
        else Grouping([Feature(row.coordinateType, Pair(p))] + g.features, g.polygon)
  {
    assert ([row] + rest)[0] == row;
    assert ([row] + rest)[1..] == rest;
  }

  /** One parsable row: a corner for a `Polygon` row, a point feature of its own type otherwise. */
  lemma ScanOne(row: GeoRow, toFloat: string -> Option<real>)
    requires ParseRow(row, toFloat).Some?
    ensures var p := ParseRow(row, toFloat).value;
      Scan([row], toFloat) ==
        if row.coordinateType == PolygonType then Grouping([], [p])
        else Grouping([Feature(row.coordinateType, Pair(p))], [])
  {
    assert [row][1..] == [];
  }
}

=== FILE: frdr_metadata.dfy ===
/**
 * The repository adapter's `Metadata` value and `build_metadata`
 * (viringo/services/frdr.py:11-64, 168-212).
 */
module FrdrMetadata {
  import opened Base
  import opened FirstOccurrence
  import opened Xml
  import opened Temporal
  import opened Resolver
  import opened FrdrLookups
  import opened FrdrRecords
  import opened FrdrXml

  /**
   * The fields `build_metadata` sets. `xml` is the element tree before serialisation;
   * `fundingReferences` is the empty string the source assigns, not a list.
   */
  datatype Metadata = Metadata(
    identifier: int,
    createdDatetime: DateTime,
    updatedDatetime: DateTime,
    xml: Element,
    metadataVersion: Option<string>,
    titles: seq<string>,
    creators: seq<string>,
    subjects: seq<string>,
    descriptions: seq<string>,
    publisher: seq<string>,
    publicationYear: int,
    dates: seq<string>,
    contributors: seq<string>,
    resourceTypes: seq<string>,
    fundingReferences: string,
    sizes: seq<string>,
    geoLocations: seq<Feature>,
    formats: seq<string>,
    identifiers: seq<Option<string>>,
    language: string,
    relations: seq<string>,
    rights: seq<string>,
    client: string,
    active: bool)

  /**
   * `build_metadata(data)` for an assembled record. `parseDate` stands for
   * `dateutil.parser.parse` followed by the conversion to naive UTC.
   */
  function BuildMetadata(rec: FullRecord, parseDate: string -> ParsedDate): (m: Metadata)
    ensures m.identifier == rec.row.recordId && m.titles == [rec.row.title]
    ensures m.createdDatetime == m.updatedDatetime == parseDate(rec.row.pubDate).utc
    ensures m.publicationYear == parseDate(rec.row.pubDate).localYear
    ensures m.descriptions == rec.descriptionsEn && m.rights == rec.rights
    ensures m.resourceTypes == ["Dataset"] && m.active
    ensures m.identifiers == [Resolve(rec.row)]
  {
    var parsed := parseDate(rec.row.pubDate);
    Metadata(
      rec.row.recordId, parsed.utc, parsed.utc,
      ConstructDataciteXml(rec), None,
      [rec.row.title], rec.authors,
      Dedup(rec.subjects + rec.tagsEn + rec.tagsFr),
      rec.descriptionsEn, rec.publishers, parsed.localYear,
      [rec.row.pubDate], rec.contributors, ["Dataset"], "", [],
      rec.geospatial, [], [Resolve(rec.row)], "", [], rec.rights,
      rec.row.homepageUrl, true)
  }

  /** A record that survived `assemble_record` carries exactly its source URL as identifier. */
  lemma AssembledIdentifierIsSource(row: Row, lookups: Lookups, toFloat: string -> Option<real>, parseDate: string -> ParsedDate)
    requires AssembleRecord(row, lookups, toFloat).Some?
    ensures var rec := AssembleRecord(row, lookups, toFloat).value;
      BuildMetadata(rec, parseDate).identifiers == [Some(rec.source)]
  {
  }

  /** The subjects are the merged subjects and tags: no term twice, and every term of the three lists. */
  lemma SubjectsAreMergedTerms(rec: FullRecord, parseDate: string -> ParsedDate)
    ensures var m := BuildMetadata(rec, parseDate);
      var terms := rec.subjects + rec.tagsEn + rec.tagsFr;
      && NoDuplicates(m.subjects)
      && (forall i :: 0 <= i < |m.subjects| ==> m.subjects[i] in terms)
      && (forall i :: 0 <= i < |terms| ==> terms[i] in m.subjects)
  {
  }

  /** The record's subjects are the subjects of its XML document, in the same order. */
  lemma SubjectsMatchXml(rec: FullRecord, parseDate: string -> ParsedDate)
    ensures var m := BuildMetadata(rec, parseDate);
      var sub := m.xml.children[5];
      |sub.children| == |m.subjects| &&
      forall i :: 0 <= i < |m.subjects| ==> sub.children[i].text == Some(m.subjects[i])
  {
    var m := BuildMetadata(rec, parseDate);
    assert m.xml.children[5] == SubjectsElement(rec);
  }

  /** Building the subjects again from the built subjects changes nothing. */
  lemma SubjectsStable(rec: FullRecord, parseDate: string -> ParsedDate)
    ensures Dedup(BuildMetadata(rec, parseDate).subjects) == BuildMetadata(rec, parseDate).subjects
  {
    DedupIdempotent(rec.subjects + rec.tagsEn + rec.tagsFr);
  }
}

=== FILE: frdr_records.dfy ===
/**
 * The repository adapter's records: a row of the records/repositories join, and the
 * full record `assemble_record` makes of it (viringo/services/frdr.py:268-338).
 */
module FrdrRecords {
  import opened Base
  import opened Text
  import opened Resolver
  import opened FrdrLookups

  /**
   * One row of the records query (viringo/services/frdr.py:357), under the column
   * names `get_metadata_list` zips it with. SQL NULLs are not modelled.
   */
  datatype Row = Row(
    recordId: int,
    title: string,
    pubDate: string,
    contact: string,
    series: string,
    sourceUrl: string,
    deleted: int,
    localIdentifier: string,
    modifiedTimestamp: string,
    repositoryUrl: string,
    repositoryName: string,
    repositoryThumbnail: string,
    itemUrlPattern: string,
    lastCrawlTimestamp: string,
    homepageUrl: string)

  /** What the lookup queries of one record return, one result set per query. */
  datatype Lookups = Lookups(
    geodata: seq<GeoRow>,
    authors: seq<DbRow>,
    affiliations: seq<DbRow>,
    contributors: seq<DbRow>,
    subjects: seq<DbRow>,
    publishers: seq<DbRow>,
    rights: seq<DbRow>,
    descriptionsEn: seq<DbRow>,
    descriptionsFr: seq<DbRow>,
    tagsEn: seq<DbRow>,
    tagsFr: seq<DbRow>,
    access: seq<DbRow>)

  /** The record dictionary after `assemble_record`: the row plus `dc:source` and the flattened lookups. */
  datatype FullRecord = FullRecord(
    row: Row,
    source: string,
    geospatial: seq<Feature>,
    authors: seq<string>,
    affiliations: seq<string>,
    contributors: seq<string>,
    subjects: seq<string>,
    publishers: seq<string>,
    rights: seq<string>,
    descriptionsEn: seq<string>,
    descriptionsFr: seq<string>,
    tagsEn: seq<string>,
    tagsFr: seq<string>,
    access: seq<string>)

  /** The resolver applied to a row's own fields. */
  function Resolve(row: Row): (r: Option<string>)
    ensures r.None? ==> row.itemUrlPattern == "" && row.sourceUrl == ""
  {
    ConstructLocalUrl(row.localIdentifier, row.itemUrlPattern, row.sourceUrl)
  }

  /**
   * `assemble_record`: `None` for a record without a resolvable URL, a deleted one or
   * one without a title; otherwise the record with its source URL, its map features
   * and its flattened lookups.
   */
  function AssembleRecord(row: Row, lookups: Lookups, toFloat: string -> Option<real>): (r: Option<FullRecord>)
    ensures r.None? <==> Resolve(row).None? || row.deleted == 1 || |row.title| == 0
    ensures r.Some? ==> r.value.row == row && Resolve(row) == Some(r.value.source)
    ensures r.Some? ==> |r.value.geospatial| <= |lookups.geodata|
    ensures r.Some? ==> r.value.geospatial == Geospatial(lookups.geodata, toFloat)
    ensures r.Some? ==> |r.value.subjects| <= |lookups.subjects| && |r.value.authors| <= |lookups.authors|
  {
    var url := Resolve(row);
    if url.None? then None
    else if row.deleted == 1 then None
    else if |row.title| == 0 then None
    else
      Some(FullRecord(
        row, url.value, Geospatial(lookups.geodata, toFloat),
        RowsToDict(Some(lookups.authors)),
        RowsToDict(Some(lookups.affiliations)),
        RowsToDict(Some(lookups.contributors)),
        RowsToDict(Some(lookups.subjects)),
        RowsToDict(Some(lookups.publishers)),
        RowsToDict(Some(lookups.rights)),
        RowsToDict(Some(lookups.descriptionsEn)),
        RowsToDict(Some(lookups.descriptionsFr)),
        RowsToDict(Some(lookups.tagsEn)),
        RowsToDict(Some(lookups.tagsFr)),
        RowsToDict(Some(lookups.access))))
  }

  /**
   * The three exclusion checks run before any lookup: whether a record is kept
   * does not depend on what the lookups return.
   */
  lemma GuardPrecedesLookups(row: Row, l1: Lookups, l2: Lookups, f1: string -> Option<real>, f2: string -> Option<real>)
    ensures AssembleRecord(row, l1, f1).None? <==> AssembleRecord(row, l2, f2).None?
  {
  }

  /** An identifier that is already a URL makes a live, titled record its own source. */
  lemma UrlIdentifierIsSource(row: Row, lookups: Lookups, toFloat: string -> Option<real>)
    requires Contains(row.localIdentifier, "http")
    requires row.deleted != 1 && row.title != ""
    ensures AssembleRecord(row, lookups, toFloat).Some?
    ensures AssembleRecord(row, lookups, toFloat).value.source == row.localIdentifier
  {
    HttpIdentifierPassesThrough(row.localIdentifier, row.itemUrlPattern, row.sourceUrl, "", "");
  }
}

=== FILE: frdr_xml.dfy ===
/**
 * `construct_datacite_xml` (viringo/services/frdr.py:66-166): the DataCite Metadata
 * Kernel 4 `resource` element the repository adapter synthesises for a record.
 */
module FrdrXml {
  import opened Base
  import opened Text
  import opened FirstOccurrence
  import opened Xml
  import opened Resolver
  import opened FrdrRecords

  const KernelNamespace: string := "http://datacite.org/schema/kernel-4"
  const XsiNamespace: string := "http://www.w3.org/2001/XMLSchema-instance"
  const KernelSchemaLocation: string :=
    "http://datacite.org/schema/kernel-4 http://schema.datacite.org/meta/kernel-4/metadata.xsd"
  const HostingInstitutionName: string :=
    "Federated Research Data Repository / d\U{E9}p\U{F4}t f\U{E9}d\U{E9}r\U{E9} de donn\U{E9}es de recherche"

  const RootAttributes: seq<Attribute> := [
    Attribute("xmlns", KernelNamespace),
    Attribute("xmlns:xsi", XsiNamespace),
    Attribute("xsi:schemaLocation", KernelSchemaLocation)
  ]

  /** The children every synthesised resource has, in this order. */
  const FixedTags: seq<string> := [
    "identifier", "creators", "titles", "publisher", "publicationyear",
    "subjects", "contributors", "dates", "resourceType", "alternateIdentifiers"
  ]

  // ---------------------------------------------------------------------------
  // The identifier

  /**
   * The text of the `identifier` element: the source URL, or, when that is empty,
   * the URL pattern with every `%id%` replaced by the raw local identifier, provided
   * the pattern has a placeholder and the identifier is non-empty.
   */
  function IdentifierText(sourceUrl: string, itemUrlPattern: string, localIdentifier: string): (t: string)
    ensures sourceUrl != "" ==> t == sourceUrl
    ensures t != sourceUrl ==> sourceUrl == "" && Contains(itemUrlPattern, Placeholder) && localIdentifier != ""
    ensures !Contains(itemUrlPattern, Placeholder) || localIdentifier == "" ==> t == sourceUrl
    ensures sourceUrl == "" && Contains(itemUrlPattern, Placeholder) && localIdentifier != "" ==>
      t == ReplaceAll(itemUrlPattern, Placeholder, localIdentifier)
  {
    if sourceUrl == "" && itemUrlPattern != "" && Contains(itemUrlPattern, Placeholder) && localIdentifier != "" then
      ReplaceAll(itemUrlPattern, Placeholder, localIdentifier)
    else sourceUrl
  }

  // ---------------------------------------------------------------------------
  // Lists of entries

  /** The entries that are not empty strings, in order. */
  function NonEmpty(entries: seq<string>): (r: seq<string>)
    ensures |r| <= |entries|
    ensures forall i :: 0 <= i < |r| ==> r[i] != "" && r[i] in entries
    ensures forall i :: 0 <= i < |entries| && entries[i] != "" ==> entries[i] in r
    ensures r == [] <==> forall i :: 0 <= i < |entries| ==> entries[i] == ""
  {
    if entries == [] then []
    else
      var rest := NonEmpty(entries[1..]);
      assert forall i :: 1 <= i < |entries| ==> entries[i] == entries[1..][i - 1];
      if entries[0] == "" then rest else [entries[0]] + rest
  }

  /** The filter on one entry: kept exactly when it is not empty. */
  lemma NonEmptyOne(x: string)
    ensures NonEmpty([x]) == if x == "" then [] else [x]
  {
    assert [x][1..] == [];
  }

  /** The filter works entry by entry: filtering a concatenation concatenates the filtered parts. */
  lemma {:induction false} NonEmptyAppend(a: seq<string>, b: seq<string>)
    ensures NonEmpty(a + b) == NonEmpty(a) + NonEmpty(b)
    decreases |a|
  {
    if a == [] {
      assert a + b == b;
    } else {
      assert (a + b)[0] == a[0] && (a + b)[1..] == a[1..] + b;
      NonEmptyAppend(a[1..], b);
      if a[0] != "" {
        SeqAssoc([a[0]], NonEmpty(a[1..]), NonEmpty(b));
      }
    }
  }

  /** Entries that are all non-empty are kept as they are: in order, duplicates included. */
  lemma {:induction false} NonEmptyKeepsAll(entries: seq<string>)
    requires forall i :: 0 <= i < |entries| ==> entries[i] != ""
    ensures NonEmpty(entries) == entries
    decreases |entries|
  {
    if entries != [] {
      assert forall i :: 0 <= i < |entries[1..]| ==> entries[1..][i] == entries[i + 1];
      NonEmptyKeepsAll(entries[1..]);
      assert entries == [entries[0]] + entries[1..];
    }
  }

  /** One leaf per text, all with the same tag and attributes. */
  function TextLeaves(tag: string, attributes: seq<Attribute>, texts: seq<string>): (es: seq<Element>)
    ensures |es| == |texts|
    ensures forall i :: 0 <= i < |es| ==> es[i] == Leaf(tag, attributes, Some(texts[i]))
  {
    seq(|texts|, i requires 0 <= i < |texts| => Leaf(tag, attributes, Some(texts[i])))
  }

  /** The subjects and tags, English then French, each once, in first-seen order. */
  function SubjectTerms(rec: FullRecord): seq<string> {
    Dedup(rec.subjects + rec.tagsEn + rec.tagsFr)
  }

  /**
   * One `rights` element: an entry holding "http" is split at its first "http" into
   * a stripped statement and a stripped `rightsURI`; any other entry is kept as text.
   */
  function RightsElement(entry: string): (e: Element)
    ensures e.tag == "rights" && e.children == [] && e.text.Some?
    ensures e.attributes == [] <==> !Contains(entry, "http")
    ensures !Contains(entry, "http") ==> e.text == Some(entry)
    ensures Contains(entry, "http") ==> |e.attributes| == 1 && e.attributes[0].name == "rightsURI"
    ensures Contains(entry, "http") ==> var i := FirstHttp(entry);
      e.text == Some(Strip(entry[..i])) && e.attributes[0].value == Strip(entry[i..])
  {
    if Contains(entry, "http") then
      var i := FirstHttp(entry);
      Leaf("rights", [Attribute("rightsURI", Strip(entry[i..]))], Some(Strip(entry[..i])))
    else Leaf("rights", [], Some(entry))
  }

  /** `entry.find("http")` for an entry known to hold "http". */
  function FirstHttp(entry: string): (i: nat)
    requires Contains(entry, "http")
    ensures OccursAt(entry, "http", i)
    ensures forall k :: 0 <= k < i ==> !OccursAt(entry, "http", k)
  {
    IndexOfContains(entry, "http");
    IndexOf(entry, "http", 0).value
  }

  /** The `rightsURI` of an entry holding "http" starts with "http". */
  lemma RightsUriIsUrl(entry: string)
    requires Contains(entry, "http")
    ensures IsPrefix("http", RightsElement(entry).attributes[0].value)
  {
    var i := FirstHttp(entry);
    var s := entry[i..];
    assert s[..4] == "http";
    assert s[0] == 'h' && s[3] == 'p';
    LStripKeeps(s);
    PrefixSurvivesRStrip(s, 4);
  }

  lemma LStripKeeps(s: string)
    requires s != [] && !IsSpace(s[0])
    ensures LStrip(s) == s
  {
  }

  /** Trailing white space never reaches back past a non-space character. */
  lemma PrefixSurvivesRStrip(s: string, n: nat)
    requires 1 <= n <= |s| && !IsSpace(s[n - 1])
    ensures |RStrip(s)| >= n && RStrip(s)[..n] == s[..n]
  {
    var r := RStrip(s);
    assert r == s[..|r|];
  }

  /** One `rights` element per non-empty rights or access entry, in order. */
  function RightsChildren(rec: FullRecord): (es: seq<Element>)
    ensures |es| == |NonEmpty(rec.rights + rec.access)|
    ensures forall i :: 0 <= i < |es| ==> es[i] == RightsElement(NonEmpty(rec.rights + rec.access)[i])
  {
    var entries := NonEmpty(rec.rights + rec.access);
    seq(|entries|, i requires 0 <= i < |entries| => RightsElement(entries[i]))
  }

  /** One abstract per non-empty English or French description, in order. */
  function DescriptionChildren(rec: FullRecord): (es: seq<Element>)
    ensures |es| == |NonEmpty(rec.descriptionsEn + rec.descriptionsFr)|
    ensures forall i :: 0 <= i < |es| ==>
      es[i] == Leaf("description", [Attribute("descriptionType", "Abstract")], Some(NonEmpty(rec.descriptionsEn + rec.descriptionsFr)[i]))
  {
    TextLeaves("description", [Attribute("descriptionType", "Abstract")], NonEmpty(rec.descriptionsEn + rec.descriptionsFr))
  }

  // ---------------------------------------------------------------------------
  // The resource element

  function IdentifierElement(row: Row): (e: Element)
    ensures e.tag == "identifier"
    ensures e.text == Some(IdentifierText(row.sourceUrl, row.itemUrlPattern, row.localIdentifier))
  {
    Leaf("identifier", [Attribute("identifierType", "URL")],
      Some(IdentifierText(row.sourceUrl, row.itemUrlPattern, row.localIdentifier)))
  }

  function CreatorsElement(authors: seq<string>): (e: Element)
    ensures e.tag == "creators" && |e.children| == |authors|
  {
    Element("creators", [], None,
      seq(|authors|, i requires 0 <= i < |authors| =>
        Element("creator", [], None, [Leaf("creatorName", [], Some(authors[i]))])))
  }

  function SubjectsElement(rec: FullRecord): (e: Element)
    ensures e.tag == "subjects" && e.children == TextLeaves("subject", [], SubjectTerms(rec))
  {
    Element("subjects", [], None, TextLeaves("subject", [], SubjectTerms(rec)))
  }

  const ContributorsElement: Element :=
    Element("contributors", [], None, [
      Element("contributor", [Attribute("contributorType", "HostingInstitution")], None,
        [Leaf("contributorName", [], Some(HostingInstitutionName))])])

  const ResourceTypeElement: Element :=
    Leaf("resourceType", [Attribute("resourceTypeGeneral", "Dataset")], Some("Dataset"))

  function FixedChildren(rec: FullRecord): (es: seq<Element>)
    ensures |es| == |FixedTags| == 10
    ensures Tags(es) == FixedTags
    ensures es[0] == IdentifierElement(rec.row) && es[5] == SubjectsElement(rec)
  {
    var row := rec.row;
    [
      IdentifierElement(row),
      CreatorsElement(rec.authors),
      Element("titles", [], None, [Leaf("title", [], Some(row.title))]),
      Leaf("publisher", [], Some(row.repositoryName)),
      Leaf("publicationyear", [], Some(Take(row.pubDate, 4))),
      SubjectsElement(rec),
      ContributorsElement,
      Element("dates", [], None, [Leaf("date", [Attribute("dateType", "Issued")], Some(row.pubDate))]),
      ResourceTypeElement,
      Element("alternateIdentifiers", [], None,
        [Leaf("alternateIdentifier", [Attribute("alternateIdentifierType", "local")], Some(row.localIdentifier))])
    ]
  }

  function RelatedPart(rec: FullRecord): (es: seq<Element>)
    ensures Tags(es) == if rec.row.series != "" then ["relatedIdentifiers"] else []
  {
    if rec.row.series != "" then
      [Element("relatedIdentifiers", [], None, [Leaf("relatedIdentifier", [Attribute("relationType", "isPartOf")], Some(rec.row.series))])]
    else []
  }

  /** `rightsList`, removed again when no entry made it in. */
  function RightsPart(rec: FullRecord): (es: seq<Element>)
    ensures Tags(es) == if HasEntry(rec.rights + rec.access) then ["rightsList"] else []
    ensures HasEntry(rec.rights + rec.access) ==> es == [Element("rightsList", [], None, RightsChildren(rec))]
  {
    var rights := RightsChildren(rec);
    assert rights != [] <==> HasEntry(rec.rights + rec.access);
    if rights != [] then [Element("rightsList", [], None, rights)] else []
  }

  /** `descriptions`, removed again when no entry made it in. */
  function DescriptionsPart(rec: FullRecord): (es: seq<Element>)
    ensures Tags(es) == if HasEntry(rec.descriptionsEn + rec.descriptionsFr) then ["descriptions"] else []
    ensures HasEntry(rec.descriptionsEn + rec.descriptionsFr) ==> es == [Element("descriptions", [], None, DescriptionChildren(rec))]
  {
    var descriptions := DescriptionChildren(rec);
    assert descriptions != [] <==> HasEntry(rec.descriptionsEn + rec.descriptionsFr);
    if descriptions != [] then [Element("descriptions", [], None, descriptions)] else []
  }

  function OptionalChildren(rec: FullRecord): seq<Element> {
    RelatedPart(rec) + RightsPart(rec) + DescriptionsPart(rec)
  }

  /** A list entry is present: some entry is not the empty string. */
  predicate HasEntry(entries: seq<string>) {
    exists i :: 0 <= i < |entries| && entries[i] != ""
  }

  /** The child tags a record's resource element has, in order. */
  function ExpectedTags(rec: FullRecord): seq<string> {
    FixedTags + OptionalTags(rec)
  }

  function OptionalTags(rec: FullRecord): seq<string> {
    (if rec.row.series != "" then ["relatedIdentifiers"] else [])
      + (if HasEntry(rec.rights + rec.access) then ["rightsList"] else [])
      + (if HasEntry(rec.descriptionsEn + rec.descriptionsFr) then ["descriptions"] else [])
  }

  /**
   * `construct_datacite_xml(data)`, before serialisation: the root with its three
   * namespace attributes, the fixed children in order, then `relatedIdentifiers`,
   * `rightsList` and `descriptions`, each only when it has something to hold.
   */
  function ConstructDataciteXml(rec: FullRecord): (x: Element)
    ensures x.tag == "resource" && x.attributes == RootAttributes && x.text.None?
    ensures |x.children| >= 10
    ensures x.children[0] == IdentifierElement(rec.row) && x.children[5] == SubjectsElement(rec)
  {
    var fixed := FixedChildren(rec);
    var x := Element("resource", RootAttributes, None, fixed + OptionalChildren(rec));
    assert x.children[0] == fixed[0] && x.children[5] == fixed[5];
    x
  }

  /**
   * The resource's children are the ten fixed ones in order, followed by the
   * optional parts that have something to hold.
   */
  lemma ResourceChildOrder(rec: FullRecord)
    ensures ConstructDataciteXml(rec).children[..10] == FixedChildren(rec)
    ensures ChildTags(ConstructDataciteXml(rec)) == ExpectedTags(rec)
  {
    var fixed := FixedChildren(rec);
    var optional := OptionalChildren(rec);
    OptionalChildrenTags(rec);
    TagsAppend(fixed, optional);
    assert (fixed + optional)[..10] == fixed;
  }

  lemma OptionalChildrenTags(rec: FullRecord)
    ensures Tags(OptionalChildren(rec)) == OptionalTags(rec)
  {
    TagsAppend(RelatedPart(rec), RightsPart(rec));
    TagsAppend(RelatedPart(rec) + RightsPart(rec), DescriptionsPart(rec));
  }

  // ---------------------------------------------------------------------------
  // Properties of the synthesised document

  /**
   * The `subjects` element lists every subject and tag of the record, none twice, in
   * the order of first appearance across subjects, English tags and French tags.
   */
  lemma SubjectsAreMerged(rec: FullRecord)
    ensures var sub := SubjectsElement(rec);
      var terms := rec.subjects + rec.tagsEn + rec.tagsFr;
      && (forall i, j :: 0 <= i < j < |sub.children| ==> sub.children[i].text != sub.children[j].text)
      && (forall i :: 0 <= i < |terms| ==> exists k :: 0 <= k < |sub.children| && sub.children[k].text == Some(terms[i]))
      && (forall k :: 0 <= k < |sub.children| ==> sub.children[k].text.Some? && sub.children[k].text.value in terms)
  {
    var sub := SubjectsElement(rec);
    var terms := rec.subjects + rec.tagsEn + rec.tagsFr;
    var merged := Dedup(terms);
    assert sub.children == TextLeaves("subject", [], merged);
    forall i | 0 <= i < |terms|
      ensures exists k :: 0 <= k < |sub.children| && sub.children[k].text == Some(terms[i])
    {
      var k := FirstIndex(merged, terms[i]);
      assert sub.children[k].text == Some(merged[k]);
    }
  }

  /**
   * A rights statement followed by white space and a URL splits back into the two:
   * the statement as text and the URL as `rightsURI`.
   */
  lemma RightsSplitRoundTrip(statement: string, gap: string, url: string)
    requires Trimmed(statement) && !Contains(statement, "http")
    requires gap != [] && AllSpace(gap)
    requires IsPrefix("http", url) && Trimmed(url)
    ensures RightsElement(statement + gap + url) == Leaf("rights", [Attribute("rightsURI", url)], Some(statement))
  {
    var entry := statement + gap + url;
    var n := |statement + gap|;
    FirstHttpAfterGap(statement, gap, url);
    assert entry[..n] == statement + gap;
    assert entry[n..] == url;
    StripSurrounded([], statement, gap);
    assert [] + statement + gap == statement + gap;
    StripSurrounded([], url, []);
    assert [] + url + [] == url;
  }

  lemma FirstHttpAfterGap(statement: string, gap: string, url: string)
    requires !Contains(statement, "http")
    requires gap != [] && AllSpace(gap)
    requires IsPrefix("http", url)
    ensures Contains(statement + gap + url, "http")
    ensures FirstHttp(statement + gap + url) == |statement + gap|
  {
    var entry := statement + gap + url;
    var n := |statement + gap|;
    assert entry[n..n + 4] == url[..4];
    assert OccursAt(entry, "http", n);
    OccursAtContains(entry, "http", n);
    var i := FirstHttp(entry);
    if i < n {
      NoHttpBefore(statement, gap, url, i);
    }
  }

  /** "http" cannot start inside the statement or the white space after it. */
  lemma NoHttpBefore(statement: string, gap: string, url: string, k: nat)
    requires !Contains(statement, "http")
    requires gap != [] && AllSpace(gap)
    requires k < |statement + gap|
    ensures !OccursAt(statement + gap + url, "http", k)
  {
    var entry := statement + gap + url;
    if k + 4 <= |statement| {
      assert statement[k..k + 4] == entry[k..k + 4];
      assert !OccursAt(statement, "http", k);
    } else if k + 4 <= |entry| {
      var w := entry[k..k + 4];
      var j := if k >= |statement| then k else |statement|;
      assert k <= j < k + 4 && j < |statement + gap|;
      assert w[j - k] == entry[j] == gap[j - |statement|];
      assert forall m :: 0 <= m < 4 ==> !IsSpace("http"[m]);
      assert w[j - k] != "http"[j - k];
    }
  }

  /**
   * Where the resolver fills the URL pattern with the raw identifier (no OAI local id
   * and no source URL), the XML identifier is the resolved URL.
   */
  lemma IdentifierAgreesWithResolver(row: Row)
    requires row.sourceUrl == "" && row.localIdentifier != ""
    requires !LooksLikeUrl(row.localIdentifier) && OaiId(row.localIdentifier).None?
    requires Contains(row.itemUrlPattern, Placeholder)
    ensures Resolve(row) == Some(IdentifierText(row.sourceUrl, row.itemUrlPattern, row.localIdentifier))
  {
  }

  /**
   * For an `oai:<domain>:<local>` identifier the two part ways: the XML identifier
   * fills the pattern with the whole identifier, the resolver with the local id only.
   */
  lemma OaiIdentifierInXml(domain: string, local: string, base: string, tail: string)
    requires |domain| >= 1 && |local| >= 1
    requires ':' !in local && '\n' !in domain && '\n' !in local
    requires !LooksLikeUrl("oai:" + domain + ":" + local)
    requires '%' !in base && !Contains(tail, Placeholder)
    ensures var id := "oai:" + domain + ":" + local;
      var pattern := base + Placeholder + tail;
      && IdentifierText("", pattern, id) == base + id + tail
      && ConstructLocalUrl(id, pattern, "") == Some(base + ReplaceChar(local, '_', ':') + tail)
      && ConstructLocalUrl(id, pattern, "") != Some(IdentifierText("", pattern, id))
  {
    var id := "oai:" + domain + ":" + local;
    var pattern := base + Placeholder + tail;
    assert OccursAt(pattern, Placeholder, |base|) by {
      assert pattern[|base|..|base| + 4] == Placeholder;
    }
    OccursAtContains(pattern, Placeholder, |base|);
    FillFirstPlaceholder(base, tail, id);
    ReplaceAllAbsent(tail, Placeholder, id);
    ReplaceAllAbsent(tail, Placeholder, ReplaceChar(local, '_', ':'));
    OaiIdentifierFillsPattern(domain, local, base, tail, "");
    assert |base + id + tail| != |base + ReplaceChar(local, '_', ':') + tail|;
  }
}

=== FILE: patterns.dfy ===
/**
 * The three regular expressions of the identifier resolver (viringo/services/frdr.py),
 * written out as the matches Python's `re.search` finds: the leftmost start position,
 * and at that position the greedy choice with backtracking.
 */
module Patterns {
  import opened Base
  import opened Text

  // ---------------------------------------------------------------------------
  // "oai:(.+):(.+)" -- `.` is any character but a line feed

  /** The first line feed at or after `from`, or the end of `s`. */
  function LineEnd(s: string, from: nat): (e: nat)
    requires from <= |s|
    ensures from <= e <= |s|
    ensures forall k :: from <= k < e ==> s[k] != '\n'
    ensures e < |s| ==> s[e] == '\n'
    decreases |s| - from
  {
    if from == |s| || s[from] == '\n' then from else LineEnd(s, from + 1)
  }

  /** The largest index `c` in `[lo, hi)` with `s[c] == ':'`. */
  function LastColon(s: string, lo: nat, hi: nat): (r: Option<nat>)
    requires lo <= hi <= |s|
    ensures r.Some? ==> lo <= r.value < hi && s[r.value] == ':'
    ensures r.Some? ==> forall k :: r.value < k < hi ==> s[k] != ':'
    ensures r.None? ==> forall k :: lo <= k < hi ==> s[k] != ':'
    decreases hi - lo
  {
    if hi == lo then None
    else if s[hi - 1] == ':' then Some(hi - 1)
    else LastColon(s, lo, hi - 1)
  }

  /**
   * Group 2 of a match starting at `p`. Group 1 takes at least one character and as
   * many as it can, so the separating colon is the last one on the line that still
   * leaves group 2 a character; group 2 then runs to the end of the line.
   */
  function OaiMatchAt(s: string, p: nat): (r: Option<string>)
    requires p <= |s|
    ensures r.Some? ==> OccursAt(s, "oai:", p) && |r.value| >= 1
  {
    if !OccursAt(s, "oai:", p) then None
    else
      var e := LineEnd(s, p + 4);
      if e < p + 6 then None
      else
        match LastColon(s, p + 5, e - 1)
        case None => None
        case Some(c) => Some(s[c + 1..e])
  }

  /** `re.search("oai:(.+):(.+)", s).group(2)` when searching from `p` on. */
  function OaiLocalId(s: string, p: nat): (r: Option<string>)
    requires p <= |s|
    ensures r.Some? ==> 1 <= |r.value| <= |s| - p - 6
    decreases |s| - p
  {
    match OaiMatchAt(s, p)
    case Some(g) => Some(g)
    case None => if p == |s| then None else OaiLocalId(s, p + 1)
  }

  /**
   * For an identifier on one line, the OAI local id is the text after the last
   * colon that still has a character after it: it is a non-empty suffix, the colon
   * precedes it, and only its final character may itself be a colon.
   */
  lemma {:induction false} OaiLocalIdIsSuffix(s: string, p: nat)
    requires p <= |s|
    requires '\n' !in s
    requires OaiLocalId(s, p).Some?
    ensures var g := OaiLocalId(s, p).value;
      && 1 <= |g| < |s|
      && g == s[|s| - |g|..]
      && s[|s| - |g| - 1] == ':'
      && ':' !in g[..|g| - 1]
    decreases |s| - p
  {
    match OaiMatchAt(s, p)
    case Some(g) =>
      var e := LineEnd(s, p + 4);
      var c := LastColon(s, p + 5, e - 1).value;
      assert g == s[c + 1..];
      assert |s| - |g| - 1 == c;
      forall k | 0 <= k < |g| - 1 ensures g[k] != ':' {
        assert g[k] == s[c + 1 + k];
      }
    case None =>
      OaiLocalIdIsSuffix(s, p + 1);
  }

  /** `oai:<domain>:<local>` yields `<local>` whatever the domain, colons included. */
  lemma OaiLocalIdOfComposite(domain: string, local: string)
    requires |domain| >= 1 && |local| >= 1
    requires ':' !in local
    requires '\n' !in domain && '\n' !in local
    ensures OaiLocalId("oai:" + domain + ":" + local, 0) == Some(local)
  {
    var s := "oai:" + domain + ":" + local;
    var c := 4 + |domain|;
    assert s[..4] == "oai:";
    forall k | 4 <= k < |s| ensures s[k] != '\n' {
      if k < c { assert s[k] == domain[k - 4]; }
      else if k > c { assert s[k] == local[k - c - 1]; }
    }
    forall k | c < k < |s| ensures s[k] != ':' {
      assert s[k] == local[k - c - 1];
    }
    assert s[c + 1..] == local;
    OaiOneLine(s, c);
  }

  /** On one line, `oai:` followed by text whose last colon is at `c` yields what follows that colon. */
  lemma OaiOneLine(s: string, c: nat)
    requires 5 <= c < |s| - 1
    requires OccursAt(s, "oai:", 0)
    requires forall k :: 4 <= k < |s| ==> s[k] != '\n'
    requires s[c] == ':' && forall k :: c < k < |s| ==> s[k] != ':'
    ensures OaiLocalId(s, 0) == Some(s[c + 1..])
  {
    assert LineEnd(s, 4) == |s|;
    assert LastColon(s, 5, |s| - 1) == Some(c);
    assert OaiMatchAt(s, 0) == Some(s[c + 1..|s|]);
    assert s[c + 1..|s|] == s[c + 1..];
  }

  // ---------------------------------------------------------------------------
  // "(doi|DOI):\s?\S+"

  predicate DoiTagAt(s: string, p: nat) {
    OccursAt(s, "doi:", p) || OccursAt(s, "DOI:", p)
  }

  /** The end of the run of non-space characters starting at `from`. */
  function NonSpaceRunEnd(s: string, from: nat): (e: nat)
    requires from <= |s|
    ensures from <= e <= |s|
    ensures forall k :: from <= k < e ==> !IsSpace(s[k])
    ensures e < |s| ==> IsSpace(s[e])
    decreases |s| - from
  {
    if from == |s| || IsSpace(s[from]) then from else NonSpaceRunEnd(s, from + 1)
  }

  /**
   * The whole match at `p`. `\s?` first takes one space; if `\S+` then fails, the
   * engine retries without the space, which fails too because the next character is
   * that space.
   */
  function DoiMatchAt(s: string, p: nat): (r: Option<string>)
    requires p <= |s|
    ensures r.Some? ==> DoiTagAt(s, p) && |r.value| >= 5 && IsPrefix(r.value, s[p..])
  {
    if !DoiTagAt(s, p) || p + 4 == |s| then None
    else if IsSpace(s[p + 4]) then
      if p + 5 < |s| && !IsSpace(s[p + 5]) then Some(s[p..NonSpaceRunEnd(s, p + 5)]) else None
    else Some(s[p..NonSpaceRunEnd(s, p + 4)])
  }

  /** `re.search("(doi|DOI):\s?\S+", s).group(0)` when searching from `p` on. */
  function DoiSearch(s: string, p: nat): (r: Option<string>)
    requires p <= |s|
    ensures r.Some? ==> |r.value| >= 5
    decreases |s| - p
  {
    match DoiMatchAt(s, p)
    case Some(m) => Some(m)
    case None => if p == |s| then None else DoiSearch(s, p + 1)
  }

  const DoiResolver: string := "https://doi.org/"

  /** `re.sub("(doi|DOI):\s?", "https://doi.org/", s)`: every tag, left to right. */
  function RewriteDoiTags(s: string): (r: string)
    ensures |r| >= |s|
    ensures DoiTagAt(s, 0) ==> IsPrefix(DoiResolver, r)
    ensures s != [] && !DoiTagAt(s, 0) ==> r[0] == s[0]
    decreases |s|
  {
    if s == [] then []
    else if DoiTagAt(s, 0) then
      var k := if 4 < |s| && IsSpace(s[4]) then 5 else 4;
      DoiResolver + RewriteDoiTags(s[k..])
    else [s[0]] + RewriteDoiTags(s[1..])
  }

  /** The DOI rule's result for a match: `rstrip('\.')` (a backslash or a dot), then the rewrite. */
  function DoiUrl(m: string): (u: string)
    ensures DoiTagAt(m, 0) ==> IsPrefix(DoiResolver, u)
  {
    var t := RStripChars(m, {'\\', '.'});
    assert DoiTagAt(m, 0) ==> DoiTagAt(t, 0) by {
      if DoiTagAt(m, 0) {
        assert m[3] == ':' && m[3] !in {'\\', '.'};
        assert |t| >= 4 && t[..4] == m[..4];
      }
    }
    RewriteDoiTags(t)
  }

  lemma {:induction false} RewriteNoTags(s: string)
    requires forall p :: 0 <= p < |s| ==> !DoiTagAt(s, p)
    ensures RewriteDoiTags(s) == s
    decreases |s|
  {
    if s != [] {
      assert !DoiTagAt(s, 0);
      forall p | 0 <= p < |s[1..]| ensures !DoiTagAt(s[1..], p) {
        if OccursAt(s[1..], "doi:", p) { OccursShift(s, "doi:", 1, p); }
        if OccursAt(s[1..], "DOI:", p) { OccursShift(s, "DOI:", 1, p); }
        assert !DoiTagAt(s, p + 1);
      }
      RewriteNoTags(s[1..]);
      assert s == [s[0]] + s[1..];
    }
  }

  // ---------------------------------------------------------------------------
  // "(http|ftp|https)://([\w_-]+(?:(?:\.[\w_-]+)+))([\w.,@?^=%&:/~+#-]*[\w@?^=%&/~+#-])?"

  /** `\w`, on ASCII: letters, digits and the underscore. */
  predicate IsWordChar(c: char) {
    'a' <= c <= 'z' || 'A' <= c <= 'Z' || '0' <= c <= '9' || c == '_'
  }

  /** `[\w_-]`: a host label character. */
  predicate IsHostChar(c: char) {
    IsWordChar(c) || c == '-'
  }

  /** `[\w.,@?^=%&:/~+#-]`: a character the path may contain. */
  predicate IsPathChar(c: char) {
    IsWordChar(c) || c in ".,@?^=%&:/~+#-"
  }

  /** `[\w@?^=%&/~+#-]`: a character the path may end with. */
  predicate IsPathEndChar(c: char) {
    IsWordChar(c) || c in "@?^=%&/~+#-"
  }

  function HostRunEnd(s: string, from: nat): (e: nat)
    requires from <= |s|
    ensures from <= e <= |s|
    ensures forall k :: from <= k < e ==> IsHostChar(s[k])
    decreases |s| - from
  {
    if from == |s| || !IsHostChar(s[from]) then from else HostRunEnd(s, from + 1)
  }

  /** `(?:\.[\w_-]+)*`, taken as often as possible. */
  function DotLabelsEnd(s: string, i: nat): (e: nat)
    requires i <= |s|
    ensures i <= e <= |s|
    decreases |s| - i
  {
    if i + 1 < |s| && s[i] == '.' && IsHostChar(s[i + 1]) then DotLabelsEnd(s, HostRunEnd(s, i + 1))
    else i
  }

  /** Group 2, a host of at least two labels, starting at `from`. */
  function HostEnd(s: string, from: nat): (r: Option<nat>)
    requires from <= |s|
    ensures r.Some? ==> from < r.value <= |s|
  {
    var a := HostRunEnd(s, from);
    if a == from then None
    else
      var b := DotLabelsEnd(s, a);
      if b == a then None else Some(b)
  }

  function PathRunEnd(s: string, from: nat): (e: nat)
    requires from <= |s|
    ensures from <= e <= |s|
    decreases |s| - from
  {
    if from == |s| || !IsPathChar(s[from]) then from else PathRunEnd(s, from + 1)
  }

  /** One past the last path-ending character in `[lo, hi)`, or `lo` when there is none. */
  function LastPathEnd(s: string, lo: nat, hi: nat): (e: nat)
    requires lo <= hi <= |s|
    ensures lo <= e <= hi
    decreases hi - lo
  {
    if hi == lo then lo
    else if IsPathEndChar(s[hi - 1]) then hi
    else LastPathEnd(s, lo, hi - 1)
  }

  /**
   * Group 3 is optional: the greedy path run backs off to its last character that
   * may end a path, and is empty when it has none.
   */
  function PathEnd(s: string, h: nat): (e: nat)
    requires h <= |s|
    ensures h <= e <= |s|
  {
    LastPathEnd(s, h, PathRunEnd(s, h))
  }

  /** The length of the scheme and `://` at `p`; at most one alternative can match there. */
  function SchemeLength(s: string, p: nat): (r: Option<nat>)
    ensures r.Some? ==> r.value in {6, 7, 8} && p + r.value <= |s|
    ensures r.Some? ==> (r.value == 6 <==> OccursAt(s, "ftp://", p))
    ensures r.Some? && r.value != 6 ==> OccursAt(s, "http", p)
    ensures r == Some(6) ==> OccursAt(s, "ftp://", p)
    ensures r == Some(7) ==> OccursAt(s, "http://", p)
    ensures r == Some(8) ==> OccursAt(s, "https://", p)
  {
    if OccursAt(s, "http://", p) then
      assert s[p..p + 4] == s[p..p + 7][..4] == "http://"[..4] == "http";
      assert s[p] == s[p..p + 7][0] == 'h';
      assert !OccursAt(s, "ftp://", p);
      Some(7)
    else if OccursAt(s, "ftp://", p) then Some(6)
    else if OccursAt(s, "https://", p) then
      assert s[p..p + 4] == s[p..p + 8][..4] == "https://"[..4] == "http";
      Some(8)
    else None
  }

  function UrlMatchAt(s: string, p: nat): (r: Option<string>)
    requires p <= |s|
    ensures r.Some? ==> OccursAt(s, "ftp://", p) || OccursAt(s, "http", p)
    ensures r.Some? ==> IsPrefix(r.value, s[p..]) && HasScheme(r.value)
  {
    match SchemeLength(s, p)
    case None => None
    case Some(k) =>
      match HostEnd(s, p + k)
      case None => None
      case Some(h) => Some(s[p..PathEnd(s, h)])
  }

  /** A URL the pattern accepts starts with one of its three schemes and has a host after it. */
  predicate HasScheme(u: string) {
    || (IsPrefix("ftp://", u) && |u| > 6)
    || (IsPrefix("http://", u) && |u| > 7)
    || (IsPrefix("https://", u) && |u| > 8)
  }

  /** `re.search(<url pattern>, s).group(0)` when searching from `p` on. */
  function UrlSearch(s: string, p: nat): (r: Option<string>)
    requires p <= |s|
    ensures r.Some? ==> HasScheme(r.value)
    decreases |s| - p
  {
    match UrlMatchAt(s, p)
    case Some(m) => Some(m)
    case None => if p == |s| then None else UrlSearch(s, p + 1)
  }

  /** Without "http" anywhere in the text, the only match the URL pattern can find is an ftp:// one. */
  lemma {:induction false} UrlSearchWithoutHttp(s: string, p: nat)
    requires p <= |s|
    requires !Contains(s, "http")
    requires UrlSearch(s, p).Some?
    ensures IsPrefix("ftp://", UrlSearch(s, p).value)
    decreases |s| - p
  {
    match UrlMatchAt(s, p)
    case Some(m) =>
      if OccursAt(s, "http", p) {
        OccursAtContains(s, "http", p);
      }
      var k := SchemeLength(s, p).value;
      var h := HostEnd(s, p + k).value;
      assert m == s[p..PathEnd(s, h)];
      assert m[..6] == s[p..p + 6];
    case None =>
      UrlSearchWithoutHttp(s, p + 1);
  }
}

=== FILE: resolver.dfy ===
/**
 * The identifier resolver of the repository adapter (`construct_local_url`,
 * viringo/services/frdr.py:215-253): one canonical URL for a record, from an
 * ordered chain of rules where the first rule that applies decides.
 */
module Resolver {
  import opened Base
  import opened Text
  import opened Patterns

  /** Rule 1: the identifier already is a URL (`"http" in local_identifier.lower()`). */
  predicate LooksLikeUrl(localIdentifier: string) {
    Contains(ToLower(localIdentifier), "http")
  }

  /** The OAI local id with underscores turned back into colons, when the identifier is `oai:x:y`. */
  function OaiId(localIdentifier: string): Option<string> {
    match OaiLocalId(localIdentifier, 0)
    case None => None
    case Some(g) => Some(ReplaceChar(g, '_', ':'))
  }

  /** What rule 2 substitutes for `%id%`: the OAI local id when there is one, else the raw identifier. */
  function PatternId(localIdentifier: string): string {
    match OaiId(localIdentifier)
    case Some(oai) => if oai != "" then oai else localIdentifier
    case None => localIdentifier
  }

  const Placeholder: string := "%id%"

  /**
   * `construct_local_url(record)` for a record's `local_identifier`, its repository's
   * `item_url_pattern` and its `source_url`; `None` when no rule applies.
   */
  function ConstructLocalUrl(localIdentifier: string, itemUrlPattern: string, sourceUrl: string): (url: Option<string>)
    ensures LooksLikeUrl(localIdentifier) ==> url == Some(localIdentifier)
    ensures !LooksLikeUrl(localIdentifier) && itemUrlPattern != "" ==>
      url == Some(ReplaceAll(itemUrlPattern, Placeholder, PatternId(localIdentifier)))
    ensures url.None? <==>
      && !LooksLikeUrl(localIdentifier)
      && itemUrlPattern == ""
      && DoiSearch(localIdentifier, 0).None?
      && sourceUrl == ""
      && UrlSearch(localIdentifier, 0).None?
  {
    if LooksLikeUrl(localIdentifier) then Some(localIdentifier)
    else if itemUrlPattern != "" then Some(ReplaceAll(itemUrlPattern, Placeholder, PatternId(localIdentifier)))
    else if DoiSearch(localIdentifier, 0).Some? then Some(DoiUrl(DoiSearch(localIdentifier, 0).value))
    else if sourceUrl != "" then Some(sourceUrl)
    else UrlSearch(localIdentifier, 0)
  }

  /** An identifier that already is a URL is returned as it is, whatever the other fields hold. */
  lemma HttpIdentifierPassesThrough(localIdentifier: string, pattern1: string, source1: string, pattern2: string, source2: string)
    requires Contains(localIdentifier, "http")
    ensures ConstructLocalUrl(localIdentifier, pattern1, source1) == Some(localIdentifier)
    ensures ConstructLocalUrl(localIdentifier, pattern2, source2) == Some(localIdentifier)
  {
    ContainsLowered(localIdentifier, "http");
  }

  /** Once a URL pattern applies, the source URL is never consulted. */
  lemma PatternIgnoresSourceUrl(localIdentifier: string, itemUrlPattern: string, source1: string, source2: string)
    requires itemUrlPattern != ""
    ensures ConstructLocalUrl(localIdentifier, itemUrlPattern, source1) == ConstructLocalUrl(localIdentifier, itemUrlPattern, source2)
  {
  }

  /** A pattern without the `%id%` placeholder is itself the URL, for every non-URL identifier. */
  lemma PatternWithoutPlaceholder(localIdentifier: string, itemUrlPattern: string, sourceUrl: string)
    requires !LooksLikeUrl(localIdentifier)
    requires itemUrlPattern != "" && !Contains(itemUrlPattern, Placeholder)
    ensures ConstructLocalUrl(localIdentifier, itemUrlPattern, sourceUrl) == Some(itemUrlPattern)
  {
    ReplaceAllAbsent(itemUrlPattern, Placeholder, PatternId(localIdentifier));
  }

  /**
   * `oai:<domain>:<local>` with a pattern `<base>%id%<tail>`: the URL is the base, the
   * local id with `_` turned into `:`, and the tail with its own placeholders filled.
   */
  lemma OaiIdentifierFillsPattern(domain: string, local: string, base: string, tail: string, sourceUrl: string)
    requires |domain| >= 1 && |local| >= 1
    requires ':' !in local && '\n' !in domain && '\n' !in local
    requires !LooksLikeUrl("oai:" + domain + ":" + local)
    requires '%' !in base
    ensures var oai := ReplaceChar(local, '_', ':');
      ConstructLocalUrl("oai:" + domain + ":" + local, base + Placeholder + tail, sourceUrl)
        == Some(base + oai + ReplaceAll(tail, Placeholder, oai))
  {
    var oai := ReplaceChar(local, '_', ':');
    var id := "oai:" + domain + ":" + local;
    var pattern := base + Placeholder + tail;
    OaiPatternId(domain, local);
    assert pattern != "";
    assert ConstructLocalUrl(id, pattern, sourceUrl) == Some(ReplaceAll(pattern, Placeholder, oai));
    FillFirstPlaceholder(base, tail, oai);
  }

  lemma FillFirstPlaceholder(base: string, tail: string, v: string)
    requires '%' !in base
    ensures ReplaceAll(base + Placeholder + tail, Placeholder, v) == base + v + ReplaceAll(tail, Placeholder, v)
  {
    var pt := Placeholder + tail;
    assert base + Placeholder + tail == base + pt;
    ReplaceAllSkip(base, pt, Placeholder, v);
    ReplaceAllFront(tail, Placeholder, v);
  }

  lemma OaiPatternId(domain: string, local: string)
    requires |domain| >= 1 && |local| >= 1
    requires ':' !in local && '\n' !in domain && '\n' !in local
    ensures PatternId("oai:" + domain + ":" + local) == ReplaceChar(local, '_', ':')
  {
    OaiLocalIdOfComposite(domain, local);
  }

  // ---------------------------------------------------------------------------
  // The DOI rule

  lemma NoLetterNoTag(s: string, p: nat)
    requires 'd' !in s && 'D' !in s
    ensures !DoiTagAt(s, p)
  {
    if p < |s| {
      assert s[p] in s;
    }
    assert p + 4 <= |s| ==> s[p..p + 4][0] == s[p];
  }

  lemma NoLetterNotUrl(s: string)
    requires 'h' !in s && 'H' !in s
    ensures !LooksLikeUrl(s)
  {
    var l := ToLower(s);
    forall i | 0 <= i < |l| ensures l[i] != 'h' {
      assert l[i] == LowerChar(s[i]);
    }
    forall k | 0 <= k <= |l| - 4 ensures !OccursAt(l, "http", k) {
      assert l[k..k + 4][0] == l[k];
    }
  }

  lemma TagInPrefix(u: string, t: string, p: nat)
    requires IsPrefix(u, t)
    requires DoiTagAt(u, p)
    ensures DoiTagAt(t, p)
  {
    assert u[p..p + 4] == t[p..p + 4];
  }

  lemma {:induction false} RStripCharsAfter(a: string, b: string, chars: set<char>)
    requires a != [] && a[|a| - 1] !in chars
    ensures RStripChars(a + b, chars) == a + RStripChars(b, chars)
    decreases |b|
  {
    if b != [] && b[|b| - 1] in chars {
      assert (a + b)[..|a + b| - 1] == a + b[..|b| - 1];
      RStripCharsAfter(a, b[..|b| - 1], chars);
    } else if b == [] {
      assert a + b == a;
    }
  }

  /**
   * `doi:<t>`, `DOI:<t>`, `doi: <t>` or `DOI: <t>`, with `<t>` a run of non-space
   * characters holding no further tag, resolves to `https://doi.org/<t>` with
   * trailing dots and backslashes removed, whatever the source URL.
   */
  lemma {:induction false} DoiIdentifierResolves(tag: string, sep: string, t: string, sourceUrl: string)
    requires tag == "doi:" || tag == "DOI:"
    requires sep == "" || sep == " "
    requires t != [] && forall i :: 0 <= i < |t| ==> !IsSpace(t[i])
    requires forall p :: 0 <= p < |t| ==> !DoiTagAt(t, p)
    requires !LooksLikeUrl(tag + sep + t)
    ensures ConstructLocalUrl(tag + sep + t, "", sourceUrl) == Some(DoiResolver + RStripChars(t, {'\\', '.'}))
  {
    var s := tag + sep + t;
    DoiSearchWhole(tag, sep, t);
    var chars := {'\\', '.'};
    RStripCharsAfter(tag + sep, t, chars);
    assert s == (tag + sep) + t;
    var u := RStripChars(t, chars);
    assert RStripChars(s, chars) == tag + sep + u;
    DoiRewriteStripped(tag, sep, t);
    assert DoiUrl(s) == DoiResolver + u;
  }

  /** The DOI search on `<tag><sep><t>` matches the whole identifier. */
  lemma DoiSearchWhole(tag: string, sep: string, t: string)
    requires tag == "doi:" || tag == "DOI:"
    requires sep == "" || sep == " "
    requires t != [] && forall i :: 0 <= i < |t| ==> !IsSpace(t[i])
    ensures DoiSearch(tag + sep + t, 0) == Some(tag + sep + t)
  {
    var s := tag + sep + t;
    var start := |tag + sep|;
    assert s[..4] == tag;
    assert DoiTagAt(s, 0);
    forall k | start <= k < |s| ensures !IsSpace(s[k]) {
      assert s[k] == t[k - start];
    }
    assert NonSpaceRunEnd(s, start) == |s|;
    if sep == " " {
      assert s[4] == ' ';
      assert s[5] == t[0];
    } else {
      assert s[4] == t[0];
    }
    assert DoiMatchAt(s, 0) == Some(s[0..|s|]);
    assert s[0..|s|] == s;
  }

  /** After stripping, the tag and its separator give way to the resolver and nothing else changes. */
  lemma DoiRewriteStripped(tag: string, sep: string, t: string)
    requires tag == "doi:" || tag == "DOI:"
    requires sep == "" || sep == " "
    requires t != [] && forall i :: 0 <= i < |t| ==> !IsSpace(t[i])
    requires forall p :: 0 <= p < |t| ==> !DoiTagAt(t, p)
    ensures RewriteDoiTags(tag + sep + RStripChars(t, {'\\', '.'})) == DoiResolver + RStripChars(t, {'\\', '.'})
  {
    var u := RStripChars(t, {'\\', '.'});
    forall p | 0 <= p < |u| ensures !DoiTagAt(u, p) {
      if DoiTagAt(u, p) { TagInPrefix(u, t, p); }
    }
    RewriteNoTags(u);
    var w := tag + sep + u;
    assert w[..4] == tag;
    assert DoiTagAt(w, 0);
    if sep == " " {
      assert w[4] == ' ' && w[5..] == u;
    } else {
      assert w[4..] == u;
      assert u != [] ==> w[4] == u[0] == t[0];
    }
  }

  /** The example a DOI-shaped identifier is documented with. */
  lemma DoiExample(id: string, sourceUrl: string)
    requires id == "doi: 10.1/xyz."
    ensures ConstructLocalUrl(id, "", sourceUrl) == Some("https://doi.org/10.1/xyz")
  {
    var t := id[5..];
    ExampleFacts(id, t);
    DoiIdentifierResolves("doi:", " ", t, sourceUrl);
    StripOne(t, {'\\', '.'});
  }

  lemma ExampleFacts(id: string, t: string)
    requires id == "doi: 10.1/xyz." && t == id[5..]
    ensures id == "doi:" + " " + t && !LooksLikeUrl(id)
    ensures t != [] && forall i :: 0 <= i < |t| ==> !IsSpace(t[i])
    ensures forall p :: 0 <= p < |t| ==> !DoiTagAt(t, p)
    ensures |t| >= 2 && t[|t| - 1] == '.' && t[|t| - 2] == 'z'
    ensures DoiResolver + t[..|t| - 1] == "https://doi.org/10.1/xyz"
  {
    assert t == "10.1/xyz.";
    ExampleTail(t);
    NoLetterNotUrl(id);
  }

  lemma ExampleTail(t: string)
    requires t == "10.1/xyz."
    ensures forall i :: 0 <= i < |t| ==> !IsSpace(t[i])
    ensures forall p :: 0 <= p < |t| ==> !DoiTagAt(t, p)
  {
    forall p | 0 <= p < |t| ensures !DoiTagAt(t, p) { NoLetterNoTag(t, p); }
    forall i | 0 <= i < |t| ensures !IsSpace(t[i]) { assert t[i] in "10.1/xyz."; }
  }

  /** One trailing character to strip, and the one before it stays. */
  lemma StripOne(t: string, chars: set<char>)
    requires |t| >= 2 && t[|t| - 1] in chars && t[|t| - 2] !in chars
    ensures RStripChars(t, chars) == t[..|t| - 1]
  {
    assert t[..|t| - 1][|t| - 2] == t[|t| - 2];
  }

  // ---------------------------------------------------------------------------
  // The fallbacks

  /** The source URL is the answer exactly when no earlier rule applied and it is non-empty. */
  lemma SourceUrlIsFallback(localIdentifier: string, itemUrlPattern: string, sourceUrl: string)
    requires !LooksLikeUrl(localIdentifier) && itemUrlPattern == "" && DoiSearch(localIdentifier, 0).None?
    requires sourceUrl != ""
    ensures ConstructLocalUrl(localIdentifier, itemUrlPattern, sourceUrl) == Some(sourceUrl)
  {
  }

  /**
   * The URL found inside the identifier, the last rule, is always an ftp:// URL:
   * an identifier holding "http" was already returned by the first rule.
   */
  lemma UrlInIdentifierIsFtp(localIdentifier: string)
    requires !LooksLikeUrl(localIdentifier) && DoiSearch(localIdentifier, 0).None?
    requires ConstructLocalUrl(localIdentifier, "", "").Some?
    ensures IsPrefix("ftp://", ConstructLocalUrl(localIdentifier, "", "").value)
  {
    if Contains(localIdentifier, "http") {
      ContainsLowered(localIdentifier, "http");
    }
    UrlSearchWithoutHttp(localIdentifier, 0);
  }
}

=== FILE: temporal.dfy ===
/**
 * Naive UTC timestamps, as the harvester stores them once the time zone has been
 * applied and dropped. Parsing an ISO date string is not modelled: callers pass the
 * parser in as a function.
 */
module Temporal {
  import opened Text

  /** A `datetime` without `tzinfo`. */
  datatype DateTime = DateTime(year: int, month: int, day: int, hour: int, minute: int, second: int, microsecond: int)

  /** What parsing a date string yields: the year as written, and the instant converted to UTC. */
  datatype ParsedDate = ParsedDate(localYear: int, utc: DateTime)

  /** `n` in decimal, left-padded with zeros to `width` digits. */
  function Padded(n: nat, width: nat): (r: string)
    ensures |r| >= width
    ensures forall i :: 0 <= i < |r| ==> '0' <= r[i] <= '9'
    ensures |NatToString(n)| <= width ==> |r| == width
  {
    var d := NatToString(n);
    if |d| >= width then d else Zeros(width - |d|) + d
  }

  /** Zero padding keeps the value: the padded digits read back as `n`. */
  lemma PaddedValue(n: nat, width: nat)
    ensures DecimalValue(Padded(n, width)) == n
  {
    var d := NatToString(n);
    NatToStringValue(n);
    if |d| < width {
      ZerosValue(width - |d|, d);
    }
  }

  predicate WellFormed(t: DateTime) {
    && 1 <= t.year <= 9999 && 1 <= t.month <= 12 && 1 <= t.day <= 31
    && 0 <= t.hour < 24 && 0 <= t.minute < 60 && 0 <= t.second < 60
    && 0 <= t.microsecond < 1000000
  }

  /**
   * `t.isoformat()` for a naive datetime: `YYYY-MM-DDTHH:MM:SS`, followed by
   * `.ffffff` only when the microseconds are non-zero.
   */
  function IsoFormat(t: DateTime): (r: string)
    requires WellFormed(t)
    ensures forall i :: 0 <= i < |r| ==> IsIsoChar(r[i])
  {
    var date := Padded(t.year, 4) + "-" + Padded(t.month, 2) + "-" + Padded(t.day, 2);
    var time := Padded(t.hour, 2) + ":" + Padded(t.minute, 2) + ":" + Padded(t.second, 2);
    var frac := if t.microsecond == 0 then "" else "." + Padded(t.microsecond, 6);
    date + "T" + time + frac
  }

  /** The characters `isoformat` writes for a naive datetime: digits, `-`, `T`, `:` and `.`. */
  predicate IsIsoChar(c: char) {
    '0' <= c <= '9' || c == '-' || c == 'T' || c == ':' || c == '.'
  }

  /** The rendering has the fixed `YYYY-MM-DDTHH:MM:SS` layout, 19 characters, or 26 with microseconds. */
  lemma IsoFormatLayout(t: DateTime)
    requires WellFormed(t)
    ensures |IsoFormat(t)| == if t.microsecond == 0 then 19 else 26
    ensures IsoFormat(t)[4] == '-' && IsoFormat(t)[10] == 'T' && IsoFormat(t)[13] == ':'
  {
    assert Pow10(2) == 100 && Pow10(4) == 10000 && Pow10(6) == 1000000;
    DigitCount(t.year, 4);
    DigitCount(t.month, 2);
    DigitCount(t.day, 2);
    DigitCount(t.hour, 2);
    DigitCount(t.minute, 2);
    DigitCount(t.second, 2);
    DigitCount(t.microsecond, 6);
    var y := Padded(t.year, 4);
    var mo := Padded(t.month, 2);
    var d := Padded(t.day, 2);
    var h := Padded(t.hour, 2);
    var date := y + "-" + mo + "-" + d;
    assert |date| == 10 && date[4] == '-';
    var time := h + ":" + Padded(t.minute, 2) + ":" + Padded(t.second, 2);
    assert |time| == 8 && time[2] == ':';
    var frac := if t.microsecond == 0 then "" else "." + Padded(t.microsecond, 6);
    assert IsoFormat(t) == date + "T" + time + frac;
    assert (date + "T" + time + frac)[13] == time[2];
  }

  /**
   * Each field of the rendering sits at its fixed offset as its zero-padded decimal
   * digits: year, month, day, hour, minute, second, and the microseconds when non-zero.
   */
  lemma IsoFormatFields(t: DateTime)
    requires WellFormed(t)
    ensures var r := IsoFormat(t);
      && |r| >= 19
      && r[..4] == Padded(t.year, 4) && r[5..7] == Padded(t.month, 2) && r[8..10] == Padded(t.day, 2)
      && r[11..13] == Padded(t.hour, 2) && r[14..16] == Padded(t.minute, 2) && r[17..19] == Padded(t.second, 2)
      && (t.microsecond == 0 ==> |r| == 19)
      && (t.microsecond != 0 ==> |r| == 26 && r[19] == '.' && r[20..] == Padded(t.microsecond, 6))
  {
    IsoFormatLayout(t);
    var r := IsoFormat(t);
    var date := Padded(t.year, 4) + "-" + Padded(t.month, 2) + "-" + Padded(t.day, 2);
    var time := Padded(t.hour, 2) + ":" + Padded(t.minute, 2) + ":" + Padded(t.second, 2);
    var frac := if t.microsecond == 0 then "" else "." + Padded(t.microsecond, 6);
    assert r == date + ['T'] + time + frac;
    SplitAround(date, 'T', time, frac);
    assert |date| == 10 && |time| == 8;
    SplitTriple(Padded(t.year, 4), '-', Padded(t.month, 2), '-', Padded(t.day, 2));
    SplitTriple(Padded(t.hour, 2), ':', Padded(t.minute, 2), ':', Padded(t.second, 2));
    assert r[..4] == date[..4] && r[5..7] == date[5..7] && r[8..10] == date[8..10];
    assert r[11..13] == time[..2] && r[14..16] == time[3..5] && r[17..19] == time[6..8];
    if t.microsecond != 0 {
      assert r[19..] == frac;
      assert frac[1..] == Padded(t.microsecond, 6);
    }
  }

  /** Every rendered field reads back as the datetime's own value. */
  lemma IsoFormatDecodes(t: DateTime)
    requires WellFormed(t)
    ensures var r := IsoFormat(t);
      && |r| >= 19
      && DecimalValue(r[..4]) == t.year && DecimalValue(r[5..7]) == t.month && DecimalValue(r[8..10]) == t.day
      && DecimalValue(r[11..13]) == t.hour && DecimalValue(r[14..16]) == t.minute && DecimalValue(r[17..19]) == t.second
      && (t.microsecond != 0 ==> |r| == 26 && DecimalValue(r[20..]) == t.microsecond)
  {
    IsoFormatFields(t);
    PaddedValue(t.year, 4);
    PaddedValue(t.month, 2);
    PaddedValue(t.day, 2);
    PaddedValue(t.hour, 2);
    PaddedValue(t.minute, 2);
    PaddedValue(t.second, 2);
    PaddedValue(t.microsecond, 6);
  }

  /** `a + [x] + b + c` splits back into its pieces. */
  lemma SplitAround(a: string, x: char, b: string, c: string)
    ensures var s := a + [x] + b + c;
      && s[..|a|] == a && s[|a|] == x && s[|a| + 1..|a| + 1 + |b|] == b && s[|a| + 1 + |b|..] == c
  {
  }

  /** `a + [x] + b + [y] + c` splits back into its pieces. */
  lemma SplitTriple(a: string, x: char, b: string, y: char, c: string)
    ensures var s := a + [x] + b + [y] + c;
      && s[..|a|] == a && s[|a| + 1..|a| + 1 + |b|] == b && s[|a| + |b| + 2..] == c
  {
  }

  /** A number below `10^width` has at most `width` digits. */
  lemma {:induction false} DigitCount(n: nat, width: nat)
    requires width >= 1 && n < Pow10(width)
    ensures |NatToString(n)| <= width
    decreases width
  {
    assert Pow10(1) == 10;
    if n >= 10 {
      assert width >= 2;
      DigitCount(n / 10, width - 1);
    }
  }

  function Pow10(k: nat): (r: nat)
    ensures r >= 1
  {
    if k == 0 then 1 else 10 * Pow10(k - 1)
  }
}

=== FILE: text.dfy ===
/** Python string operations the harvester relies on, over `string` (a sequence of code points). */
module Text {
  import opened Base

  /** `s.startswith(p)`. */
  predicate IsPrefix(p: string, s: string) {
    |p| <= |s| && s[..|p|] == p
  }

  /** `s.endswith(t)`. */
  predicate IsSuffix(t: string, s: string) {
    |t| <= |s| && s[|s| - |t|..] == t
  }

  /** `t` occurs in `s` starting at index `i`. */
  predicate OccursAt(s: string, t: string, i: int) {
    0 <= i && i + |t| <= |s| && s[i..i + |t|] == t
  }

  /** Python's `t in s` for strings. */
  predicate Contains(s: string, t: string) {
    exists i :: 0 <= i <= |s| - |t| && OccursAt(s, t, i)
  }

  /** `s.find(t, from)`: the first occurrence of `t` at or after `from`. */
  function IndexOf(s: string, t: string, from: nat): (r: Option<nat>)
    requires from <= |s|
    ensures r.Some? ==> from <= r.value && OccursAt(s, t, r.value)
    ensures r.Some? ==> forall k :: from <= k < r.value ==> !OccursAt(s, t, k)
    ensures r.None? ==> forall k :: from <= k ==> !OccursAt(s, t, k)
    decreases |s| - from
  {
    if OccursAt(s, t, from) then Some(from)
    else if from == |s| then None
    else IndexOf(s, t, from + 1)
  }

  /** `find` reports an occurrence exactly when `in` holds. */
  lemma IndexOfContains(s: string, t: string)
    ensures IndexOf(s, t, 0).Some? <==> Contains(s, t)
  {
    if IndexOf(s, t, 0).Some? {
      var k := IndexOf(s, t, 0).value;
      assert 0 <= k <= |s| - |t| && OccursAt(s, t, k);
    }
  }

  lemma OccursAtContains(s: string, t: string, i: int)
    requires OccursAt(s, t, i)
    ensures Contains(s, t)
  {
  }

  /** An occurrence in a prefix-stripped string is an occurrence in the whole string. */
  lemma OccursShift(s: string, t: string, d: nat, k: int)
    requires d <= |s|
    requires OccursAt(s[d..], t, k)
    ensures OccursAt(s, t, k + d)
  {
    assert s[d..][k..k + |t|] == s[k + d..k + d + |t|];
  }

  /** `s.replace(pat, repl)`: every non-overlapping occurrence, scanning from the left. */
  function ReplaceAll(s: string, pat: string, repl: string): (r: string)
    requires |pat| > 0
    ensures IsPrefix(pat, s) ==> IsPrefix(repl, r)
    ensures s != [] && !IsPrefix(pat, s) ==> r != [] && r[0] == s[0]
    decreases |s|
  {
    if |s| < |pat| then s
    else if s[..|pat|] == pat then repl + ReplaceAll(s[|pat|..], pat, repl)
    else [s[0]] + ReplaceAll(s[1..], pat, repl)
  }

  /** Replacing a substring that does not occur changes nothing. */
  lemma {:induction false} ReplaceAllAbsent(s: string, pat: string, repl: string)
    requires |pat| > 0
    requires !Contains(s, pat)
    ensures ReplaceAll(s, pat, repl) == s
    decreases |s|
  {
    if |s| >= |pat| {
      assert !OccursAt(s, pat, 0);
      if Contains(s[1..], pat) {
        var k :| 0 <= k <= |s[1..]| - |pat| && OccursAt(s[1..], pat, k);
        OccursShift(s, pat, 1, k);
        assert false;
      }
      ReplaceAllAbsent(s[1..], pat, repl);
      assert s == [s[0]] + s[1..];
    }
  }

  /** A prefix free of the first character of `pat` is copied through unchanged. */
  lemma {:induction false} ReplaceAllSkip(a: string, b: string, pat: string, repl: string)
    requires |pat| > 0
    requires pat[0] !in a
    ensures ReplaceAll(a + b, pat, repl) == a + ReplaceAll(b, pat, repl)
    decreases |a|
  {
    if a != [] {
      var s := a + b;
      assert s[1..] == a[1..] + b;
      if |s| >= |pat| {
        assert s[..|pat|][0] == a[0];
        assert s[..|pat|] != pat;
        ReplaceAllSkip(a[1..], b, pat, repl);
        assert a == [a[0]] + a[1..];
        assert ReplaceAll(s, pat, repl) == [a[0]] + ReplaceAll(a[1..] + b, pat, repl);
        assert [a[0]] + (a[1..] + ReplaceAll(b, pat, repl)) == a + ReplaceAll(b, pat, repl);
      } else {
        assert ReplaceAll(b, pat, repl) == b;
      }
    } else {
      assert a + b == b;
    }
  }

  /** A string that starts with `pat` has that occurrence replaced first. */
  lemma ReplaceAllFront(b: string, pat: string, repl: string)
    requires |pat| > 0
    ensures ReplaceAll(pat + b, pat, repl) == repl + ReplaceAll(b, pat, repl)
  {
    assert (pat + b)[..|pat|] == pat;
    assert (pat + b)[|pat|..] == b;
  }

  // ---------------------------------------------------------------------------
  // Character classes and case mapping (ASCII letters only)

  predicate IsUpperAscii(c: char) { 'A' <= c <= 'Z' }

  predicate IsLowerAscii(c: char) { 'a' <= c <= 'z' }

  function LowerChar(c: char): char {
    if IsUpperAscii(c) then c - 'A' + 'a' else c
  }

  function UpperChar(c: char): char {
    if IsLowerAscii(c) then c - 'a' + 'A' else c
  }

  /** `s.lower()` restricted to ASCII letters. */
  function ToLower(s: string): (r: string)
    ensures |r| == |s|
    ensures forall i :: 0 <= i < |s| ==> r[i] == LowerChar(s[i])
  {
    seq(|s|, i requires 0 <= i < |s| => LowerChar(s[i]))
  }

  /** `s.upper()` restricted to ASCII letters. */
  function ToUpper(s: string): (r: string)
    ensures |r| == |s|
    ensures forall i :: 0 <= i < |s| ==> r[i] == UpperChar(s[i])
  {
    seq(|s|, i requires 0 <= i < |s| => UpperChar(s[i]))
  }

  /** A substring without capitals that occurs in `s` still occurs after lower-casing `s`. */
  lemma ContainsLowered(s: string, t: string)
    requires forall i :: 0 <= i < |t| ==> !IsUpperAscii(t[i])
    requires Contains(s, t)
    ensures Contains(ToLower(s), t)
  {
    var k :| 0 <= k <= |s| - |t| && OccursAt(s, t, k);
    var l := ToLower(s);
    forall i | 0 <= i < |t|
      ensures l[k..k + |t|][i] == t[i]
    {
      assert s[k..k + |t|][i] == s[k + i];
    }
    assert l[k..k + |t|] == t;
    assert OccursAt(l, t, k);
  }

  /** Python's `str.isspace()` for one character, which is also what `\s` matches in `re`. */
  predicate IsSpace(c: char) {
    || c == ' '
    || '\t' <= c <= '\r'
    || '\U{1C}' <= c <= '\U{1F}'
    || c == '\U{85}' || c == '\U{A0}' || c == '\U{1680}'
    || '\U{2000}' <= c <= '\U{200A}'
    || c == '\U{2028}' || c == '\U{2029}' || c == '\U{202F}' || c == '\U{205F}' || c == '\U{3000}'
  }

  /** `s.lstrip()`. */
  function LStrip(s: string): (r: string)
    ensures |r| <= |s| && r == s[|s| - |r|..]
    ensures r != [] ==> !IsSpace(r[0])
    decreases |s|
  {
    if s != [] && IsSpace(s[0]) then LStrip(s[1..]) else s
  }

  /** `s.rstrip()`. */
  function RStrip(s: string): (r: string)
    ensures |r| <= |s| && r == s[..|r|]
    ensures r != [] ==> !IsSpace(r[|r| - 1])
    ensures forall i :: |r| <= i < |s| ==> IsSpace(s[i])
    decreases |s|
  {
    if s != [] && IsSpace(s[|s| - 1]) then RStrip(s[..|s| - 1]) else s
  }

  /** `s.strip()`. */
  function Strip(s: string): string {
    RStrip(LStrip(s))
  }

  /** Neither end of `s` is white space. */
  predicate Trimmed(s: string) {
    s == [] || (!IsSpace(s[0]) && !IsSpace(s[|s| - 1]))
  }

  predicate AllSpace(s: string) {
    forall i :: 0 <= i < |s| ==> IsSpace(s[i])
  }

  lemma {:induction false} LStripSpaces(l: string, x: string)
    requires AllSpace(l)
    requires x == [] || !IsSpace(x[0])
    ensures LStrip(l + x) == x
    decreases |l|
  {
    if l == [] {
      assert l + x == x;
    } else {
      assert (l + x)[0] == l[0];
      assert (l + x)[1..] == l[1..] + x;
      assert AllSpace(l[1..]) by {
        forall i | 0 <= i < |l[1..]| ensures IsSpace(l[1..][i]) { assert l[1..][i] == l[i + 1]; }
      }
      LStripSpaces(l[1..], x);
    }
  }

  lemma {:induction false} RStripSpaces(x: string, r: string)
    requires AllSpace(r)
    requires x == [] || !IsSpace(x[|x| - 1])
    ensures RStrip(x + r) == x
    decreases |r|
  {
    if r == [] {
      assert x + r == x;
    } else {
      var n := |r| - 1;
      assert (x + r)[|x + r| - 1] == r[n];
      assert (x + r)[..|x + r| - 1] == x + r[..n];
      assert AllSpace(r[..n]) by {
        forall i | 0 <= i < n ensures IsSpace(r[..n][i]) { assert r[..n][i] == r[i]; }
      }
      RStripSpaces(x, r[..n]);
    }
  }

  /** `strip()` removes exactly the white space around a trimmed core. */
  lemma StripSurrounded(l: string, a: string, r: string)
    requires AllSpace(l) && AllSpace(r) && Trimmed(a)
    ensures Strip(l + a + r) == a
  {
    if a == [] {
      assert l + a + r == l + r;
      assert AllSpace(l + r) by {
        forall i | 0 <= i < |l + r| ensures IsSpace((l + r)[i]) {
          if i < |l| { assert (l + r)[i] == l[i]; } else { assert (l + r)[i] == r[i - |l|]; }
        }
      }
      LStripSpaces(l + r, []);
      assert l + r + [] == l + r;
    } else {
      SeqAssoc(l, a, r);
      LStripSpaces(l, a + r);
      RStripSpaces(a, r);
    }
  }

  /** `s.rstrip(chars)` for an explicit character set. */
  function RStripChars(s: string, chars: set<char>): (r: string)
    ensures |r| <= |s| && r == s[..|r|]
    ensures r != [] ==> r[|r| - 1] !in chars
    ensures forall i :: |r| <= i < |s| ==> s[i] in chars
    decreases |s|
  {
    if s != [] && s[|s| - 1] in chars then RStripChars(s[..|s| - 1], chars) else s
  }

  /** Python's `s[:n]` for a non-negative `n`. */
  function Take(s: string, n: nat): (r: string)
    ensures |r| == if n < |s| then n else |s|
    ensures IsPrefix(r, s)
  {
    if n < |s| then s[..n] else s
  }

  /** `s.replace(a, b)` for single characters. */
  function ReplaceChar(s: string, a: char, b: char): (r: string)
    ensures |r| == |s|
    ensures forall i :: 0 <= i < |s| ==> r[i] == if s[i] == a then b else s[i]
  {
    seq(|s|, i requires 0 <= i < |s| => if s[i] == a then b else s[i])
  }

  // ---------------------------------------------------------------------------
  // Joining and splitting on one separator character

  /** `sep.join(parts)`. */
  function Join(parts: seq<string>, sep: char): string
    decreases |parts|
  {
    if parts == [] then ""
    else if |parts| == 1 then parts[0]
    else parts[0] + [sep] + Join(parts[1..], sep)
  }

  /** Joining four parts puts the separator between neighbours. */
  lemma JoinFour(a: string, b: string, c: string, d: string, sep: char)
    ensures Join([a, b, c, d], sep) == a + [sep] + b + [sep] + c + [sep] + d
  {
    assert [a, b, c, d][1..] == [b, c, d] && [b, c, d][1..] == [c, d] && [c, d][1..] == [d];
    assert Join([c, d], sep) == c + [sep] + d;
    assert Join([b, c, d], sep) == b + [sep] + (c + [sep] + d);
    assert Join([a, b, c, d], sep) == a + [sep] + (b + [sep] + (c + [sep] + d));
  }

  /** `s.split(sep)`: never empty, one more part than there are separators. */
  function Split(s: string, sep: char): (r: seq<string>)
    ensures |r| >= 1
    decreases |s|
  {
    if s == [] then [""]
    else if s[0] == sep then [""] + Split(s[1..], sep)
    else
      var rest := Split(s[1..], sep);
      [[s[0]] + rest[0]] + rest[1..]
  }

  lemma {:induction false} SplitNoSep(a: string, sep: char)
    requires sep !in a
    ensures Split(a, sep) == [a]
    decreases |a|
  {
    if a != [] {
      SplitNoSep(a[1..], sep);
      assert a == [a[0]] + a[1..];
    }
  }

  lemma {:induction false} SplitAtSep(a: string, b: string, sep: char)
    requires sep !in a
    ensures Split(a + [sep] + b, sep) == [a] + Split(b, sep)
    decreases |a|
  {
    if a == [] {
      assert a + [sep] + b == [sep] + b;
      assert ([sep] + b)[1..] == b;
    } else {
      var s := a + [sep] + b;
      assert s[0] == a[0];
      assert s[1..] == a[1..] + [sep] + b;
      SplitAtSep(a[1..], b, sep);
      assert a == [a[0]] + a[1..];
    }
  }

  /** Splitting a join gives the parts back, provided no part contains the separator. */
  lemma {:induction false} SplitJoin(parts: seq<string>, sep: char)
    requires |parts| >= 1
    requires forall i :: 0 <= i < |parts| ==> sep !in parts[i]
    ensures Split(Join(parts, sep), sep) == parts
    decreases |parts|
  {
    if |parts| == 1 {
      SplitNoSep(parts[0], sep);
    } else {
      SplitJoin(parts[1..], sep);
      SplitAtSep(parts[0], Join(parts[1..], sep), sep);
      assert parts == [parts[0]] + parts[1..];
    }
  }

  // ---------------------------------------------------------------------------
  // Decimal rendering (Python's `str(int)` / `'%s' % n`)

  function DigitChar(d: nat): (c: char)
    requires d < 10
    ensures '0' <= c <= '9'
    ensures DigitValue(c) == d
  {
    ('0' as int + d) as char
  }

  /** The value of a decimal digit; other characters count as zero. */
  function DigitValue(c: char): nat {
    if '0' <= c <= '9' then c as int - '0' as int else 0
  }

  /** The number a string of decimal digits denotes, most significant digit first. */
  function DecimalValue(s: string): nat
    decreases |s|
  {
    if s == [] then 0 else 10 * DecimalValue(s[..|s| - 1]) + DigitValue(s[|s| - 1])
  }

  function NatToString(n: nat): (r: string)
    ensures |r| >= 1
    ensures forall i :: 0 <= i < |r| ==> '0' <= r[i] <= '9'
    decreases n
  {
    if n < 10 then [DigitChar(n)] else NatToString(n / 10) + [DigitChar(n % 10)]
  }

  /** `str(n)` reads back as `n`. */
  lemma {:induction false} NatToStringValue(n: nat)
    ensures DecimalValue(NatToString(n)) == n
    decreases n
  {
    if n < 10 {
      assert [DigitChar(n)][..0] == [];
    } else {
      var s := NatToString(n);
      NatToStringValue(n / 10);
      assert s[..|s| - 1] == NatToString(n / 10);
    }
  }

  /** A leading zero does not change the value. */
  lemma {:induction false} LeadingZeroValue(s: string)
    ensures DecimalValue(['0'] + s) == DecimalValue(s)
    decreases |s|
  {
    if s != [] {
      var t := ['0'] + s;
      assert t[..|t| - 1] == ['0'] + s[..|s| - 1];
      assert t[|t| - 1] == s[|s| - 1];
      LeadingZeroValue(s[..|s| - 1]);
    } else {
      assert (['0'] + s)[..0] == [];
    }
  }

  /** `k` zero digits. */
  function Zeros(k: nat): (z: string)
    ensures |z| == k
    ensures forall i :: 0 <= i < k ==> z[i] == '0'
    decreases k
  {
    if k == 0 then [] else ['0'] + Zeros(k - 1)
  }

  /** Any number of leading zeros leaves the value unchanged. */
  lemma {:induction false} ZerosValue(k: nat, s: string)
    ensures DecimalValue(Zeros(k) + s) == DecimalValue(s)
    decreases k
  {
    if k > 0 {
      var z := Zeros(k - 1);
      assert Zeros(k) + s == ['0'] + (z + s);
      LeadingZeroValue(z + s);
      ZerosValue(k - 1, s);
    } else {
      assert Zeros(k) + s == s;
    }
  }

  // ---------------------------------------------------------------------------
  // Python's ordering of strings: lexicographic by code point, a proper prefix first

  predicate LexLeq(a: string, b: string)
    decreases |a|
  {
    a == [] || (b != [] && (a[0] < b[0] || (a[0] == b[0] && LexLeq(a[1..], b[1..]))))
  }

  lemma {:induction false} LexLeqTotal(a: string, b: string)
    ensures LexLeq(a, b) || LexLeq(b, a)
    decreases |a|
  {
    if a != [] && b != [] && a[0] == b[0] {
      LexLeqTotal(a[1..], b[1..]);
    }
  }

  lemma {:induction false} LexLeqTransitive(a: string, b: string, c: string)
    requires LexLeq(a, b) && LexLeq(b, c)
    ensures LexLeq(a, c)
    decreases |a|
  {
    if a != [] && a[0] == b[0] && b[0] == c[0] {
      LexLeqTransitive(a[1..], b[1..], c[1..]);
    }
  }
}

=== FILE: xml.dfy ===
/**
 * The element tree `xml.etree.ElementTree` builds: a tag, attributes in the order
 * they were set, optional text, and child elements in the order they were added.
 * Serialisation to bytes is not part of this model.
 */
module Xml {
  import opened Base

  datatype Attribute = Attribute(name: string, value: string)

  datatype Element = Element(tag: string, attributes: seq<Attribute>, text: Option<string>, children: seq<Element>)

  /** `ET.Element(tag)` with attributes and text, and no children yet. */
  function Leaf(tag: string, attributes: seq<Attribute>, text: Option<string>): (e: Element)
    ensures e.tag == tag && e.attributes == attributes && e.text == text && e.children == []
  {
    Element(tag, attributes, text, [])
  }

  /** The tags of a list of elements, in order. */
  function Tags(es: seq<Element>): (tags: seq<string>)
    ensures |tags| == |es|
    ensures forall i :: 0 <= i < |tags| ==> tags[i] == es[i].tag
  {
    seq(|es|, i requires 0 <= i < |es| => es[i].tag)
  }

  lemma TagsAppend(a: seq<Element>, b: seq<Element>)
    ensures Tags(a + b) == Tags(a) + Tags(b)
  {
  }

  /** The tags of the children, in document order. */
  function ChildTags(e: Element): (tags: seq<string>)
    ensures tags == Tags(e.children)
  {
    Tags(e.children)
  }
}
